=== FILE: README.md ===
# rake-pipeline core, modelled in Dafny

This project models the core of `rake-pipeline`, a Ruby library that turns a chain of
*filters* over a tree of input files into Rake file tasks. It also proves properties of
that model.

- **FileWrapper** (`file_wrapper.dfy`): a file named by a root directory, a relative path
  and an encoding. It covers identity (`eql?` and `hash`), `fullpath` with its
  absolute-root check, ordering (`<=>`) and the open/write/close life cycle of the output
  stream over a modelled disk.
- **Filter** (`filter.dfy`): a filter's input files re-encoded to its encoding, and the
  grouping of inputs by output name (`outputs` and `output_files`). It also covers the
  file tasks `generate_rake_tasks` defines, each with its full-path prerequisites.
- **ConcatFilter and OrderingConcatFilter** (`concat_filter.dfy`,
  `ordering_concat_filter.dfy`): concatenation of inputs into one output. The ordering
  filter first moves named inputs to the front.
- **PipelineFinalizingFilter** (`pipeline_finalizing_filter.dfy`): its inputs exclude the
  pipeline's own inputs.
- **Matcher, RejectMatcher and SortedPipeline** (`matcher.dfy`, `reject_matcher.dfy`,
  `sorted_pipeline.dfy`): pipelines that split inputs by a glob, drop inputs, or sort them.
- **Pipeline** (`pipeline.dfy`): `relative_input_files`, `build` (chaining filters through
  numbered temporary directories), `rake_tasks` and `generate_tmpname`.
- **ManifestEntry and Manifest** (`manifest_entry.dfy`, `manifest.dfy`): the
  dynamic-dependency records of a build and their JSON round trip.
- **DynamicFileTask** (`dynamic_file_task.dfy`): a file task whose extra prerequisites come
  from a block or from the previous build's manifest.
- **Graph** (`graph.dfy`): named nodes with parent and child links.

Ruby hashes are insertion-ordered: `Hashes.Hash` pairs a key sequence with a map (`hashes.dfy`).
Ruby's `select`, `reject` and `|=` on arrays are `Seqs.Filter` and `Seqs.Union`
(`seqs.dfy`). `paths.dfy` holds the string operations on paths: `File.join`, the `^`-anchored
`sub` and decimal formatting. Raised exceptions are values of `Errors.Error`, carried by
`Wrappers.Result`.

The file system is explicit:
- for file wrappers, it is a map from full path to contents (`FileWrappers.Disk`);
- for manifests, a map from file name to parsed JSON document (`Manifests.Store`);
- for dynamic tasks, a map from file name to integer mtime, together with the current time
  (`DynamicFileTasks.World`).

`File.expand_path` is a parameter, `expand`, of the pipeline operations.

## Model

| member | source | states |
|---|---|---|
| FileWrappers.New | lib/rake-pipeline/file_wrapper.rb:30-33 | a new wrapper has the given root and path and the default encoding "UTF-8" |
| FileWrappers.WithEncoding | lib/rake-pipeline/file_wrapper.rb:41-43 | the copy keeps root and path, takes the new encoding, and is still `eql?` to the original |
| FileWrappers.Eql | lib/rake-pipeline/file_wrapper.rb:50-63 | two wrappers are `eql?` exactly when their `hash` keys (root, path) coincide, so encoding never separates them as hash keys |
| FileWrappers.FullpathAsWritten | lib/rake-pipeline/file_wrapper.rb:68-71 | as written: succeeds exactly when some line of the root starts with `/` or a drive letter; the result is `File.join(root, path)`, and the error names root and path |
| FileWrappers.FullpathAsWrittenAcceptsRelativeRoot | lib/rake-pipeline/file_wrapper.rb:68-71 | the root "app\n/assets" is relative, yet the as-written check accepts it; the corrected check rejects it |
| FileWrappers.Fullpath | lib/rake-pipeline/file_wrapper.rb:68-71 | corrected: succeeds exactly when the root itself starts with `/` or `X:/`, `X:\`; otherwise raises with root and path |
| FileWrappers.FullpathAgreesOnSingleLineRoots | lib/rake-pipeline/file_wrapper.rb:68-71 | for roots without a newline, the corrected and the as-written check give the same result |
| FileWrappers.CompareStrings | lib/rake-pipeline/file_wrapper.rb:77-79 | String `<=>` yields -1, 0 or 1, and 0 exactly for equal strings |
| FileWrappers.CompareStringsAntisymmetric | lib/rake-pipeline/file_wrapper.rb:77-79 | swapping the operands of String `<=>` negates the result |
| FileWrappers.CompareStringsTransitive | lib/rake-pipeline/file_wrapper.rb:77-79 | String `<=>` is transitive |
| FileWrappers.Compare | lib/rake-pipeline/file_wrapper.rb:77-79 | wrapper `<=>` always yields -1, 0 or 1 |
| FileWrappers.CompareZeroIffEqual | lib/rake-pipeline/file_wrapper.rb:77-79 | comparing `[root, path, encoding]` gives 0 exactly for identical wrappers; wrappers that are `eql?` but differ in encoding compare non-zero |
| FileWrappers.CompareAntisymmetric | lib/rake-pipeline/file_wrapper.rb:77-79 | swapping the operands of wrapper `<=>` negates the result |
| FileWrappers.CompareTransitive | lib/rake-pipeline/file_wrapper.rb:77-79 | wrapper `<=>` is transitive |
| FileWrappers.Exists | lib/rake-pipeline/file_wrapper.rb:84-86 | raises when `fullpath` raises; otherwise true exactly when the full path is on disk |
| FileWrappers.Read | lib/rake-pipeline/file_wrapper.rb:96-108 | succeeds exactly when the full path exists, and returns that file's contents |
| FileWrappers.Create | lib/rake-pipeline/file_wrapper.rb:116-135 | opening for writing truncates the file at the full path and records the open stream |
| FileWrappers.Write | lib/rake-pipeline/file_wrapper.rb:160-163 | raises UnopenedFile exactly when no stream is open; otherwise appends to that file only |
| FileWrappers.Close | lib/rake-pipeline/file_wrapper.rb:141-153 | closing an open stream leaves it `closed?`; closing a closed one raises |
| FileWrappers.CloseTwiceRaises | lib/rake-pipeline/file_wrapper.rb:141-153 | after a successful close, a second close raises ClosedStream |
| FileWrappers.ClosedIffCloseAndWriteRaise | lib/rake-pipeline/file_wrapper.rb:141-163 | `closed?` holds exactly when both `close` and `write` raise, and fails exactly when both succeed |
| FileWrappers.CreateWith | lib/rake-pipeline/file_wrapper.rb:116-135 | `create` with a block always ends with the stream closed; a failing `fullpath` leaves the disk alone; otherwise the block's disk comes through, and its exception too unless the block closed the wrapper, in which case the `ensure` clause's `close` on `nil` raises instead |
| FileWrappers.CreateWithClosingBlockRaisesNil | lib/rake-pipeline/file_wrapper.rb:116-135 | a block that closes the wrapper itself makes `create` raise the `NoMethodError` of `nil.close`, even over the block's own exception |
| FileWrappers.WriteChunksAppends | lib/rake-pipeline/file_wrapper.rb:160-163 | successive writes append their strings in order |
| FileWrappers.CreateWithWritesThenCloses | lib/rake-pipeline/file_wrapper.rb:116-135 | a block that writes chunks leaves exactly their concatenation in the file, closes the stream, and re-raises the block's exception if there is one |
| Filters.New | lib/rake-pipeline/filter.rb:73-76 | its namer is the block when given, and the identity otherwise; the unassigned inputs start empty rather than nil (see Left out) |
| Filters.EncodingByClass | lib/rake-pipeline/filter.rb:83-85 | the encoding is "BINARY" exactly for classes that call `processes_binary_files`, else "UTF-8" |
| Filters.Encoding | lib/rake-pipeline/filter.rb:83-85 | the encoding is "UTF-8" or "BINARY", and "UTF-8" exactly for a plain filter class that does not process binary files |
| Filters.SetInputFiles | lib/rake-pipeline/filter.rb:102-106 | each input is stored re-encoded with the filter's encoding, position by position, still `eql?` to the original |
| Filters.OutputsOfShape | lib/rake-pipeline/filter.rb:147-158 | the output keys are the distinct namer images in first-seen order, and each maps to the inputs naming it |
| Filters.OutputsOfKeys | lib/rake-pipeline/filter.rb:147-158 | the keys of `outputs` are the outputs in order of first contribution, each once |
| Filters.OutputsOfGroups | lib/rake-pipeline/filter.rb:147-158 | each output's list is exactly the inputs naming it, in input order, repeats kept |
| Filters.InputsForSnoc | lib/rake-pipeline/filter.rb:150-154 | one more input joins the end of its own output's list and no other |
| Filters.Outputs | lib/rake-pipeline/filter.rb:147-169 | the keys of `outputs`, built by hash insertion, are exactly `output_files`, built by array union, in the same order |
| Filters.OutputFiles | lib/rake-pipeline/filter.rb:165-169 | `output_files` lists each input's output wrapper exactly once, and nothing else |
| Filters.OutputsContract | lib/rake-pipeline/filter.rb:147-169 | `output_files` are the keys of `outputs`, all under the output root in the filter's encoding; each input appears under its own output and under no other |
| Filters.OutputsTagged | lib/rake-pipeline/filter.rb:147-169 | every output is under the output root, in the filter's encoding |
| Filters.OutputsCover | lib/rake-pipeline/filter.rb:147-158 | every input is listed under its own output |
| Filters.OutputsUnique | lib/rake-pipeline/filter.rb:147-158 | an input is listed only under its own output |
| Filters.OutputsEqlIsEquality | lib/rake-pipeline/filter.rb:147-169 | among one filter's outputs, `eql?` coincides with equality |
| Filters.ConstantNamerSingleOutput | lib/rake-pipeline/filter.rb:147-158 | a namer with one name for every input yields one output carrying all inputs in order |
| Filters.Fullpaths | lib/rake-pipeline/filter.rb:182-192 | the full paths of a list of files, raising exactly when some root is not absolute |
| Filters.TasksForShape | lib/rake-pipeline/filter.rb:182-192 | one task per output, named by its full path, with its inputs' full paths as prerequisites; raising when any of those roots is relative |
| Filters.TasksForOk | lib/rake-pipeline/filter.rb:182-192 | defining the tasks succeeds exactly when every output root and every input root is absolute |
| Filters.GroupedMembership | lib/rake-pipeline/filter.rb:147-158 | the grouping holds every input under its image; every key is under the output root; nothing else is grouped |
| Filters.GroupedInputs | lib/rake-pipeline/filter.rb:147-158 | every input is grouped under its own output |
| Filters.KeysRooted | lib/rake-pipeline/filter.rb:147-169 | every output is under the output root |
| Filters.GroupedRootsAbsolute | lib/rake-pipeline/filter.rb:182-192 | all grouped roots are absolute exactly when the inputs' roots are, and the output root is too when there are inputs |
| Filters.GenerateRakeTasksOk | lib/rake-pipeline/filter.rb:182-192 | `generate_rake_tasks` succeeds exactly when all input roots are absolute and, if there are inputs, the output root is too |
| Filters.TasksForGrouped | lib/rake-pipeline/filter.rb:182-192 | each task is named by the output under the filter's output root and depends on the full paths of its group |
| Filters.GenerateRakeTasksShape | lib/rake-pipeline/filter.rb:182-192 | the tasks follow `output_files` order, one per output, each depending on the inputs that name it |
| Filters.GenerateRakeTasksContract | lib/rake-pipeline/filter.rb:182-192 | both directions of success, and on success the name and prerequisites of every task |
| Filters.GenerateRakeTasks | lib/rake-pipeline/filter.rb:182-192 | `generate_rake_tasks` raises exactly when some output or some input of an output has a non-absolute root; otherwise it defines one task per output |
| Filters.TasksForAllKeys | lib/rake-pipeline/filter.rb:182-192 | defining a task per key of a grouping succeeds exactly when every key and every grouped file has an absolute root, and then gives one task per key |
| ConcatFilters.New | lib/rake-pipeline/filters/concat_filter.rb:35-42 | a name string becomes a constant namer, else the block, else the identity; the encoding is "BINARY"; the unassigned inputs start empty rather than nil (see Left out) |
| ConcatFilters.NamedConcatHasOneOutput | lib/rake-pipeline/filters/concat_filter.rb:35-38 | a concat filter given a name has one output, fed by all inputs in order |
| ConcatFilters.GenerateOutput | lib/rake-pipeline/filters/concat_filter.rb:56-60 | `generate_output` leaves the output open and changes no file but the open output file; with no open output and at least one input, the first input's read error is raised if its read fails, and otherwise the first write raises `UnopenedFile` |
| ConcatFilters.ContentsUnaffected | lib/rake-pipeline/filters/concat_filter.rb:56-60 | writing the output file does not change what the inputs read, when no input is the output |
| ConcatFilters.GenerateOutputAppends | lib/rake-pipeline/filters/concat_filter.rb:56-60 | when every input reads and none is the output file, `generate_output` appends the inputs' contents, in order, to the output |
| ConcatFilters.AppendsStep | lib/rake-pipeline/filters/concat_filter.rb:56-60 | one loop step: the first input's contents are appended, then the rest |
| ConcatFilters.ContentsCons | lib/rake-pipeline/filters/concat_filter.rb:56-60 | the concatenated contents are the first input's followed by the rest's |
| ConcatFilters.Splice | lib/rake-pipeline/filters/concat_filter.rb:56-60 | two appends to the output file are one append of both strings |
| ConcatFilters.ReadAll | lib/rake-pipeline/filters/concat_filter.rb:56-60 | reading every input fails exactly when some input fails, and the error is that of the first failing input |
| ConcatFilters.FirstErrorShift | lib/rake-pipeline/filters/concat_filter.rb:56-60 | when the first input reads, the first failing input of the rest is the first failing input overall |
| ConcatFilters.ContentsSplit | lib/rake-pipeline/filters/concat_filter.rb:56-60 | the contents are the first input's followed by the rest's |
| ConcatFilters.GenerateOutputRaises | lib/rake-pipeline/filters/concat_filter.rb:56-60 | `generate_output` raises exactly the first input's read error, if any |
| ConcatFilters.ReadAllUnaffected | lib/rake-pipeline/filters/concat_filter.rb:56-60 | reads of inputs do not depend on the output file's contents |
| ConcatFilters.TaskActionConcatenates | lib/rake-pipeline/filter.rb:182-192 | when every input reads and none is the output file, the task action leaves the output file holding exactly the concatenated inputs, closed, without raising |
| ConcatFilters.TaskAction | lib/rake-pipeline/filter.rb:182-192 | the task action always closes the output; without a full path for the output it changes nothing and raises the `NoMethodError` of `nil.close`; otherwise it changes no file but the output file |
| OrderingConcatFilters.New | lib/rake-pipeline/filters/ordering_concat_filter.rb:22-25 | a concat filter that remembers its ordering; binary, same namer rules; the unassigned inputs start empty rather than nil (see Left out) |
| OrderingConcatFilters.Find | lib/rake-pipeline/filters/ordering_concat_filter.rb:32 | `find` returns the first input with that path, or none |
| OrderingConcatFilters.Step | lib/rake-pipeline/filters/ordering_concat_filter.rb:32-33 | one step moves the found input to the front, deleting every input `==` to it |
| OrderingConcatFilters.StepUnique | lib/rake-pipeline/filters/ordering_concat_filter.rb:32-33 | with unique paths, a step is the found input followed by the others in their order |
| OrderingConcatFilters.Reorder | lib/rake-pipeline/filters/ordering_concat_filter.rb:30-36 | reordering yields only files that were inputs |
| OrderingConcatFilters.ReorderClosedForm | lib/rake-pipeline/filters/ordering_concat_filter.rb:30-36 | with unique paths, the result is the named inputs in first-listed order, then the unnamed inputs in original order |
| OrderingConcatFilters.ReorderSubset | lib/rake-pipeline/filters/ordering_concat_filter.rb:30-36 | reordering only yields inputs |
| OrderingConcatFilters.PicksPaths | lib/rake-pipeline/filters/ordering_concat_filter.rb:30-36 | the front section's paths are the listed names that some input has, in first-listed order |
| OrderingConcatFilters.ReorderPermutes | lib/rake-pipeline/filters/ordering_concat_filter.rb:30-36 | with no two inputs `==`, reordering is a permutation of the inputs |
| OrderingConcatFilters.ReorderContract | lib/rake-pipeline/filters/ordering_concat_filter.rb:30-36 | for inputs with unique paths: named inputs first, by the ordering, then the rest in their order; the result is a permutation |
| OrderingConcatFilters.TaskActionConcatenatesReordered | lib/rake-pipeline/filters/ordering_concat_filter.rb:30-36 | when every input reads and none is the output file, the output file holds the reordered inputs' contents |
| OrderingConcatFilters.GenerateOutput | lib/rake-pipeline/filters/ordering_concat_filter.rb:30-36 | the ordering filter's `generate_output` leaves the output open and changes no file but the open output file |
| PipelineFinalizingFilters.EffectiveInputs | lib/rake-pipeline/filters/pipeline_finalizing_filter.rb:13-16 | an input is kept exactly when it is not `==` to any of the pipeline's input files |
| PipelineFinalizingFilters.EffectiveInputsSubsequence | lib/rake-pipeline/filters/pipeline_finalizing_filter.rb:13-16 | the kept inputs keep their order |
| PipelineFinalizingFilters.ReencodedPipelineInputRemoved | lib/rake-pipeline/filters/pipeline_finalizing_filter.rb:13-16 | a pipeline input is removed whatever encoding it has been given since |
| Matchers.EligibleInputFiles | lib/rake-pipeline/matcher.rb:45-49 | exactly the inputs whose path matches the glob, in order |
| Matchers.PassThrough | lib/rake-pipeline/matcher.rb:34-38 | exactly the inputs whose path does not match, in order |
| Matchers.OutputFiles | lib/rake-pipeline/matcher.rb:34-38 | the chain's outputs followed by the unmatched inputs |
| Matchers.EligiblePartition | lib/rake-pipeline/matcher.rb:34-49 | matched and passed-through inputs partition the inputs as a multiset |
| Matchers.MatchAllOrNone | lib/rake-pipeline/matcher.rb:34-49 | a glob matching everything passes nothing through, and one matching nothing passes everything |
| RejectMatchers.OutputFiles | lib/rake-pipeline/reject_matcher.rb:18-26 | an input is kept exactly when it is not rejected, in order |
| RejectMatchers.BlockDecidesAlone | lib/rake-pipeline/reject_matcher.rb:18-26 | with a block set, the pattern plays no part |
| RejectMatchers.NothingSetKeepsAll | lib/rake-pipeline/reject_matcher.rb:18-26 | with neither block nor pattern, every input is kept |
| RejectMatchers.RejectIdempotent | lib/rake-pipeline/reject_matcher.rb:18-26 | rejecting twice is rejecting once |
| SortedPipelines.Insert | lib/rake-pipeline/sorted_pipeline.rb:6-8 | insertion adds exactly the one element |
| SortedPipelines.Sort | lib/rake-pipeline/sorted_pipeline.rb:6-8 | the sorted list is a permutation of the inputs |
| SortedPipelines.InsertSorted | lib/rake-pipeline/sorted_pipeline.rb:6-8 | inserting into a sorted list keeps it sorted under a total, transitive comparator |
| SortedPipelines.SortSorted | lib/rake-pipeline/sorted_pipeline.rb:6-8 | `output_files` is sorted by the comparator and a permutation of `input_files` |
| SortedPipelines.CompareIsConsistent | lib/rake-pipeline/file_wrapper.rb:77-79 | wrapper `<=>` and its reverse are total and transitive, so they qualify as comparators |
| SortedPipelines.Finalize | lib/rake-pipeline/sorted_pipeline.rb:10-16 | `finalize` keeps the input files, so every input file is still an output file, each as often as it was an input |
| SortedPipelines.FinalizeKeepsSortedInputs | lib/rake-pipeline/sorted_pipeline.rb:6-16 | after `finalize`, with a consistent comparator, the output files are all the input files in comparator order |
| Pipelines.New | lib/rake-pipeline.rb:14-17 | a new pipeline has no filters and a temporary counter at 0 |
| Pipelines.Configure | lib/rake-pipeline.rb:62-68 | assigning a stage's input root, input files and output root keeps its behaviour |
| Pipelines.GenerateTmpname | lib/rake-pipeline.rb:85-87 | the counter is incremented first, and the name carries the new value |
| Pipelines.TmpNameInjective | lib/rake-pipeline.rb:85-87 | different counter values give different names |
| Pipelines.IterateCounter | lib/rake-pipeline.rb:85-87 | k calls advance the counter by k |
| Pipelines.GenerateTmpnameFresh | lib/rake-pipeline.rb:85-87 | a name generated later is never one generated earlier |
| Pipelines.RelativeInputFiles | lib/rake-pipeline.rb:44-55 | raises Pipeline::Error exactly when the input root or files are missing; one result per input file |
| Pipelines.RelativeInputFilesStripRoot | lib/rake-pipeline.rb:44-55 | each expanded file loses the expanded root plus `/` when it starts with it, and is kept whole otherwise |
| Pipelines.WireOk | lib/rake-pipeline.rb:61-72 | the chaining loop succeeds unless there are filters and no output root, where `File.expand_path(nil)` raises |
| Pipelines.Wire | lib/rake-pipeline.rb:61-72 | the chaining loop raises the nil-path error exactly when there are filters and no output root; otherwise it configures every filter and advances the counter once per filter but the last |
| Pipelines.WireStep | lib/rake-pipeline.rb:61-72 | a non-last filter gets the current root and files and a fresh temporary output root; the next filter starts from there |
| Pipelines.WireStages | lib/rake-pipeline.rb:61-72 | every filter is configured, keeping its behaviour; the counter advances once per non-last filter |
| Pipelines.WireChain | lib/rake-pipeline.rb:61-72 | each filter's input root and files are the previous filter's output root and output files; temporary roots are numbered in order; the last writes to the expanded output root |
| Pipelines.Build | lib/rake-pipeline.rb:57-73 | `build` leaves input root, input files and output root as they were |
| Pipelines.BuildOk | lib/rake-pipeline.rb:57-73 | `build` succeeds exactly when input root and files are set and, with filters, the output root is set; the error is Pipeline::Error or the nil-path TypeError accordingly |
| Pipelines.BuildUnfold | lib/rake-pipeline.rb:57-73 | `build` chains the filters from the expanded root and relative input files |
| Pipelines.BuildStages | lib/rake-pipeline.rb:57-73 | after `build` every filter is configured, and the counter has advanced by one less than the number of filters |
| Pipelines.BuildChain | lib/rake-pipeline.rb:57-73 | the first filter reads the expanded input root; each later filter reads its predecessor's output |
| Pipelines.BuildWired | lib/rake-pipeline.rb:57-73 | after `build` the filters form one chain from the expanded input root and relative files, through numbered temporary roots, to the expanded output root |
| Pipelines.ChainLast | lib/rake-pipeline.rb:61-72 | in a chain, the last filter reads the input root when alone, else the last temporary root |
| Pipelines.LastStage | lib/rake-pipeline.rb:57-82 | the last filter keeps its tasks, writes the expanded output root, and reads the expanded input root when alone, else the last temporary root |
| Pipelines.ChainCons | lib/rake-pipeline.rb:61-72 | one more filter in front, writing the next temporary root, extends the chain back to its own input root |
| Pipelines.BuildOutputRoots | lib/rake-pipeline.rb:57-73 | each non-last output root is the name `generate_tmpname` yields at that point; the last is the expanded output root |
| Pipelines.BuildTmpRoots | lib/rake-pipeline.rb:57-73 | each non-last output root is the temporary root numbered after it; the last is the expanded output root |
| Pipelines.TmpRootsGenerated | lib/rake-pipeline.rb:85-87 | the numbered temporary root is the name `generate_tmpname` yields after that many calls |
| Pipelines.RakeTasksContract | lib/rake-pipeline.rb:75-82 | `rake_tasks` fails exactly when `build` fails; with filters it returns the last filter's tasks over its wired input root, files and the expanded output root |
| Pipelines.RakeTasks | lib/rake-pipeline.rb:75-82 | `rake_tasks` fails exactly when `build` fails, and returns nothing exactly when there are no filters |
| Pipelines.RakeTasksLast | lib/rake-pipeline.rb:75-82 | `rake_tasks` returns the last filter's tasks, that filter reading the wired root and writing the expanded output root |
| ManifestEntries.New | lib/rake-pipeline/manifest_entry.rb:20-22 | a new entry has no dependencies and no mtime |
| ManifestEntries.FromHash | lib/rake-pipeline/manifest_entry.rb:6-16 | `from_hash` raises exactly when `"deps"` is missing, and copies `"mtime"` |
| ManifestEntries.AsJson | lib/rake-pipeline/manifest_entry.rb:24-26 | `as_json` always carries the dependencies |
| ManifestEntries.FromHashCopies | lib/rake-pipeline/manifest_entry.rb:6-16 | the parsed dependencies are the document's, in the same order |
| ManifestEntries.FromHashAsJson | lib/rake-pipeline/manifest_entry.rb:6-26 | parsing the JSON form of an entry gives the entry back |
| ManifestEntries.AsJsonFromHash | lib/rake-pipeline/manifest_entry.rb:6-26 | the JSON form of a parsed entry is the document it came from |
| ManifestEntries.EqualIffSameLookups | lib/rake-pipeline/manifest_entry.rb:28-31 | `==` holds exactly when every dependency looks up alike, regardless of order |
| ManifestEntries.EqualIgnoresMtime | lib/rake-pipeline/manifest_entry.rb:28-31 | `==` discards the mtime comparison |
| ManifestEntries.Equal | lib/rake-pipeline/manifest_entry.rb:28-31 | entries that are `==` look up every dependency name alike |
| Manifests.New | lib/rake-pipeline/manifest.rb:13-16 | a new manifest has the given file name and no entries |
| Manifests.Lookup | lib/rake-pipeline/manifest.rb:53-55 | an entry is found exactly for recorded keys |
| Manifests.Assign | lib/rake-pipeline/manifest.rb:58-60 | assigning keeps the manifest file |
| Manifests.AssignThenLookup | lib/rake-pipeline/manifest.rb:53-60 | after `m[k] = v`, `m[k]` is `v` and other keys are unaffected |
| Manifests.IsEmptyIffNoLookup | lib/rake-pipeline/manifest.rb:53-64 | `empty?` exactly when no key has an entry |
| Manifests.IsEmpty | lib/rake-pipeline/manifest.rb:62-64 | `empty?` holds exactly when no entry is recorded |
| Manifests.AsJson | lib/rake-pipeline/manifest.rb:42-50 | same keys in the same order, each entry in its JSON form |
| Manifests.ParseEntries | lib/rake-pipeline/manifest.rb:23-25 | entries are parsed in place, keeping key order; an entry without `"deps"` raises |
| Manifests.Read | lib/rake-pipeline/manifest.rb:19-28 | a missing manifest file gives no entries; an existing one loads iff every entry has deps (else `each` on nil raises), with the document's keys in order and each entry `from_hash` of its hash; the file name is kept |
| Manifests.Write | lib/rake-pipeline/manifest.rb:32-38 | an empty manifest writes nothing; otherwise only the manifest's own file is written |
| Manifests.WriteThenRead | lib/rake-pipeline/manifest.rb:19-50 | writing a non-empty manifest and reading the same file back restores its entries, in order |
| Manifests.ParseAsJson | lib/rake-pipeline/manifest.rb:23-50 | parsing the JSON form of the entries gives back the same entries in the same order |
| Manifests.AsJsonParsable | lib/rake-pipeline/manifest.rb:23-25 | the JSON form of every entry carries its `"deps"`, so `from_hash` accepts it when read back |
| Manifests.WriteEmptyThenRead | lib/rake-pipeline/manifest.rb:19-38 | writing an empty manifest leaves what a read finds unchanged |
| Manifests.LastMention | lib/rake-pipeline/manifest.rb:66-79 | a file is mentioned exactly when it is an output or some entry's dependency |
| Manifests.FilesLookup | lib/rake-pipeline/manifest.rb:66-79 | `files` maps each file to the last mention in key order, own mtime or dependency mtime, and holds exactly the outputs and their dependencies |
| Manifests.Files | lib/rake-pipeline/manifest.rb:66-79 | `files` gives every file the word of the last entry, in key order, that mentions it |
| DynamicFileTasks.Dynamic | lib/rake-pipeline/dynamic_file_task.rb:91-94 | `dynamic` installs a block and changes nothing else |
| DynamicFileTasks.MtimeOrNow | lib/rake-pipeline/dynamic_file_task.rb:162-164 | a file's mtime when it exists, the current time otherwise |
| DynamicFileTasks.Guard | lib/rake-pipeline/dynamic_file_task.rb:58-61 | ManifestRequired exactly when the task has a block and no manifest |
| DynamicFileTasks.StaleScanContract | lib/rake-pipeline/dynamic_file_task.rb:78-83 | when every dependency exists, the scan answers whether some is newer than recorded; otherwise it raises for a missing one |
| DynamicFileTasks.LastEntry | lib/rake-pipeline/dynamic_file_task.rb:52-54 | `last_manifest[name]` raises exactly when there is no last manifest |
| DynamicFileTasks.NeededContract | lib/rake-pipeline/dynamic_file_task.rb:68-84 | needed when Rake or a prerequisite says so, or the last manifest has no entry; otherwise exactly when a recorded dependency is newer, raising for a missing one |
| DynamicFileTasks.Needed | lib/rake-pipeline/dynamic_file_task.rb:68-84 | `needed?` is true whenever Rake or a prerequisite says so; it raises only past those checks, for a missing last manifest or else a missing dependency; it is false only when the last manifest has this task's entry |
| DynamicFileTasks.FromManifest | lib/rake-pipeline/dynamic_file_task.rb:170-186 | raises exactly when `needed?` does; yields the recorded dependency names exactly when the task is not needed, has an entry, and its output exists with the recorded mtime |
| DynamicFileTasks.DynamicPrerequisites | lib/rake-pipeline/dynamic_file_task.rb:105-118 | the result is memoised; a memoised task returns the memo |
| DynamicFileTasks.DynamicPrerequisitesContract | lib/rake-pipeline/dynamic_file_task.rb:105-118 | never the task itself; none without a block; else the manifest's list when the fast path applies, the block's otherwise |
| DynamicFileTasks.DynamicPrerequisitesMemoised | lib/rake-pipeline/dynamic_file_task.rb:105-118 | a second call returns the first call's list, whatever the file system |
| DynamicFileTasks.FastPath | lib/rake-pipeline/dynamic_file_task.rb:170-186 | with an up-to-date output, the dependencies come from the last manifest without calling the block |
| DynamicFileTasks.RecordOnlyOnFastPath | lib/rake-pipeline/dynamic_file_task.rb:170-186 | the recorded list is used only when the task is not needed and the output's mtime matches |
| DynamicFileTasks.InvokePrerequisites | lib/rake-pipeline/dynamic_file_task.rb:122-149 | raises ManifestRequired for a block without a manifest; on success the task keeps name and last manifest |
| DynamicFileTasks.InvokePrerequisitesRecords | lib/rake-pipeline/dynamic_file_task.rb:122-149 | the new entry records each dynamic dependency once, with its mtime after the prerequisites ran; other entries are unchanged |
| DynamicFileTasks.StampMtime | lib/rake-pipeline/dynamic_file_task.rb:153-157 | stamping succeeds exactly when the manifest has the task's entry |
| DynamicFileTasks.Invoke | lib/rake-pipeline/dynamic_file_task.rb:58-61 | a task with a block but no manifest raises before anything runs |
| DynamicFileTasks.InvokeRecords | lib/rake-pipeline/dynamic_file_task.rb:58-61 | after invoke, the entry holds the output's mtime after the action and each dependency's mtime after the prerequisites |
| Graphs.New | lib/rake-pipeline/graph.rb:70-72 | an empty graph is consistent |
| Graphs.Nodes | lib/rake-pipeline/graph.rb:75-77 | the nodes in insertion order |
| Graphs.Lookup | lib/rake-pipeline/graph.rb:142-144 | the node of that name, or none |
| Graphs.Add | lib/rake-pipeline/graph.rb:84-87 | adding an existing name changes nothing; a new name becomes a node with no links at the end |
| Graphs.Verify | lib/rake-pipeline/graph.rb:171-175 | raises MissingNode naming the node exactly when it is absent |
| Graphs.LookupPair | lib/rake-pipeline/graph.rb:155-160 | raises for the parent first, then the child, when missing |
| Graphs.Link | lib/rake-pipeline/graph.rb:118-123 | succeeds exactly when both nodes exist |
| Graphs.Unlink | lib/rake-pipeline/graph.rb:131-136 | succeeds exactly when both nodes exist |
| Graphs.Remove | lib/rake-pipeline/graph.rb:95-107 | succeeds exactly when the node exists, else raises MissingNode |
| Graphs.LinkErrors | lib/rake-pipeline/graph.rb:118-136 | link and unlink name the missing parent, else the missing child |
| Graphs.AddKeepsOrder | lib/rake-pipeline/graph.rb:84-87 | a new node is appended to `nodes`, and an existing name leaves `nodes` unchanged |
| Graphs.AddConsistent | lib/rake-pipeline/graph.rb:84-87 | adding keeps parent and child links mutually consistent |
| Graphs.LinkContract | lib/rake-pipeline/graph.rb:118-123 | link adds exactly that edge in both directions, keeps consistency, node order and metadata |
| Graphs.UnlinkContract | lib/rake-pipeline/graph.rb:131-136 | unlink removes exactly that edge in both directions, keeps consistency, node order and metadata |
| Graphs.UnlinkUndoesLink | lib/rake-pipeline/graph.rb:118-136 | unlinking a freshly added edge restores the graph |
| Graphs.RemoveContract | lib/rake-pipeline/graph.rb:95-107 | remove deletes the node and every edge to it, keeps other edges, order and metadata, and keeps consistency |
| Graphs.NodeEqInGraph | lib/rake-pipeline/graph.rb:65-67 | within a consistent graph, nodes are `==` exactly when they are the same node |
| Graphs.NodeEq | lib/rake-pipeline/graph.rb:65-67 | nodes are `==` exactly when they differ at most in their links and metadata |
| Paths.JoinShape | lib/rake-pipeline/file_wrapper.rb:68-71 | `File.join(root, path)` starts with the root less its trailing separators and ends with the path, with one `/` between them when neither supplies one |
| Paths.NatToStringInjective | lib/rake-pipeline.rb:85-87 | distinct counter values render as distinct decimal strings |
| Paths.SubLineStartPrefix | lib/rake-pipeline.rb:54 | `sub(/^prefix/, '')` removes the prefix at the first line start where it occurs, and leaves the string alone when no line starts with it |
| Paths.SubSingleLine | lib/rake-pipeline.rb:54 | on a string without newlines, the line-anchored `sub` removes a leading prefix and nothing else |

## Left out

- Every member below uses FileWrappers.Fullpath, the corrected root check of the Findings
  table, not the line-anchored check as written. A root such as "app\n/assets", whose
  second line starts with `/`, is accepted by the code as written but raises
  RootNotAbsolute in the model. On roots without a newline the two checks agree
  (FileWrappers.FullpathAgreesOnSingleLineRoots), so each contract below holds of the code
  as written for such roots.
- FileWrappers.Exists: raises for a multi-line relative root that the code as written accepts.
- FileWrappers.Read: raises for a multi-line relative root that the code as written accepts.
- FileWrappers.Create: raises for a multi-line relative root that the code as written accepts.
- FileWrappers.CreateWith: takes the error path for a multi-line relative root that the code as
  written accepts.
- Filters.Fullpaths: absoluteness is `Paths.IsAbsolute` of the whole root, not of any line.
- Filters.TasksForShape: absoluteness is `Paths.IsAbsolute` of the whole root, not of any line.
- Filters.TasksForOk: absoluteness is `Paths.IsAbsolute` of the whole root, not of any line.
- Filters.TasksForAllKeys: absoluteness is `Paths.IsAbsolute` of the whole root, not of any line.
- Filters.GroupedRootsAbsolute: absoluteness is `Paths.IsAbsolute` of the whole root, not of any
  line.
- Filters.GenerateRakeTasks: absoluteness is `Paths.IsAbsolute` of the whole root, not of any line.
- Filters.GenerateRakeTasksOk: absoluteness is `Paths.IsAbsolute` of the whole root, not of any
  line.
- Filters.GenerateRakeTasksContract: absoluteness is `Paths.IsAbsolute` of the whole root, not of
  any line.
- ConcatFilters.TaskAction: takes the error path for a multi-line relative output root that the
  code as written accepts.
- Filters.New: Ruby's `initialize` never assigns `@input_files`, so it is nil, and
  `outputs`, `output_files` and `generate_rake_tasks` raise NoMethodError on a filter that
  was never given inputs. The model starts the inputs at `[]`, which gives no outputs and no
  tasks. `build` assigns `input_files` to every filter before it asks for that filter's
  output files (rake-pipeline.rb:61-72), so the two differ only for a filter used outside
  a pipeline.
- ConcatFilters.New: inherits the `[]` start of Filters.New in place of Ruby's nil inputs.
- OrderingConcatFilters.New: inherits the `[]` start of Filters.New in place of Ruby's nil
  inputs.
- File contents encoding: UTF-8 validity, `force_encoding` and binary reads, and the
  directory creation in `create` (`mkdir_p`). The disk is a map of strings.
- Rake itself: task definition, the base `FileTask#needed?` (the `baseNeeded` flag),
  `prerequisites_needed?` (the `prerequisitesNeeded` flag), prerequisite lookup and
  invocation, and call-chain cycle detection.
- What `Filter#create_file_task` passes to Rake beyond the task name and prerequisites.
- The DSLs, command line, Project, Runner, server, Rack middleware and Rails integration.
  They sit outside the core.
- `filters/concat.rb`, which only aliases the concat filter, and `filters/gsub_filter.rb`.
  The gsub filter's content rewriting is outside the core.
- Filters whose output-name block yields several names per input; the model's namer
  yields one.
- RejectMatchers.OutputFiles: `@pattern` is never assigned in the class. The pattern is an
  optional predicate in the model, and a glob's matching rules are a parameter.
- SortedPipelines.Sort: insertion sort is stable, Ruby's `sort` is not. The model only
  fixes the order up to the comparator: sorted, and a permutation.
- `File.join` is modelled with POSIX separators only.
- OrderingConcatFilters.ReorderClosedForm: stated for inputs with distinct paths. With
  duplicate paths, `Array#delete` removes every `==` copy; that is modelled in `Step` but
  not characterised.
- The ordering filter reorders the caller's `inputs` array in place. Only the returned
  order is modelled.
- ConcatFilters.GenerateOutputRaises: stated when no input is the output file itself
  (`NoAlias`).
- ConcatFilters.GenerateOutput: writes are modelled unbuffered and visible at once to a
  later `read` of the same path. Ruby writes through a buffered stream opened with "w", and
  `read` opens the path afresh, so an input that is the output file itself reads the
  truncated, not-yet-flushed file. The two differ only when an input is the output; the
  lemmas about the written contents (GenerateOutputAppends, TaskActionConcatenates,
  TaskActionConcatenatesReordered) are stated only when no input is the output.
- OrderingConcatFilters.ReorderContract: stated for inputs with unique paths. When two
  inputs share a path under different roots, `find` moves only the first of them to the
  front and the other stays among the rest; that case is modelled in `Step` but the closed
  form and the permutation are not stated for it.
- When `build` raises part-way, the filters already wired and the counter values consumed
  are not modelled. The error is returned and the pipeline is unchanged.
- Pipelines.RakeTasksContract: with no filters, Ruby's `each_cons` returns its receiver.
  The model returns none.
- `File.expand_path` is a parameter (`expand`), since it depends on the working directory.
- JSON text, JSON generation and timestamp parsing: manifests are parsed documents with
  integer mtimes.
- Ruby `Set` identity for graph links is modelled by node name.
- A dynamic block is modelled by the list it returns.
- DynamicFileTasks.Invoke: the file system after the prerequisites and after the action
  are parameters (`after`, `middle`, `end`). Running them is Rake's concern. Rake's
  `execute if needed?` step between them is not modelled either: that second `needed?` can
  raise (for example `last_manifest[name]` on a nil last manifest), so an Ok from Invoke
  does not mean Ruby's `invoke` succeeds.
- DynamicFileTasks.NeededContract: Rake re-evaluates `needed?` after prerequisites run;
  only one evaluation over one file-system state is modelled.
- Node metadata mutation in the graph.
- `build` gives filters after the first the relative root `rake-pipeline-tmp-N`.
  `Filter#generate_rake_tasks` then raises on them, since nothing expands them. The model
  keeps this as the code has it: Pipelines.BuildOutputRoots states the
  literal name and Filters.GenerateRakeTasksOk the absolute-root requirement.

## Findings

| source | as written | input that shows it | evidently intended | confidence | as-written member | corrected member |
|---|---|---|---|---|---|---|
| lib/rake-pipeline/file_wrapper.rb:68-71 | the absolute-root test `/^(\/\|[a-zA-Z]:[\\\/])/` uses `^`, which in Ruby matches at the start of any line | root "app\n/assets" with path "a.js": the second line starts with `/`, so no error is raised for a relative root | only the start of the whole root string is tested (`\A`) | not executed | FileWrappers.FullpathAsWritten | FileWrappers.Fullpath |

=== FILE: concat_filter.dfy ===
/** `Rake::Pipeline::ConcatFilter`: writes the contents of every input, in order, into
    its output. */
module ConcatFilters {
  import opened Wrappers
  import opened Errors
  import opened FileWrappers
  import Filters

  /** `initialize(string = nil, &block)`: a given output name wins over the block and
      sends every input to that one name; with neither, the output name is the input path. */
  function New(name: Option<string>, block: Option<string -> string>): (f: Filters.Filter)
    ensures f.kind == Filters.Concat && f.inputFiles == []
    ensures name.Some? ==> forall p :: f.namer(p) == name.value
    ensures name.None? && block.Some? ==> f.namer == block.value
    ensures name.None? && block.None? ==> forall p :: f.namer(p) == p
    ensures Filters.Encoding(f) == BINARY
  {
    var named: Option<string -> string> := if name.Some? then Some(_ => name.value) else block;
    Filters.New(Filters.Concat, named)
  }

  /** A concatenation filter with an output name has exactly one output, fed by all of
      its inputs in order. */
  lemma NamedConcatHasOneOutput(name: string, block: Option<string -> string>, files: seq<FileWrapper>)
    requires files != []
    ensures var f := Filters.SetInputFiles(New(Some(name), block), files);
            && Filters.Outputs(f).keys == [Filters.OutputWrapper(f, name)]
            && Filters.Outputs(f).m[Filters.OutputWrapper(f, name)] == f.inputFiles
  {
    var f := Filters.SetInputFiles(New(Some(name), block), files);
    Filters.ConstantNamerSingleOutput(f, name);
  }

  /** `generate_output(inputs, output)`: `output.write input.read` for each input in turn.
      A read or a write that raises ends the loop with what was written so far. The
      output is left open, and no file but the open output file changes. */
  function GenerateOutput(inputs: seq<FileWrapper>, out: Handle, disk: Disk): (r: Effect)
    ensures r.handle == out
    ensures forall p :: p in disk && Some(p) != out.created ==> p in r.disk && r.disk[p] == disk[p]
    ensures out.created.None? && inputs != [] ==>
              r.raised == Some(if Read(inputs[0], disk).Err? then Read(inputs[0], disk).error else UnopenedFile)
    decreases |inputs|
  {
    if inputs == [] then Effect(out, disk, None)
    else
      match Read(inputs[0], disk)
      case Err(e) => Effect(out, disk, Some(e))
      case Ok(s) =>
        match Write(out, disk, s)
        case Err(e) => Effect(out, disk, Some(e))
        case Ok(d) => GenerateOutput(inputs[1..], out, d)
  }

  /** Every input can be read and none of them is the open output file itself. */
  predicate Readable(inputs: seq<FileWrapper>, out: Handle, disk: Disk)
    requires out.created.Some?
  {
    forall x :: x in inputs ==> Read(x, disk).Ok? && Fullpath(x).value != out.created.value
  }

  /** The contents of readable inputs, in order. */
  function Contents(inputs: seq<FileWrapper>, disk: Disk): (r: seq<string>)
    requires forall x :: x in inputs ==> Read(x, disk).Ok?
    ensures |r| == |inputs|
    ensures forall i :: 0 <= i < |inputs| ==> r[i] == Read(inputs[i], disk).value
  {
    seq(|inputs|, i requires 0 <= i < |inputs| => Read(inputs[i], disk).value)
  }

  /** Writing to the output does not change what the other inputs read. */
  lemma ContentsUnaffected(inputs: seq<FileWrapper>, out: Handle, disk: Disk, d: Disk)
    requires out.created.Some? && Readable(inputs, out, disk)
    requires forall p :: p in disk && p != out.created.value ==> p in d && d[p] == disk[p]
    ensures Readable(inputs, out, d)
    ensures Contents(inputs, d) == Contents(inputs, disk)
  {
    forall x | x in inputs ensures Read(x, d).Ok? && Read(x, d).value == Read(x, disk).value {
    }
  }

  /** With readable inputs and an open output file, the file ends up holding what it
      held before followed by every input's contents in input order, and nothing raises. */
  lemma {:induction false} GenerateOutputAppends(inputs: seq<FileWrapper>, out: Handle, disk: Disk)
    requires out.created.Some? && out.created.value in disk && Readable(inputs, out, disk)
    ensures var fp := out.created.value;
            GenerateOutput(inputs, out, disk) == Effect(out, disk[fp := disk[fp] + Concat(Contents(inputs, disk))], None)
    decreases |inputs|
  {
    var fp := out.created.value;
    if inputs == [] {
      assert disk[fp] + Concat(Contents(inputs, disk)) == disk[fp];
      assert disk[fp := disk[fp]] == disk;
    } else {
      AppendsStep(inputs, out, disk);
    }
  }

  lemma {:induction false} AppendsStep(inputs: seq<FileWrapper>, out: Handle, disk: Disk)
    requires out.created.Some? && out.created.value in disk && Readable(inputs, out, disk) && inputs != []
    ensures var fp := out.created.value;
            GenerateOutput(inputs, out, disk) == Effect(out, disk[fp := disk[fp] + Concat(Contents(inputs, disk))], None)
    decreases |inputs|, 0
  {
    var fp := out.created.value;
    var s := Read(inputs[0], disk).value;
    var d := Write(out, disk, s).value;
    assert GenerateOutput(inputs, out, disk) == GenerateOutput(inputs[1..], out, d);
    ContentsUnaffected(inputs[1..], out, disk, d);
    GenerateOutputAppends(inputs[1..], out, d);
    ContentsCons(inputs, disk);
    Splice(disk, d, fp, s, Concat(Contents(inputs[1..], disk)));
  }

  lemma ContentsCons(inputs: seq<FileWrapper>, disk: Disk)
    requires inputs != [] && forall x :: x in inputs ==> Read(x, disk).Ok?
    ensures Concat(Contents(inputs, disk)) == Read(inputs[0], disk).value + Concat(Contents(inputs[1..], disk))
  {
    assert Contents(inputs, disk)[1..] == Contents(inputs[1..], disk);
  }

  /** Appending `s` and then `c` to the file at `fp` appends `s + c`. */
  lemma Splice(disk: Disk, d: Disk, fp: string, s: string, c: string)
    requires fp in disk && fp in d && d[fp] == disk[fp] + s
    requires forall p :: p in disk && p != fp ==> p in d && d[p] == disk[p]
    requires d.Keys == disk.Keys + {fp}
    ensures d[fp := d[fp] + c] == disk[fp := disk[fp] + (s + c)]
  {
    assert (disk[fp] + s) + c == disk[fp] + (s + c);
  }

  /** No input that has a full path has the output's. */
  predicate NoAlias(inputs: seq<FileWrapper>, fp: string) {
    forall x :: x in inputs && Fullpath(x).Ok? ==> Fullpath(x).value != fp
  }

  /** Reading every input in order, stopping at the first that raises. */
  function ReadAll(inputs: seq<FileWrapper>, disk: Disk): (r: Result<seq<string>, Error>)
    ensures r.Ok? <==> forall x :: x in inputs ==> Read(x, disk).Ok?
    ensures r.Ok? ==> r.value == Contents(inputs, disk)
    ensures r.Err? ==> FirstError(inputs, disk, r.error)
  {
    if inputs == [] then Ok([])
    else
      ReadableCons(inputs, disk);
      match Read(inputs[0], disk)
      case Err(e) =>
        assert FirstErrorAt(inputs, disk, e, 0);
        Err(e)
      case Ok(s) =>
        match ReadAll(inputs[1..], disk)
        case Err(e) =>
          FirstErrorShift(inputs, disk, e);
          Err(e)
        case Ok(rest) =>
          ContentsSplit(inputs, disk);
          Ok([s] + rest)
  }

  /** Every input reads exactly when the first does and every later one does. */
  lemma ReadableCons(inputs: seq<FileWrapper>, disk: Disk)
    requires inputs != []
    ensures (forall x :: x in inputs ==> Read(x, disk).Ok?)
            <==> Read(inputs[0], disk).Ok? && forall x :: x in inputs[1..] ==> Read(x, disk).Ok?
  {
    assert forall x :: x in inputs ==> x == inputs[0] || x in inputs[1..];
  }

  /** The contents of readable inputs are the first's followed by the rest's. */
  lemma ContentsSplit(inputs: seq<FileWrapper>, disk: Disk)
    requires inputs != [] && forall x :: x in inputs ==> Read(x, disk).Ok?
    ensures Contents(inputs, disk) == [Read(inputs[0], disk).value] + Contents(inputs[1..], disk)
  {
    var c := Contents(inputs, disk);
    assert c == [c[0]] + c[1..];
    assert c[1..] == Contents(inputs[1..], disk);
  }

  /** Reading `inputs[i]` raises `e`, and every input before it reads. */
  predicate FirstErrorAt(inputs: seq<FileWrapper>, disk: Disk, e: Error, i: int) {
    && 0 <= i < |inputs|
    && Read(inputs[i], disk) == Err(e)
    && forall j :: 0 <= j < i ==> Read(inputs[j], disk).Ok?
  }

  /** Some input raises `e` when read, and every input before it reads. */
  ghost predicate FirstError(inputs: seq<FileWrapper>, disk: Disk, e: Error) {
    exists i :: FirstErrorAt(inputs, disk, e, i)
  }

  lemma FirstErrorShift(inputs: seq<FileWrapper>, disk: Disk, e: Error)
    requires inputs != [] && Read(inputs[0], disk).Ok?
    requires FirstError(inputs[1..], disk, e)
    ensures FirstError(inputs, disk, e)
  {
    var i :| FirstErrorAt(inputs[1..], disk, e, i);
    forall j | 0 <= j < i + 1 ensures Read(inputs[j], disk).Ok? {
      if j > 0 {
        assert inputs[j] == inputs[1..][j - 1];
      }
    }
    assert FirstErrorAt(inputs, disk, e, i + 1);
  }

  /** With an open output file that no input aliases, `generate_output` raises exactly
      when reading the inputs in order raises, and with the same error. */
  lemma {:induction false} GenerateOutputRaises(inputs: seq<FileWrapper>, out: Handle, disk: Disk)
    requires out.created.Some? && out.created.value in disk && NoAlias(inputs, out.created.value)
    ensures GenerateOutput(inputs, out, disk).raised
            == if ReadAll(inputs, disk).Err? then Some(ReadAll(inputs, disk).error) else None
    decreases |inputs|
  {
    if inputs != [] {
      match Read(inputs[0], disk)
      case Err(_) =>
      case Ok(s) =>
        var d := Write(out, disk, s).value;
        assert NoAlias(inputs[1..], out.created.value);
        GenerateOutputRaises(inputs[1..], out, d);
        ReadAllUnaffected(inputs[1..], out.created.value, disk, d);
    }
  }

  /** Changing only the output file does not change what reading the inputs gives. */
  lemma ReadAllUnaffected(inputs: seq<FileWrapper>, fp: string, disk: Disk, d: Disk)
    requires NoAlias(inputs, fp)
    requires forall p :: p != fp ==> (p in disk <==> p in d) && (p in disk ==> d[p] == disk[p])
    ensures ReadAll(inputs, d) == ReadAll(inputs, disk)
    decreases |inputs|
  {
    if inputs != [] {
      assert Read(inputs[0], d) == Read(inputs[0], disk);
      assert NoAlias(inputs[1..], fp);
      ReadAllUnaffected(inputs[1..], fp, disk, d);
    }
  }

  /** The task action of a concatenation filter: `output.create { generate_output(inputs, output) }`.
      The output ends closed; without a full path for the output nothing is written and
      the `ensure` clause's `close` on `nil` raises; otherwise only the output file changes. */
  function TaskAction(inputs: seq<FileWrapper>, output: FileWrapper, disk: Disk): (r: Outcome)
    ensures Closed(r.handle) && r.handle.wrapper == output
    ensures Fullpath(output).Err? ==> r.disk == disk && r.raised == Some(NilReceiver("close"))
    ensures Fullpath(output).Ok? ==>
              forall p :: p in disk && p != Fullpath(output).value ==> p in r.disk && r.disk[p] == disk[p]
  {
    CreateWith(Handle(output, None), disk, (o, d) => GenerateOutput(inputs, o, d))
  }

  /** When the output has a full path and every input can be read from somewhere else, the
      task leaves the output file holding exactly the inputs' contents joined in input
      order, with the output closed and nothing raised. */
  lemma TaskActionConcatenates(inputs: seq<FileWrapper>, output: FileWrapper, disk: Disk)
    requires Fullpath(output).Ok?
    requires forall x :: x in inputs ==> Read(x, disk).Ok? && Fullpath(x).value != Fullpath(output).value
    ensures var r := TaskAction(inputs, output, disk);
            && Closed(r.handle)
            && r.raised.None?
            && r.disk == disk[Fullpath(output).value := Concat(Contents(inputs, disk))]
  {
    var fp := Fullpath(output).value;
    var o := Handle(output, Some(fp));
    var d := disk[fp := ""];
    ContentsUnaffected(inputs, o, disk, d);
    GenerateOutputAppends(inputs, o, d);
    assert "" + Concat(Contents(inputs, d)) == Concat(Contents(inputs, disk));
    assert d[fp := Concat(Contents(inputs, disk))] == disk[fp := Concat(Contents(inputs, disk))];
  }
}

=== FILE: dynamic_file_task.dfy ===
/** `Rake::Pipeline::DynamicFileTask` in `lib/rake-pipeline/dynamic_file_task.rb`: a
    file task whose extra prerequisites are discovered at run time by a block, with the
    result recorded in a manifest so that a later run can skip the discovery.

    The file system is a map from file name to its integer mtime (a name is present
    exactly when the file exists); "now" is a parameter. The parts of Rake's `FileTask`
    the class builds on — the base `needed?` answer and whether some static prerequisite
    is needed — are given as booleans. The dynamic block is represented by the list it
    returns when called. */
module DynamicFileTasks {
  import opened Wrappers
  import opened Errors
  import opened Hashes
  import Seqs
  import E = ManifestEntries
  import M = Manifests

  datatype Task = Task(
    name: string,
    dynamic: Option<seq<string>>,      // `@dynamic`: what the block returns, if there is one
    manifest: Option<M.Manifest>,      // the manifest being written, `nil` when unset
    lastManifest: Option<M.Manifest>,  // the manifest of the previous run
    memo: Option<seq<string>>)         // `@dynamic_prerequisites`

  /** What the task sees of the world when it asks. */
  datatype World = World(
    fs: map<string, int>,
    now: int,
    baseNeeded: bool,        // `super` in `needed?`
    prerequisitesNeeded: bool) // `prerequisites_needed?`

  /** A task as `define_task` makes it. */
  function Define(name: string, manifest: Option<M.Manifest>, lastManifest: Option<M.Manifest>): (t: Task)
    ensures t.name == name && t.dynamic.None? && t.memo.None?
  {
    Task(name, None, manifest, lastManifest, None)
  }

  /** `dynamic(&block)`: remembers the block. */
  function Dynamic(t: Task, block: seq<string>): (r: Task)
    ensures HasDynamicBlock(r)
    ensures r.name == t.name && r.manifest == t.manifest && r.lastManifest == t.lastManifest && r.memo == t.memo
  {
    t.(dynamic := Some(block))
  }

  predicate HasDynamicBlock(t: Task) {
    t.dynamic.Some?
  }

  /** `mtime_or_now` */
  function MtimeOrNow(fs: map<string, int>, now: int, file: string): (r: int)
    ensures file in fs ==> r == fs[file]
    ensures file !in fs ==> r == now
  {
    if file in fs then fs[file] else now
  }

  // ---------------------------------------------------------------- invoke guard

  /** The guard at the start of `invoke` (and again in `invoke_prerequisites`): a task with
      a dynamic block cannot run without a manifest to record into. */
  function Guard(t: Task): (r: Result<(), Error>)
    ensures r.Err? <==> HasDynamicBlock(t) && t.manifest.None?
    ensures r.Err? ==> r.error == ManifestRequired
  {
    if HasDynamicBlock(t) && t.manifest.None? then Err(ManifestRequired) else Ok(())
  }

  // ---------------------------------------------------------------- needed?

  /** The `each` loop over the recorded dependencies: the first dependency, in recorded
      order, that is missing makes `File.mtime` raise, and the first one newer than its
      record makes the task needed. */
  function StaleScan(deps: seq<string>, recorded: map<string, int>, fs: map<string, int>): (r: Result<bool, Error>)
    requires forall d :: d in deps ==> d in recorded
    ensures r.Err? ==> r.error.MissingFile?
  {
    if deps == [] then Ok(false)
    else if deps[0] !in fs then Err(MissingFile(deps[0]))
    else if fs[deps[0]] > recorded[deps[0]] then Ok(true)
    else StaleScan(deps[1..], recorded, fs)
  }

  /** Some recorded dependency is newer on disk than its record. */
  predicate SomeStale(deps: seq<string>, recorded: map<string, int>, fs: map<string, int>)
    requires forall d :: d in deps ==> d in recorded
  {
    exists i :: 0 <= i < |deps| && deps[i] in fs && fs[deps[i]] > recorded[deps[i]]
  }

  /** When every recorded dependency exists, the scan answers whether one is stale; when
      it raises, it names a recorded dependency that is missing. */
  lemma {:induction false} StaleScanContract(deps: seq<string>, recorded: map<string, int>, fs: map<string, int>)
    requires forall d :: d in deps ==> d in recorded
    ensures (forall d :: d in deps ==> d in fs) ==> StaleScan(deps, recorded, fs) == Ok(SomeStale(deps, recorded, fs))
    ensures StaleScan(deps, recorded, fs).Err? ==>
              exists d :: d in deps && d !in fs && StaleScan(deps, recorded, fs).error == MissingFile(d)
    ensures StaleScan(deps, recorded, fs) == Ok(true) ==> SomeStale(deps, recorded, fs)
  {
    if deps != [] {
      var rest := deps[1..];
      assert forall d :: d in rest ==> d in deps;
      StaleScanContract(rest, recorded, fs);
      if deps[0] in fs && fs[deps[0]] <= recorded[deps[0]] {
        assert SomeStale(deps, recorded, fs) == SomeStale(rest, recorded, fs) by {
          if SomeStale(deps, recorded, fs) {
            var i :| 0 <= i < |deps| && deps[i] in fs && fs[deps[i]] > recorded[deps[i]];
            assert i > 0 && rest[i - 1] == deps[i];
          }
          if SomeStale(rest, recorded, fs) {
            var i :| 0 <= i < |rest| && rest[i] in fs && fs[rest[i]] > recorded[rest[i]];
            assert deps[i + 1] == rest[i];
          }
        }
      }
    }
  }

  /** `last_manifest_entry`: `last_manifest[name]`, which raises when there is no last
      manifest at all. */
  function LastEntry(t: Task): (r: Result<Option<E.ManifestEntry>, Error>)
    ensures r.Err? <==> t.lastManifest.None?
    ensures r.Ok? ==> r.value == M.Lookup(t.lastManifest.value, t.name)
  {
    if t.lastManifest.None? then Err(NilReceiver("[]")) else Ok(M.Lookup(t.lastManifest.value, t.name))
  }

  /** `needed?`: the file task's own answer, then the static prerequisites, then whether a
      previous run recorded this task, then whether a recorded dependency changed. */
  function Needed(t: Task, w: World): (r: Result<bool, Error>)
    ensures w.baseNeeded || w.prerequisitesNeeded ==> r == Ok(true)
    ensures r.Err? ==> !w.baseNeeded && !w.prerequisitesNeeded && (if t.lastManifest.None? then r.error == NilReceiver("[]") else r.error.MissingFile?)
    ensures r == Ok(false) ==> t.lastManifest.Some? && M.Lookup(t.lastManifest.value, t.name).Some?
  {
    if w.baseNeeded || w.prerequisitesNeeded then Ok(true)
    else
      var entry :- LastEntry(t);
      if entry.None? then Ok(true)
      else StaleScan(entry.value.deps.keys, entry.value.deps.m, w.fs)
  }

  /** `needed?` holds whenever the file task or a static prerequisite needs it, and
      whenever the previous run recorded nothing for this task; otherwise, when every
      recorded dependency still exists, it holds exactly when one of them is newer than
      its record. It raises only for a missing last manifest or a missing recorded
      dependency. */
  lemma NeededContract(t: Task, w: World)
    ensures w.baseNeeded || w.prerequisitesNeeded ==> Needed(t, w) == Ok(true)
    ensures t.lastManifest.Some? && M.Lookup(t.lastManifest.value, t.name).None? ==> Needed(t, w) == Ok(true)
    ensures !w.baseNeeded && !w.prerequisitesNeeded && t.lastManifest.Some? && M.Lookup(t.lastManifest.value, t.name).Some? ==>
              var deps := M.Lookup(t.lastManifest.value, t.name).value.deps;
              && ((forall d :: d in deps.m ==> d in w.fs) ==> Needed(t, w) == Ok(SomeStale(deps.keys, deps.m, w.fs)))
              && (Needed(t, w).Err? ==> exists d :: d in deps.m && d !in w.fs && Needed(t, w).error == MissingFile(d))
    ensures Needed(t, w).Err? && t.lastManifest.None? ==> Needed(t, w).error == NilReceiver("[]")
  {
    if !w.baseNeeded && !w.prerequisitesNeeded && t.lastManifest.Some? && M.Lookup(t.lastManifest.value, t.name).Some? {
      var deps := M.Lookup(t.lastManifest.value, t.name).value.deps;
      StaleScanContract(deps.keys, deps.m, w.fs);
    }
  }

  // ---------------------------------------------------------------- dynamic prerequisites

  /** `dynamic_prerequisites_from_manifest`: when the task is not needed, the previous run
      recorded it, its output still exists and carries the recorded mtime, the recorded
      dependency names; `nil` otherwise. */
  function FromManifest(t: Task, w: World): (r: Result<Option<seq<string>>, Error>)
    ensures r.Err? <==> Needed(t, w).Err?
    ensures r.Ok? && r.value.Some? <==>
              && Needed(t, w) == Ok(false)
              && t.name in w.fs
              && LastEntry(t).Ok? && LastEntry(t).value.Some?
              && LastEntry(t).value.value.mtime == Some(w.fs[t.name])
    ensures r.Ok? && r.value.Some? ==> r.value.value == LastEntry(t).value.value.deps.keys
  {
    var needed :- Needed(t, w);
    var mtime: Option<int> :=
      if !needed then
        // `needed?` is false only after `last_manifest_entry` was found
        match LastEntry(t) { case Ok(Some(e)) => e.mtime case _ => None }
      else None;
    if t.name in w.fs && mtime == Some(w.fs[t.name]) then
      Ok(Some(LastEntry(t).value.value.deps.keys))
    else Ok(None)
  }

  /** Where `dynamic_prerequisites` found its answer. */
  datatype Source = Memoised | NoBlock | Recorded | BlockCalled

  /** `dynamic_prerequisites`: computed once and kept; without a block there are none;
      otherwise the manifest's record when it can be trusted, else what the block returns;
      the task's own name is dropped either way. Returns the list, the task with the list
      kept, and where the list came from. */
  function DynamicPrerequisites(t: Task, w: World): (r: Result<(seq<string>, Task, Source), Error>)
    ensures r.Ok? ==> r.value.1 == t.(memo := Some(r.value.0))
    ensures r.Ok? && t.memo.Some? ==> r.value.0 == t.memo.value && r.value.2 == Memoised
    ensures r.Err? ==> t.memo.None? && HasDynamicBlock(t)
  {
    if t.memo.Some? then Ok((t.memo.value, t, Memoised))
    else if !HasDynamicBlock(t) then Ok((Seqs.Filter([], Seqs.Except(t.name)), t.(memo := Some([])), NoBlock))
    else
      var recorded :- FromManifest(t, w);
      var dynamics := if recorded.Some? then recorded.value else t.dynamic.value;
      var kept := Seqs.Filter(dynamics, Seqs.Except(t.name));
      Ok((kept, t.(memo := Some(kept)), if recorded.Some? then Recorded else BlockCalled))
  }

  /** A freshly computed list never names the task itself, holds no prerequisite without a
      block, and otherwise is the record or the block's answer with the task's name
      removed — the block being called only when the record is not used. */
  lemma DynamicPrerequisitesContract(t: Task, w: World)
    requires t.memo.None?
    ensures DynamicPrerequisites(t, w).Ok? ==> t.name !in DynamicPrerequisites(t, w).value.0
    ensures !HasDynamicBlock(t) ==> DynamicPrerequisites(t, w) == Ok(([], t.(memo := Some([])), NoBlock))
    ensures HasDynamicBlock(t) && DynamicPrerequisites(t, w).Ok? ==>
              var (list, _, source) := DynamicPrerequisites(t, w).value;
              && (source == Recorded || source == BlockCalled)
              && (source == BlockCalled ==> FromManifest(t, w) == Ok(None)
                                            && list == Seqs.Filter(t.dynamic.value, Seqs.Except(t.name)))
              && (source == Recorded ==> FromManifest(t, w).Ok? && FromManifest(t, w).value.Some?
                                         && list == Seqs.Filter(FromManifest(t, w).value.value, Seqs.Except(t.name)))
  {
  }

  /** A second call answers from the kept list, without looking at the world or calling
      the block again. */
  lemma DynamicPrerequisitesMemoised(t: Task, w: World, w2: World)
    requires DynamicPrerequisites(t, w).Ok?
    ensures var (list, t2, _) := DynamicPrerequisites(t, w).value;
            DynamicPrerequisites(t2, w2) == Ok((list, t2, Memoised))
  {
  }

  /** The manifest fast path: a task with a block that is not needed, whose previous entry
      exists and whose output still carries the recorded mtime, takes its dynamic
      prerequisites from the record and never calls the block. */
  lemma FastPath(t: Task, w: World)
    requires HasDynamicBlock(t) && t.memo.None?
    requires Needed(t, w) == Ok(false)
    requires t.lastManifest.Some? && M.Lookup(t.lastManifest.value, t.name).Some?
    requires t.name in w.fs && M.Lookup(t.lastManifest.value, t.name).value.mtime == Some(w.fs[t.name])
    ensures DynamicPrerequisites(t, w).Ok?
    ensures DynamicPrerequisites(t, w).value.2 == Recorded
    ensures DynamicPrerequisites(t, w).value.0
            == Seqs.Filter(M.Lookup(t.lastManifest.value, t.name).value.deps.keys, Seqs.Except(t.name))
  {
  }

  /** Conversely, the record is used only on the fast path. */
  lemma RecordOnlyOnFastPath(t: Task, w: World)
    requires HasDynamicBlock(t) && t.memo.None?
    requires DynamicPrerequisites(t, w).Ok? && DynamicPrerequisites(t, w).value.2 == Recorded
    ensures Needed(t, w) == Ok(false)
    ensures t.lastManifest.Some? && M.Lookup(t.lastManifest.value, t.name).Some?
    ensures t.name in w.fs && M.Lookup(t.lastManifest.value, t.name).value.mtime == Some(w.fs[t.name])
  {
    NeededContract(t, w);
  }

  // ---------------------------------------------------------------- recording

  /** The dependency mtimes `invoke_prerequisites` records, merged in the order of the list. */
  function DepPairs(dynamics: seq<string>, fs: map<string, int>, now: int): (r: seq<(string, int)>)
    ensures |r| == |dynamics|
    ensures forall i :: 0 <= i < |r| ==> r[i] == (dynamics[i], MtimeOrNow(fs, now, dynamics[i]))
  {
    seq(|dynamics|, i requires 0 <= i < |dynamics| => (dynamics[i], MtimeOrNow(fs, now, dynamics[i])))
  }

  /** `invoke_prerequisites` after the static prerequisites: the guard, the dynamic
      prerequisites, and a fresh manifest entry recording each of them with its mtime (or
      now, when missing) stored under the task's name. The dynamic prerequisites run
      before the recording; `after` is the file system they leave behind. Storing into a
      missing manifest raises. */
  function InvokePrerequisites(t: Task, w: World, after: map<string, int>): (r: Result<(Task, seq<string>), Error>)
    ensures Guard(t).Err? ==> r == Err(ManifestRequired)
    ensures r.Ok? ==> r.value.0.manifest.Some? && t.manifest.Some?
    ensures r.Ok? ==> r.value.0.name == t.name && r.value.0.lastManifest == t.lastManifest
  {
    var _ :- Guard(t);
    var (dynamics, t2, _) :- DynamicPrerequisites(t, w);
    var entry := E.ManifestEntry(PutAll(Empty(), DepPairs(dynamics, after, w.now)), None);
    if t2.manifest.None? then Err(NilReceiver("[]="))
    else Ok((t2.(manifest := Some(M.Assign(t2.manifest.value, t.name, entry))), dynamics))
  }

  /** After `invoke_prerequisites` the task's current entry records exactly the dynamic
      prerequisites, each once in the order first named, each with its mtime or now when
      it is missing, and no output mtime yet; entries of other files are untouched. */
  lemma InvokePrerequisitesRecords(t: Task, w: World, after: map<string, int>, other: string)
    requires InvokePrerequisites(t, w, after).Ok?
    ensures var (t2, dynamics) := InvokePrerequisites(t, w, after).value;
            && DynamicPrerequisites(t, w).Ok? && dynamics == DynamicPrerequisites(t, w).value.0
            && M.Lookup(t2.manifest.value, t.name).Some?
            && var entry := M.Lookup(t2.manifest.value, t.name).value;
            && entry.mtime.None?
            && entry.deps.keys == Seqs.Union(dynamics)
            && (forall d :: d in entry.deps.m <==> d in dynamics)
            && (forall d :: d in entry.deps.m ==> entry.deps.m[d] == MtimeOrNow(after, w.now, d))
            && (other != t.name ==> M.Lookup(t2.manifest.value, other) == M.Lookup(t.manifest.value, other))
  {
    var (dynamics, t2, _) := DynamicPrerequisites(t, w).value;
    var pairs := DepPairs(dynamics, after, w.now);
    PutAllKeys(pairs);
    assert Firsts(pairs) == dynamics;
    var deps := PutAll(Empty(), pairs);
    forall d | d in deps.m
      ensures deps.m[d] == MtimeOrNow(after, w.now, d)
    {
      PutAllLastWins(Empty(), pairs, d);
      LastAssignedConstant(pairs, d, MtimeOrNow(after, w.now, d));
    }
  }

  /** When every pair naming `k` carries `v`, the last one does. */
  lemma {:induction false} LastAssignedConstant(pairs: seq<(string, int)>, k: string, v: int)
    requires forall i :: 0 <= i < |pairs| && pairs[i].0 == k ==> pairs[i].1 == v
    ensures LastAssigned(pairs, k).Some? ==> LastAssigned(pairs, k) == Some(v)
  {
    if pairs != [] {
      LastAssignedConstant(pairs[..|pairs| - 1], k, v);
    }
  }

  /** The end of `invoke_with_call_chain`: the current entry gets the output's mtime, or
      now when the output is missing. Without a manifest, or without an entry for the
      task, the assignment raises. */
  function StampMtime(t: Task, fs: map<string, int>, now: int): (r: Result<Task, Error>)
    ensures r.Ok? <==> t.manifest.Some? && M.Lookup(t.manifest.value, t.name).Some?
    ensures r.Ok? ==> r.value.name == t.name && r.value.manifest.Some?
  {
    if t.manifest.None? then Err(NilReceiver("[]"))
    else
      var entry := M.Lookup(t.manifest.value, t.name);
      if entry.None? then Err(NilReceiver("mtime="))
      else Ok(t.(manifest := Some(M.Assign(t.manifest.value, t.name, entry.value.(mtime := Some(MtimeOrNow(fs, now, t.name)))))))
  }

  /** `invoke` end to end, from the guard to the mtime stamp: `middle` is the file system
      after the dynamic prerequisites ran and `end` after the task's own action. */
  function Invoke(t: Task, w: World, middle: map<string, int>, end: map<string, int>): (r: Result<Task, Error>)
    ensures Guard(t).Err? ==> r == Err(ManifestRequired)
  {
    var _ :- Guard(t);
    var (t2, _) :- InvokePrerequisites(t, w, middle);
    StampMtime(t2, end, w.now)
  }

  /** A successful `invoke` leaves in the current manifest, under the task's name, the
      dynamic prerequisites with their mtimes after they ran, and the output's mtime after
      the action (now when it is missing); it fails with `ManifestRequired` whenever a task
      with a block has no manifest. */
  lemma InvokeRecords(t: Task, w: World, middle: map<string, int>, end: map<string, int>)
    requires Invoke(t, w, middle, end).Ok?
    ensures DynamicPrerequisites(t, w).Ok?
    ensures var t3 := Invoke(t, w, middle, end).value;
            var dynamics := DynamicPrerequisites(t, w).value.0;
            && t3.manifest.Some?
            && M.Lookup(t3.manifest.value, t.name).Some?
            && var entry := M.Lookup(t3.manifest.value, t.name).value;
            && entry.mtime == Some(MtimeOrNow(end, w.now, t.name))
            && entry.deps.keys == Seqs.Union(dynamics)
            && (forall d :: d in entry.deps.m ==> entry.deps.m[d] == MtimeOrNow(middle, w.now, d))
  {
    InvokePrerequisitesRecords(t, w, middle, t.name);
  }
}

=== FILE: file_wrapper.dfy ===
/** `Rake::Pipeline::FileWrapper`: a file named by a root directory and a path
    relative to it, tagged with an encoding, plus the open/closed state of a file
    created for writing. File contents live in a `Disk` keyed by full path. */
module FileWrappers {
  import opened Wrappers
  import opened Errors
  import Paths

  const UTF8: string := "UTF-8"
  const BINARY: string := "BINARY"

  datatype FileWrapper = FileWrapper(root: string, path: string, encoding: string)

  /** `FileWrapper.new(root, path)` with the default encoding. */
  function New(root: string, path: string): (w: FileWrapper)
    ensures w.root == root && w.path == path && w.encoding == UTF8
  {
    FileWrapper(root, path, UTF8)
  }

  /** `eql?`, aliased as `==`: the root and the path decide, the encoding does not.
      Wrappers that are `==` hash alike, and wrappers with equal hash data are `==`. */
  predicate Eql(a: FileWrapper, b: FileWrapper)
    ensures Eql(a, b) <==> HashKey(a) == HashKey(b)
  {
    a.root == b.root && a.path == b.path
  }

  /** The data `hash` is computed from: `[root, path]`. */
  function HashKey(w: FileWrapper): (string, string) {
    (w.root, w.path)
  }

  /** `with_encoding(e)`: the same file under another encoding. */
  function WithEncoding(w: FileWrapper, e: string): (r: FileWrapper)
    ensures r.root == w.root && r.path == w.path && r.encoding == e
    ensures Eql(r, w)
  {
    FileWrapper(w.root, w.path, e)
  }

  /** `fullpath` as written: the regular expression's `^` accepts a root any of whose
      lines starts like an absolute path. */
  function FullpathAsWritten(w: FileWrapper): (r: Result<string, Error>)
    ensures r.Ok? <==> Paths.MatchesAbsoluteAnyLine(w.root)
    ensures r.Ok? ==> r.value == Paths.Join(w.root, w.path)
    ensures r.Err? ==> r.error == RootNotAbsolute(w.root, w.path)
  {
    if Paths.MatchesAbsoluteAnyLine(w.root) then Ok(Paths.Join(w.root, w.path))
    else Err(RootNotAbsolute(w.root, w.path))
  }

  /** `fullpath` with the root check anchored at the start of the root, which is what
      the rest of the model uses. */
  function Fullpath(w: FileWrapper): (r: Result<string, Error>)
    ensures r.Ok? <==> (|w.root| > 0 && w.root[0] == '/')
                        || (|w.root| > 2 && Paths.IsAsciiLetter(w.root[0]) && w.root[1] == ':'
                            && (w.root[2] == '/' || w.root[2] == '\\'))
    ensures r.Ok? ==> r.value == Paths.Join(w.root, w.path)
    ensures r.Err? ==> r.error == RootNotAbsolute(w.root, w.path)
  {
    if Paths.IsAbsolute(w.root) then Ok(Paths.Join(w.root, w.path))
    else Err(RootNotAbsolute(w.root, w.path))
  }

  /** The two checks agree on every root without a newline. */
  lemma FullpathAgreesOnSingleLineRoots(w: FileWrapper)
    requires '\n' !in w.root
    ensures FullpathAsWritten(w) == Fullpath(w)
  {
    forall i | 0 < i <= |w.root| ensures !Paths.LineStart(w.root, i) {
      assert w.root[i - 1] in w.root;
    }
  }

  /** A relative root whose second line is absolute passes the written check. */
  lemma FullpathAsWrittenAcceptsRelativeRoot()
    ensures FullpathAsWritten(FileWrapper("app\n/assets", "a.js", UTF8)).Ok?
    ensures Fullpath(FileWrapper("app\n/assets", "a.js", UTF8)).Err?
  {
    assert Paths.LineStart("app\n/assets", 4) && Paths.AbsoluteAt("app\n/assets", 4);
  }

  // ---------------------------------------------------------------- ordering

  /** Ruby's `String#<=>`: character-wise, a proper prefix sorts first. */
  function CompareStrings(a: string, b: string): (c: int)
    ensures -1 <= c <= 1
    ensures c == 0 <==> a == b
  {
    if a == [] && b == [] then 0
    else if a == [] then -1
    else if b == [] then 1
    else if a[0] < b[0] then -1
    else if a[0] > b[0] then 1
    else
      var c := CompareStrings(a[1..], b[1..]);
      assert c == 0 <==> a == b by {
        assert a == [a[0]] + a[1..] && b == [b[0]] + b[1..];
      }
      c
  }

  lemma {:induction false} CompareStringsAntisymmetric(a: string, b: string)
    ensures CompareStrings(a, b) == -CompareStrings(b, a)
  {
    if a != [] && b != [] && a[0] == b[0] {
      CompareStringsAntisymmetric(a[1..], b[1..]);
    }
  }

  lemma {:induction false} CompareStringsTransitive(a: string, b: string, c: string)
    requires CompareStrings(a, b) <= 0 && CompareStrings(b, c) <= 0
    ensures CompareStrings(a, c) <= 0
  {
    if a != [] && b != [] && c != [] && a[0] == b[0] && b[0] == c[0] {
      CompareStringsTransitive(a[1..], b[1..], c[1..]);
    }
  }

  /** `<=>`: `[root, path, encoding] <=> [other.root, other.path, other.encoding]`. */
  function Compare(a: FileWrapper, b: FileWrapper): (c: int)
    ensures -1 <= c <= 1
  {
    var r := CompareStrings(a.root, b.root);
    if r != 0 then r
    else
      var p := CompareStrings(a.path, b.path);
      if p != 0 then p else CompareStrings(a.encoding, b.encoding)
  }

  /** Comparing equal is being the very same value, so it implies `==`; the converse
      fails exactly when only the encodings differ. */
  lemma CompareZeroIffEqual(a: FileWrapper, b: FileWrapper)
    ensures Compare(a, b) == 0 <==> a == b
    ensures Compare(a, b) == 0 ==> Eql(a, b)
    ensures Eql(a, b) && a.encoding != b.encoding ==> Compare(a, b) != 0
  {
  }

  lemma CompareAntisymmetric(a: FileWrapper, b: FileWrapper)
    ensures Compare(a, b) == -Compare(b, a)
  {
    CompareStringsAntisymmetric(a.root, b.root);
    CompareStringsAntisymmetric(a.path, b.path);
    CompareStringsAntisymmetric(a.encoding, b.encoding);
  }

  lemma CompareTransitive(a: FileWrapper, b: FileWrapper, c: FileWrapper)
    requires Compare(a, b) <= 0 && Compare(b, c) <= 0
    ensures Compare(a, c) <= 0
  {
    CompareStringsAntisymmetric(a.root, b.root);
    CompareStringsAntisymmetric(b.root, c.root);
    CompareStringsAntisymmetric(a.path, b.path);
    CompareStringsAntisymmetric(b.path, c.path);
    if CompareStrings(a.root, b.root) < 0 || CompareStrings(b.root, c.root) < 0 {
      CompareStringsTransitive(a.root, b.root, c.root);
      if CompareStrings(a.root, c.root) == 0 {
        CompareStringsAntisymmetric(a.root, c.root);
      }
    } else if CompareStrings(a.path, b.path) < 0 || CompareStrings(b.path, c.path) < 0 {
      CompareStringsTransitive(a.path, b.path, c.path);
    } else {
      CompareStringsTransitive(a.encoding, b.encoding, c.encoding);
    }
  }

  // ---------------------------------------------------------------- open/closed state

  /** File contents by full path. */
  type Disk = map<string, string>

  /** A wrapper together with `@created_file`: the full path of the file opened by
      `create`, or `None` while no file is open. */
  datatype Handle = Handle(wrapper: FileWrapper, created: Option<string>)

  /** `closed?` */
  predicate Closed(h: Handle) {
    h.created.None?
  }

  /** `exists?` */
  function Exists(w: FileWrapper, disk: Disk): (r: Result<bool, Error>)
    ensures r.Ok? <==> Fullpath(w).Ok?
    ensures r.Ok? ==> (r.value <==> Fullpath(w).value in disk)
  {
    var fp :- Fullpath(w);
    Ok(fp in disk)
  }

  /** `read`, without the encoding-validity check. */
  function Read(w: FileWrapper, disk: Disk): (r: Result<string, Error>)
    ensures r.Ok? <==> Fullpath(w).Ok? && Fullpath(w).value in disk
    ensures r.Ok? ==> r.value == disk[Fullpath(w).value]
  {
    var fp :- Fullpath(w);
    if fp in disk then Ok(disk[fp]) else Err(MissingFile(fp))
  }

  /** `create` without a block: truncates the file at `fullpath` and leaves it open. */
  function Create(h: Handle, disk: Disk): (r: Result<(Handle, Disk), Error>)
    ensures r.Ok? <==> Fullpath(h.wrapper).Ok?
    ensures r.Ok? ==> var fp := Fullpath(h.wrapper).value;
                      && r.value.0 == Handle(h.wrapper, Some(fp))
                      && r.value.1 == disk[fp := ""]
  {
    var fp :- Fullpath(h.wrapper);
    Ok((Handle(h.wrapper, Some(fp)), disk[fp := ""]))
  }

  /** `write(s)`: appends to the open file, or raises `UnopenedFile`. */
  function Write(h: Handle, disk: Disk, s: string): (r: Result<Disk, Error>)
    ensures r.Err? <==> Closed(h)
    ensures r.Err? ==> r.error == UnopenedFile
    ensures r.Ok? ==> var fp := h.created.value;
                      && fp in r.value
                      && r.value[fp] == (if fp in disk then disk[fp] else "") + s
                      && (forall p :: p in disk && p != fp ==> p in r.value && r.value[p] == disk[p])
                      && r.value.Keys == disk.Keys + {fp}
  {
    match h.created
    case None => Err(UnopenedFile)
    case Some(fp) => Ok(disk[fp := (if fp in disk then disk[fp] else "") + s])
  }

  /** `close`: raises `IOError` unless a file is open. */
  function Close(h: Handle): (r: Result<Handle, Error>)
    ensures r.Ok? <==> !Closed(h)
    ensures r.Err? ==> r.error == ClosedStream
    ensures r.Ok? ==> Closed(r.value) && r.value.wrapper == h.wrapper
  {
    if h.created.None? then Err(ClosedStream) else Ok(Handle(h.wrapper, None))
  }

  /** `closed?` holds exactly when `close` and `write` would both raise: all three test
      whether a file is held open. */
  lemma ClosedIffCloseAndWriteRaise(h: Handle, disk: Disk, s: string)
    ensures Closed(h) <==> Close(h).Err? && Write(h, disk, s).Err?
    ensures !Closed(h) <==> Close(h).Ok? && Write(h, disk, s).Ok?
  {
  }

  /** After a successful close the handle is closed and closing again raises. */
  lemma CloseTwiceRaises(h: Handle)
    requires Close(h).Ok?
    ensures Closed(Close(h).value)
    ensures Close(Close(h).value) == Err(ClosedStream)
  {
  }

  /** What a block does: the wrapper's handle and the disk when it returned or raised,
      and the exception it raised, if any. */
  datatype Effect = Effect(handle: Handle, disk: Disk, raised: Option<Error>)

  /** The result of the block form of `create`: the handle and disk afterwards, and
      the exception that escaped, if any. */
  datatype Outcome = Outcome(handle: Handle, disk: Disk, raised: Option<Error>)

  /** `chunks.join` */
  function Concat(chunks: seq<string>): string {
    if chunks == [] then "" else chunks[0] + Concat(chunks[1..])
  }

  /** `create { ... }`: the file is truncated and opened, the block runs against the open
      handle, and the `ensure` clause closes `@created_file` and clears it on every path,
      the raising ones included. If `fullpath` raises before anything is opened, or the
      block closed the wrapper itself, that `ensure` calls `close` on `nil`, and the
      `NoMethodError` replaces any error raised before it. */
  function CreateWith(h: Handle, disk: Disk, body: (Handle, Disk) -> Effect): (r: Outcome)
    ensures Closed(r.handle) && r.handle.wrapper == h.wrapper
    ensures Fullpath(h.wrapper).Ok? ==>
              var fp := Fullpath(h.wrapper).value;
              var e := body(Handle(h.wrapper, Some(fp)), disk[fp := ""]);
              && r.disk == e.disk
              && r.raised == (if Closed(e.handle) then Some(NilReceiver("close")) else e.raised)
    ensures Fullpath(h.wrapper).Err? ==>
              && r.disk == disk
              && r.raised == Some(if h.created.None? then NilReceiver("close") else Fullpath(h.wrapper).error)
  {
    match Create(h, disk)
    case Err(e) =>
      Outcome(Handle(h.wrapper, None), disk, Some(if h.created.None? then NilReceiver("close") else e))
    case Ok(pair) =>
      var e := body(pair.0, pair.1);
      Outcome(Handle(h.wrapper, None), e.disk, if Closed(e.handle) then Some(NilReceiver("close")) else e.raised)
  }

  /** A block that closes the wrapper itself leaves `@created_file` nil, so the `ensure`
      clause's `close` raises `NoMethodError`, and that is what escapes, even when the
      block raised first. */
  lemma CreateWithClosingBlockRaisesNil(h: Handle, disk: Disk, raised: Option<Error>)
    requires Fullpath(h.wrapper).Ok?
    ensures var r := CreateWith(h, disk, (o: Handle, d: Disk) => Effect(Handle(o.wrapper, None), d, raised));
            var fp := Fullpath(h.wrapper).value;
            && Closed(r.handle)
            && r.disk == disk[fp := ""]
            && r.raised == Some(NilReceiver("close"))
  {
  }

  /** A block that writes its chunks in order through the handle and may then raise. */
  function WriteChunks(h: Handle, disk: Disk, chunks: seq<string>, raises: bool): Effect
    decreases |chunks|
  {
    if chunks == [] then Effect(h, disk, if raises then Some(BlockRaised) else None)
    else
      match Write(h, disk, chunks[0])
      case Err(e) => Effect(h, disk, Some(e))
      case Ok(d) => WriteChunks(h, d, chunks[1..], raises)
  }

  lemma {:induction false} WriteChunksAppends(h: Handle, disk: Disk, chunks: seq<string>, raises: bool)
    requires h.created.Some? && h.created.value in disk
    ensures var fp := h.created.value;
            WriteChunks(h, disk, chunks, raises)
              == Effect(h, disk[fp := disk[fp] + Concat(chunks)], if raises then Some(BlockRaised) else None)
    decreases |chunks|
  {
    var fp := h.created.value;
    if chunks == [] {
      assert disk[fp] + Concat(chunks) == disk[fp];
      assert disk[fp := disk[fp]] == disk;
    } else {
      var d := disk[fp := disk[fp] + chunks[0]];
      WriteChunksAppends(h, d, chunks[1..], raises);
      assert d[fp] + Concat(chunks[1..]) == disk[fp] + Concat(chunks);
      assert d[fp := d[fp] + Concat(chunks[1..])] == disk[fp := disk[fp] + Concat(chunks)];
    }
  }

  /** The block form of `create` with a block that writes: the file holds exactly what
      the block wrote, the handle ends closed whether or not the block raised, and the
      block's exception is the one that escapes. */
  lemma CreateWithWritesThenCloses(h: Handle, disk: Disk, chunks: seq<string>, raises: bool)
    requires Fullpath(h.wrapper).Ok?
    ensures var r := CreateWith(h, disk, (o, d) => WriteChunks(o, d, chunks, raises));
            var fp := Fullpath(h.wrapper).value;
            && Closed(r.handle)
            && r.disk == disk[fp := Concat(chunks)]
            && (r.raised.Some? <==> raises)
  {
    var fp := Fullpath(h.wrapper).value;
    var d := disk[fp := ""];
    WriteChunksAppends(Handle(h.wrapper, Some(fp)), d, chunks, raises);
    assert "" + Concat(chunks) == Concat(chunks);
    assert d[fp := Concat(chunks)] == disk[fp := Concat(chunks)];
  }
}

=== FILE: filter.dfy ===
/** `Rake::Pipeline::Filter`: turns input files into output files. A naming function
    maps each input's relative path to an output name; inputs with the same output
    name are grouped, and each output becomes one build task. */
module Filters {
  import opened Wrappers
  import opened Errors
  import opened FileWrappers
  import Hashes
  import Seqs
  import Paths
  import PipelineFinalizingFilters

  /** The class a filter is an instance of. The class decides `encoding`, and
      `PipelineFinalizingFilter` overrides the `input_files` reader. */
  datatype Kind =
      /** a subclass of `Filter`; `binary` when it calls `processes_binary_files` */
    | Custom(binary: bool)
      /** `ConcatFilter` */
    | Concat
      /** `OrderingConcatFilter` with its ordering of file names */
    | OrderingConcat(ordering: seq<string>)
      /** `PipelineFinalizingFilter` with the input files of its pipeline */
    | PipelineFinalizing(pipelineInputFiles: seq<FileWrapper>)

  /** A filter's state: its class, `output_name_generator`, the `input_files` it was
      assigned and `output_root`. */
  datatype Filter = Filter(kind: Kind, namer: string -> string, inputFiles: seq<FileWrapper>, outputRoot: string)

  /** The default `output_name_generator`, `proc { |input| input }`. */
  function Identity(path: string): string {
    path
  }

  /** `initialize(&block)`: without a block, the output name is the input path. The
      input files and output root start out unassigned: nil in Ruby, where `outputs`
      would raise; empty here. */
  function New(kind: Kind, block: Option<string -> string>): (f: Filter)
    ensures f.kind == kind && f.inputFiles == [] && f.outputRoot == ""
    ensures block.Some? ==> f.namer == block.value
    ensures block.None? ==> forall p :: f.namer(p) == p
  {
    Filter(kind, if block.Some? then block.value else Identity, [], "")
  }

  /** `encoding`: `"BINARY"` for the classes that call `processes_binary_files`
      (every concatenating filter does), `"UTF-8"` otherwise. */
  function Encoding(f: Filter): (e: string)
    ensures e == UTF8 || e == BINARY
    ensures e == UTF8 <==> f.kind == Custom(false)
  {
    match f.kind
    case Custom(binary) => if binary then BINARY else UTF8
    case _ => BINARY
  }

  lemma EncodingByClass(f: Filter)
    ensures Encoding(f) == UTF8 <==> f.kind == Custom(false)
    ensures Encoding(f) == BINARY <==> f.kind != Custom(false)
  {
  }

  /** `input_files=`: each file re-tagged with the filter's encoding. */
  function SetInputFiles(f: Filter, files: seq<FileWrapper>): (r: Filter)
    ensures r.kind == f.kind && r.namer == f.namer && r.outputRoot == f.outputRoot
    ensures |r.inputFiles| == |files|
    ensures forall i :: 0 <= i < |files| ==>
              && r.inputFiles[i].root == files[i].root
              && r.inputFiles[i].path == files[i].path
              && r.inputFiles[i].encoding == Encoding(f)
              && Eql(r.inputFiles[i], files[i])
  {
    f.(inputFiles := seq(|files|, i requires 0 <= i < |files| => WithEncoding(files[i], Encoding(f))))
  }

  /** The `input_files` reader, which `PipelineFinalizingFilter` overrides. */
  function InputFiles(f: Filter): seq<FileWrapper> {
    match f.kind
    case PipelineFinalizing(pipelineInputs) =>
      PipelineFinalizingFilters.EffectiveInputs(f.inputFiles, pipelineInputs)
    case _ => f.inputFiles
  }

  /** `output_wrapper(file)` */
  function OutputWrapper(f: Filter, name: string): FileWrapper {
    FileWrapper(f.outputRoot, name, Encoding(f))
  }

  /** The output an input file contributes to: `output_wrapper(output_name_generator.call(file.path))`. */
  function Image(f: Filter, x: FileWrapper): FileWrapper {
    OutputWrapper(f, f.namer(x.path))
  }

  function Images(f: Filter, xs: seq<FileWrapper>): (r: seq<FileWrapper>)
    ensures |r| == |xs|
    ensures forall i :: 0 <= i < |xs| ==> r[i] == Image(f, xs[i])
  {
    seq(|xs|, i requires 0 <= i < |xs| => Image(f, xs[i]))
  }

  /** The loop of `outputs` over `xs`: `hash[output] ||= []; hash[output] << file`. */
  function OutputsOf(f: Filter, xs: seq<FileWrapper>): Hashes.Hash<FileWrapper, seq<FileWrapper>>
  {
    if xs == [] then Hashes.Empty()
    else
      var h := OutputsOf(f, xs[..|xs| - 1]);
      var out := Image(f, xs[|xs| - 1]);
      Hashes.Put(h, out, Hashes.Get(h, out).GetOr([]) + [xs[|xs| - 1]])
  }

  /** `outputs`: its keys are exactly `output_files`, in the same order, although one is
      built by hash insertion and the other by array union. */
  function Outputs(f: Filter): (r: Hashes.Hash<FileWrapper, seq<FileWrapper>>)
    ensures r.keys == OutputFiles(f)
  {
    OutputsOfShape(f, InputFiles(f));
    OutputsOf(f, InputFiles(f))
  }

  /** `output_files`: `input_files.inject([]) { |array, file| array |= [output_wrapper(...)] }`,
      each input's output wrapper once. */
  function OutputFiles(f: Filter): (r: seq<FileWrapper>)
    ensures Seqs.Distinct(r)
    ensures forall x :: x in r <==> x in Images(f, InputFiles(f))
  {
    Seqs.Union(Images(f, InputFiles(f)))
  }

  /** The inputs, in order, whose output is `out`. */
  function InputsFor(f: Filter, xs: seq<FileWrapper>, out: FileWrapper): seq<FileWrapper> {
    Seqs.Filter(xs, MapsTo(f, out))
  }

  /** The predicate "is an input whose output is `out`". */
  function MapsTo(f: Filter, out: FileWrapper): FileWrapper -> bool {
    x => Image(f, x) == out
  }

  /** The keys of `outputs` are the distinct outputs in order of first contribution, and
      each key's list is exactly the inputs mapped to it, in input order. */
  lemma OutputsOfShape(f: Filter, xs: seq<FileWrapper>)
    ensures OutputsOf(f, xs).keys == Seqs.Union(Images(f, xs))
    ensures forall out :: out in OutputsOf(f, xs).m ==> OutputsOf(f, xs).m[out] == InputsFor(f, xs, out)
  {
    OutputsOfKeys(f, xs);
    OutputsOfGroups(f, xs);
  }

  lemma {:induction false} OutputsOfKeys(f: Filter, xs: seq<FileWrapper>)
    ensures OutputsOf(f, xs).keys == Seqs.Union(Images(f, xs))
  {
    if xs != [] {
      var init := xs[..|xs| - 1];
      OutputsOfKeys(f, init);
      assert Images(f, xs)[..|xs| - 1] == Images(f, init);
    }
  }

  lemma {:induction false} OutputsOfGroups(f: Filter, xs: seq<FileWrapper>)
    ensures forall out :: out in OutputsOf(f, xs).m ==> OutputsOf(f, xs).m[out] == InputsFor(f, xs, out)
  {
    if xs != [] {
      var init, last := xs[..|xs| - 1], xs[|xs| - 1];
      assert xs == init + [last];
      OutputsOfGroups(f, init);
      var h := OutputsOf(f, init);
      var out := Image(f, last);
      var group := Hashes.Get(h, out).GetOr([]);
      assert group == InputsFor(f, init, out) by {
        if out !in h.m {
          OutputsOfKeys(f, init);
          forall i | 0 <= i < |init| ensures !MapsTo(f, out)(init[i]) {
            assert Images(f, init)[i] == Image(f, init[i]);
          }
          Seqs.FilterNone(init, MapsTo(f, out));
        }
      }
      var m := Hashes.Put(h, out, group + [last]).m;
      assert OutputsOf(f, xs).m == m;
      forall o | o in m ensures m[o] == InputsFor(f, xs, o) {
        InputsForSnoc(f, init, last, o);
        if o == out {
          assert m[o] == group + [last];
        } else {
          assert m[o] == h.m[o] == InputsFor(f, init, o);
        }
      }
    }
  }

  lemma InputsForSnoc(f: Filter, init: seq<FileWrapper>, last: FileWrapper, o: FileWrapper)
    ensures InputsFor(f, init + [last], o) == InputsFor(f, init, o) + (if Image(f, last) == o then [last] else [])
  {
    assert (init + [last])[..|init|] == init;
  }

  /** The contract of `outputs` and `output_files`:
      - `output_files` lists exactly the keys of `outputs`, in the same order;
      - every output is rooted at `output_root` and tagged with the filter's encoding;
      - each input sits in exactly one list, the one of its own output, and each list
        keeps input order without removing repeated inputs. */
  lemma OutputsContract(f: Filter)
    ensures Outputs(f).keys == OutputFiles(f)
    ensures forall out :: out in Outputs(f).m ==> out.root == f.outputRoot && out.encoding == Encoding(f)
    ensures forall out :: out in Outputs(f).m ==> Outputs(f).m[out] == InputsFor(f, InputFiles(f), out)
    ensures forall i :: 0 <= i < |InputFiles(f)| ==>
              var x := InputFiles(f)[i];
              && Image(f, x) in Outputs(f).m
              && x in Outputs(f).m[Image(f, x)]
              && (forall out :: out in Outputs(f).m && x in Outputs(f).m[out] ==> out == Image(f, x))
  {
    var xs := InputFiles(f);
    OutputsOfShape(f, xs);
    OutputsTagged(f, xs);
    OutputsCover(f, xs);
    OutputsUnique(f, xs);
  }

  lemma OutputsTagged(f: Filter, xs: seq<FileWrapper>)
    ensures forall out :: out in OutputsOf(f, xs).m ==> out.root == f.outputRoot && out.encoding == Encoding(f)
  {
    OutputsOfShape(f, xs);
    forall out | out in OutputsOf(f, xs).m ensures out.root == f.outputRoot && out.encoding == Encoding(f) {
      assert out in Images(f, xs);
    }
  }

  lemma OutputsCover(f: Filter, xs: seq<FileWrapper>)
    ensures forall i :: 0 <= i < |xs| ==> Image(f, xs[i]) in OutputsOf(f, xs).m && xs[i] in OutputsOf(f, xs).m[Image(f, xs[i])]
  {
    OutputsOfShape(f, xs);
    forall i | 0 <= i < |xs| ensures Image(f, xs[i]) in OutputsOf(f, xs).m && xs[i] in OutputsOf(f, xs).m[Image(f, xs[i])] {
      assert Images(f, xs)[i] == Image(f, xs[i]);
      assert MapsTo(f, Image(f, xs[i]))(xs[i]);
    }
  }

  lemma OutputsUnique(f: Filter, xs: seq<FileWrapper>)
    ensures forall out, x :: out in OutputsOf(f, xs).m && x in OutputsOf(f, xs).m[out] ==> out == Image(f, x)
  {
    OutputsOfShape(f, xs);
    forall out, x | out in OutputsOf(f, xs).m && x in OutputsOf(f, xs).m[out] ensures out == Image(f, x) {
      assert x in InputsFor(f, xs, out);
      assert MapsTo(f, out)(x);
    }
  }

  /** Among one filter's outputs, `FileWrapper#==` (what `|=` and the hash use) is plain
      equality, because they share root and encoding. */
  lemma OutputsEqlIsEquality(f: Filter, a: FileWrapper, b: FileWrapper)
    requires a in OutputFiles(f) && b in OutputFiles(f)
    ensures Eql(a, b) <==> a == b
  {
    var xs := InputFiles(f);
    assert a in Images(f, xs) && b in Images(f, xs);
  }

  /** A constant output name sends every input, in order, to one output. */
  lemma ConstantNamerSingleOutput(f: Filter, name: string)
    requires forall p :: f.namer(p) == name
    requires InputFiles(f) != []
    ensures Outputs(f).keys == [OutputWrapper(f, name)]
    ensures Outputs(f).m[OutputWrapper(f, name)] == InputFiles(f)
  {
    var xs := InputFiles(f);
    var out := OutputWrapper(f, name);
    OutputsOfShape(f, xs);
    var keys := Outputs(f).keys;
    assert forall k :: k in keys ==> k == out;
    assert Images(f, xs)[0] == out;
    assert out in keys;
    Seqs.DistinctConstant(keys, out);
    Seqs.FilterAll(xs, MapsTo(f, out));
  }

  // ---------------------------------------------------------------- rake tasks

  /** A Rake file task: its name and its prerequisites. */
  datatype TaskDef = TaskDef(name: string, prerequisites: seq<string>)

  /** `files.map(&:fullpath)`: the first file whose root is not absolute raises. */
  function Fullpaths(xs: seq<FileWrapper>): (r: Result<seq<string>, Error>)
    ensures r.Ok? <==> forall i :: 0 <= i < |xs| ==> Paths.IsAbsolute(xs[i].root)
    ensures r.Ok? ==> |r.value| == |xs| && forall i :: 0 <= i < |xs| ==> r.value[i] == Paths.Join(xs[i].root, xs[i].path)
  {
    if xs == [] then Ok([])
    else
      var p :- Fullpath(xs[0]);
      var rest :- Fullpaths(xs[1..]);
      assert forall i :: 1 <= i < |xs| ==> xs[i] == xs[1..][i - 1];
      Ok([p] + rest)
  }

  /** The tasks of `generate_rake_tasks` for the given outputs, in order. */
  function TasksFor(h: Hashes.Hash<FileWrapper, seq<FileWrapper>>, outs: seq<FileWrapper>): Result<seq<TaskDef>, Error>
    requires forall i :: 0 <= i < |outs| ==> outs[i] in h.m
  {
    if outs == [] then Ok([])
    else
      var deps :- Fullpaths(h.m[outs[0]]);
      var name :- Fullpath(outs[0]);
      var rest :- TasksFor(h, outs[1..]);
      Ok([TaskDef(name, deps)] + rest)
  }

  /** `generate_rake_tasks`: one task per output. It raises exactly when some output or
      some input of an output has a root that is not absolute. */
  function GenerateRakeTasks(f: Filter): (r: Result<seq<TaskDef>, Error>)
    ensures r.Ok? <==> forall o :: o in Outputs(f).m ==>
              Paths.IsAbsolute(o.root) && forall y :: y in Outputs(f).m[o] ==> Paths.IsAbsolute(y.root)
    ensures r.Ok? ==> |r.value| == |Outputs(f).keys|
  {
    var h := Outputs(f);
    TasksForAllKeys(h);
    TasksFor(h, h.keys)
  }

  /** `TasksFor` over every key of a hash, in the hash's own terms. */
  lemma TasksForAllKeys(h: Hashes.Hash<FileWrapper, seq<FileWrapper>>)
    ensures TasksFor(h, h.keys).Ok? <==> forall o :: o in h.m ==>
              Paths.IsAbsolute(o.root) && forall y :: y in h.m[o] ==> Paths.IsAbsolute(y.root)
    ensures TasksFor(h, h.keys).Ok? ==> |TasksFor(h, h.keys).value| == |h.keys|
  {
    assert forall o :: o in h.keys <==> o in h.m;
    TasksForShape(h, h.keys);
    TasksForOk(h, h.keys);
  }

  lemma {:induction false} TasksForShape(h: Hashes.Hash<FileWrapper, seq<FileWrapper>>, outs: seq<FileWrapper>)
    requires forall i :: 0 <= i < |outs| ==> outs[i] in h.m
    ensures TasksFor(h, outs).Ok? <==>
              forall i :: 0 <= i < |outs| ==>
                Paths.IsAbsolute(outs[i].root) && Fullpaths(h.m[outs[i]]).Ok?
    ensures TasksFor(h, outs).Ok? ==>
              var ts := TasksFor(h, outs).value;
              && |ts| == |outs|
              && forall i :: 0 <= i < |outs| ==>
                   ts[i] == TaskDef(Paths.Join(outs[i].root, outs[i].path), Fullpaths(h.m[outs[i]]).value)
  {
    if outs != [] {
      TasksForShape(h, outs[1..]);
      assert forall i :: 1 <= i < |outs| ==> outs[i] == outs[1..][i - 1];
    }
  }

  /** `TasksFor` in terms of membership: it succeeds exactly when every output and
      every input of every output has an absolute root. */
  lemma TasksForOk(h: Hashes.Hash<FileWrapper, seq<FileWrapper>>, outs: seq<FileWrapper>)
    requires forall i :: 0 <= i < |outs| ==> outs[i] in h.m
    ensures TasksFor(h, outs).Ok? <==>
              forall o :: o in outs ==> Paths.IsAbsolute(o.root) && forall y :: y in h.m[o] ==> Paths.IsAbsolute(y.root)
  {
    TasksForShape(h, outs);
    if TasksFor(h, outs).Ok? {
      forall o | o in outs ensures Paths.IsAbsolute(o.root) && forall y :: y in h.m[o] ==> Paths.IsAbsolute(y.root) {
        var i :| 0 <= i < |outs| && outs[i] == o;
        assert Fullpaths(h.m[o]).Ok?;
      }
    }
  }

  /** The two facts about a grouping of `xs` by output that the root conditions rest on:
      every input is in its own output's group, and every group holds only inputs. */
  lemma GroupedMembership(f: Filter, xs: seq<FileWrapper>, keys: seq<FileWrapper>, m: map<FileWrapper, seq<FileWrapper>>)
    requires keys == Seqs.Union(Images(f, xs))
    requires forall o :: o in keys <==> o in m
    requires forall o :: o in m ==> m[o] == InputsFor(f, xs, o)
    ensures forall x :: x in xs ==> Image(f, x) in keys && x in m[Image(f, x)]
    ensures forall o :: o in keys ==> o.root == f.outputRoot
    ensures forall o, y :: o in keys && y in m[o] ==> y in xs
    ensures keys != [] ==> xs != []
  {
    GroupedInputs(f, xs, keys, m);
    KeysRooted(f, xs, keys);
  }

  lemma GroupedInputs(f: Filter, xs: seq<FileWrapper>, keys: seq<FileWrapper>, m: map<FileWrapper, seq<FileWrapper>>)
    requires keys == Seqs.Union(Images(f, xs))
    requires forall o :: o in keys <==> o in m
    requires forall o :: o in m ==> m[o] == InputsFor(f, xs, o)
    ensures forall x :: x in xs ==> Image(f, x) in keys && x in m[Image(f, x)]
  {
    forall x | x in xs ensures Image(f, x) in keys && x in m[Image(f, x)] {
      var i :| 0 <= i < |xs| && xs[i] == x;
      assert Images(f, xs)[i] == Image(f, x);
    }
  }

  lemma KeysRooted(f: Filter, xs: seq<FileWrapper>, keys: seq<FileWrapper>)
    requires keys == Seqs.Union(Images(f, xs))
    ensures forall o :: o in keys ==> o.root == f.outputRoot
  {
    forall o | o in keys ensures o.root == f.outputRoot {
      assert o in Images(f, xs);
    }
  }

  /** Over any grouping of `xs` by output, every output and every grouped input has an
      absolute root exactly when every input does and, if there is one, the output root. */
  lemma GroupedRootsAbsolute(f: Filter, xs: seq<FileWrapper>, keys: seq<FileWrapper>, m: map<FileWrapper, seq<FileWrapper>>)
    requires forall o :: o in keys ==> o.root == f.outputRoot && o in m
    requires forall x :: x in xs ==> Image(f, x) in keys && x in m[Image(f, x)]
    requires forall o, y :: o in keys && y in m[o] ==> y in xs
    requires keys != [] ==> xs != []
    ensures (forall o :: o in keys ==> Paths.IsAbsolute(o.root) && forall y :: y in m[o] ==> Paths.IsAbsolute(y.root))
            <==> (forall x :: x in xs ==> Paths.IsAbsolute(x.root)) && (xs != [] ==> Paths.IsAbsolute(f.outputRoot))
  {
    if forall o :: o in keys ==> Paths.IsAbsolute(o.root) && forall y :: y in m[o] ==> Paths.IsAbsolute(y.root) {
      forall x | x in xs ensures Paths.IsAbsolute(x.root) {
        assert x in m[Image(f, x)];
      }
      if xs != [] {
        assert Image(f, xs[0]) in keys;
      }
    }
  }

  /** The roots `generate_rake_tasks` needs to be absolute, stated over the inputs. */
  lemma GenerateRakeTasksOk(f: Filter)
    ensures GenerateRakeTasks(f).Ok? <==>
              && (forall x :: x in InputFiles(f) ==> Paths.IsAbsolute(x.root))
              && (InputFiles(f) != [] ==> Paths.IsAbsolute(f.outputRoot))
  {
    var h := Outputs(f);
    OutputsOfShape(f, InputFiles(f));
    TasksForOk(h, h.keys);
    GroupedMembership(f, InputFiles(f), h.keys, h.m);
    GroupedRootsAbsolute(f, InputFiles(f), h.keys, h.m);
  }

  /** `TasksFor` over a grouping of `xs` whose outputs all sit under `output_root`. */
  lemma TasksForGrouped(f: Filter, xs: seq<FileWrapper>, h: Hashes.Hash<FileWrapper, seq<FileWrapper>>)
    requires forall o :: o in h.m ==> h.m[o] == InputsFor(f, xs, o)
    requires forall o :: o in h.keys ==> o.root == f.outputRoot
    requires TasksFor(h, h.keys).Ok?
    ensures var ts := TasksFor(h, h.keys).value;
            && |ts| == |h.keys|
            && forall i :: 0 <= i < |h.keys| ==>
                 && ts[i].name == Paths.Join(f.outputRoot, h.keys[i].path)
                 && Fullpaths(InputsFor(f, xs, h.keys[i])).Ok?
                 && ts[i].prerequisites == Fullpaths(InputsFor(f, xs, h.keys[i])).value
  {
    TasksForShape(h, h.keys);
    var ts := TasksFor(h, h.keys).value;
    forall i | 0 <= i < |h.keys|
      ensures ts[i].name == Paths.Join(f.outputRoot, h.keys[i].path)
      ensures Fullpaths(InputsFor(f, xs, h.keys[i])).Ok?
      ensures ts[i].prerequisites == Fullpaths(InputsFor(f, xs, h.keys[i])).value
    {
      var o := h.keys[i];
      assert o in h.keys;
      assert o in h.m;
      assert h.m[o] == InputsFor(f, xs, o);
    }
  }

  /** Generated tasks follow the outputs one for one: each is named by its output's
      full path under `output_root`, and its prerequisites are the full paths of that
      output's inputs, in input order. */
  lemma GenerateRakeTasksShape(f: Filter)
    requires GenerateRakeTasks(f).Ok?
    ensures var ts := GenerateRakeTasks(f).value;
            var outs := Outputs(f).keys;
            && |ts| == |outs|
            && forall i :: 0 <= i < |outs| ==>
                 && ts[i].name == Paths.Join(f.outputRoot, outs[i].path)
                 && Fullpaths(InputsFor(f, InputFiles(f), outs[i])).Ok?
                 && ts[i].prerequisites == Fullpaths(InputsFor(f, InputFiles(f), outs[i])).value
  {
    var h := Outputs(f);
    OutputsOfShape(f, InputFiles(f));
    GroupedMembership(f, InputFiles(f), h.keys, h.m);
    TasksForGrouped(f, InputFiles(f), h);
  }

  /** `generate_rake_tasks` succeeds exactly when every input root is absolute and, if
      there is any input, so is `output_root`; it then makes one task per output. */
  lemma GenerateRakeTasksContract(f: Filter)
    ensures GenerateRakeTasks(f).Ok? <==>
              && (forall x :: x in InputFiles(f) ==> Paths.IsAbsolute(x.root))
              && (InputFiles(f) != [] ==> Paths.IsAbsolute(f.outputRoot))
    ensures GenerateRakeTasks(f).Ok? ==>
              var ts := GenerateRakeTasks(f).value;
              var outs := Outputs(f).keys;
              && |ts| == |outs|
              && forall i :: 0 <= i < |outs| ==>
                   && ts[i].name == Paths.Join(f.outputRoot, outs[i].path)
                   && Fullpaths(InputsFor(f, InputFiles(f), outs[i])).Ok?
                   && ts[i].prerequisites == Fullpaths(InputsFor(f, InputFiles(f), outs[i])).value
  {
    GenerateRakeTasksOk(f);
    if GenerateRakeTasks(f).Ok? {
      GenerateRakeTasksShape(f);
    }
  }
}

=== FILE: graph.dfy ===
/** `Rake::Pipeline::Graph` in `lib/rake-pipeline/graph.rb`: named nodes with metadata,
    linked both ways — a parent lists its children and a child its parents.

    Ruby keeps sets of node objects; a graph holds one node object per name, so the sets
    are modelled as sets of names. Metadata is of any type `D`. */
module Graphs {
  import opened Wrappers
  import opened Errors
  import opened Hashes
  import Seqs

  datatype Node<D> = Node(name: string, parents: set<string>, children: set<string>, metadata: D)

  /** `@map`: name to node, in insertion order. */
  type Graph<D> = Hash<string, Node<D>>

  /** `Node#==`: nodes compare by name alone. */
  predicate NodeEq<D>(a: Node<D>, b: Node<D>)
    ensures NodeEq(a, b) <==> a.(parents := b.parents, children := b.children, metadata := b.metadata) == b
  {
    a.name == b.name
  }

  /** What every graph built by these operations satisfies: each node is filed under its
      own name, links only mention nodes of the graph, and every link is recorded at both
      ends. */
  predicate Consistent<D>(g: Graph<D>) {
    && (forall k :: k in g.m ==> g.m[k].name == k && g.m[k].parents <= g.m.Keys && g.m[k].children <= g.m.Keys)
    && (forall a, b :: a in g.m && b in g.m ==> (b in g.m[a].children <==> a in g.m[b].parents))
  }

  /** `Graph.new` */
  function New<D>(): (g: Graph<D>)
    ensures Consistent(g) && g.keys == []
  {
    Empty()
  }

  /** `nodes`: the nodes in the order they were added. */
  function Nodes<D>(g: Graph<D>): (r: seq<Node<D>>)
    ensures |r| == |g.keys|
    ensures forall i :: 0 <= i < |r| ==> r[i] == g.m[g.keys[i]]
  {
    Values(g)
  }

  /** `[]` */
  function Lookup<D>(g: Graph<D>, name: string): (r: Option<Node<D>>)
    ensures r.Some? <==> name in g.m
    ensures r.Some? ==> r.value == g.m[name]
  {
    Get(g, name)
  }

  /** `add`: a new node without links, unless a node of that name exists, which is kept
      as it is, metadata included. */
  function Add<D>(g: Graph<D>, name: string, metadata: D): (r: Graph<D>)
    ensures name in g.m ==> r == g
    ensures name !in g.m ==> r.keys == g.keys + [name] && r.m == g.m[name := Node(name, {}, {}, metadata)]
  {
    if name in g.m then g else Put(g, name, Node(name, {}, {}, metadata))
  }

  /** `verify`: the node of that name, or `MissingNode`. */
  function Verify<D>(g: Graph<D>, name: string): (r: Result<Node<D>, Error>)
    ensures r.Ok? <==> name in g.m
    ensures r.Ok? ==> r.value == g.m[name]
    ensures r.Err? ==> r.error == MissingNode(name)
  {
    if name in g.m then Ok(g.m[name]) else Err(MissingNode(name))
  }

  /** `lookup`: the parent, then the child, each verified in that order. */
  function LookupPair<D>(g: Graph<D>, parent: string, child: string): (r: Result<(Node<D>, Node<D>), Error>)
    ensures r.Ok? <==> parent in g.m && child in g.m
    ensures r.Err? ==> r.error == MissingNode(if parent !in g.m then parent else child)
  {
    var p :- Verify(g, parent);
    var c :- Verify(g, child);
    Ok((p, c))
  }

  /** `link`: the child joins the parent's children, then the parent joins the child's
      parents (the same node when the two names agree). */
  function Link<D>(g: Graph<D>, parent: string, child: string): (r: Result<Graph<D>, Error>)
    ensures r.Ok? <==> parent in g.m && child in g.m
  {
    var _ :- LookupPair(g, parent, child);
    var p := g.m[parent];
    var g1 := Put(g, parent, p.(children := p.children + {child}));
    var c := g1.m[child];
    Ok(Put(g1, child, c.(parents := c.parents + {parent})))
  }

  /** `unlink`: the child leaves the parent's children, then the parent leaves the
      child's parents. */
  function Unlink<D>(g: Graph<D>, parent: string, child: string): (r: Result<Graph<D>, Error>)
    ensures r.Ok? <==> parent in g.m && child in g.m
  {
    var _ :- LookupPair(g, parent, child);
    var p := g.m[parent];
    var g1 := Put(g, parent, p.(children := p.children - {child}));
    var c := g1.m[child];
    Ok(Put(g1, child, c.(parents := c.parents - {parent})))
  }

  /** `remove`: every parent of the node forgets it as a child, every child forgets it as
      a parent, and the node leaves the graph. */
  function Remove<D>(g: Graph<D>, name: string): (r: Result<Graph<D>, Error>)
    ensures r.Ok? <==> name in g.m
    ensures r.Err? ==> r.error == MissingNode(name)
  {
    var node :- Verify(g, name);
    Ok(Delete(MapValues(g, (k: string, n: Node<D>) => Detached(n, k, node)), name))
  }

  /** Node `k` once the parents of `node` forgot it as a child and its children forgot it
      as a parent. */
  function Detached<D>(n: Node<D>, k: string, node: Node<D>): (r: Node<D>)
    ensures r.name == n.name && r.metadata == n.metadata
    ensures forall x :: x in r.children <==> x in n.children && !(x == node.name && k in node.parents)
    ensures forall x :: x in r.parents <==> x in n.parents && !(x == node.name && k in node.children)
  {
    n.(children := if k in node.parents then n.children - {node.name} else n.children,
       parents := if k in node.children then n.parents - {node.name} else n.parents)
  }

  // ---------------------------------------------------------------- lemmas

  /** `link` and `unlink` raise `MissingNode` for the first of the two names that is
      absent, the parent being checked first, and change nothing then. */
  lemma LinkErrors<D>(g: Graph<D>, parent: string, child: string)
    ensures Link(g, parent, child).Err? ==>
              Link(g, parent, child).error == MissingNode(if parent !in g.m then parent else child)
    ensures Unlink(g, parent, child).Err? ==>
              Unlink(g, parent, child).error == MissingNode(if parent !in g.m then parent else child)
  {
  }

  /** A graph with nodes added one after the other lists them in that order; adding a
      name already present changes nothing. */
  lemma AddKeepsOrder<D>(g: Graph<D>, name: string, metadata: D)
    ensures name !in g.m ==> Nodes(Add(g, name, metadata)) == Nodes(g) + [Node(name, {}, {}, metadata)]
    ensures name in g.m ==> Nodes(Add(g, name, metadata)) == Nodes(g)
  {
  }

  lemma AddConsistent<D>(g: Graph<D>, name: string, metadata: D)
    requires Consistent(g)
    ensures Consistent(Add(g, name, metadata))
  {
  }

  /** Node `k` after the link from `parent` to `child` is added (`add`) or taken away. */
  function Relinked<D>(n: Node<D>, k: string, parent: string, child: string, add: bool): (r: Node<D>)
    ensures r.name == n.name && r.metadata == n.metadata
    ensures forall x :: x in r.children <==> if k == parent && x == child then add else x in n.children
    ensures forall x :: x in r.parents <==> if k == child && x == parent then add else x in n.parents
  {
    n.(children := if k == parent then (if add then n.children + {child} else n.children - {child}) else n.children,
       parents := if k == child then (if add then n.parents + {parent} else n.parents - {parent}) else n.parents)
  }

  /** Adding or taking away one link at both ends keeps a graph consistent. */
  lemma RelinkedConsistent<D>(g: Graph<D>, r: Graph<D>, parent: string, child: string, add: bool)
    requires Consistent(g)
    requires parent in g.m && child in g.m
    requires r.m.Keys == g.m.Keys
    requires forall k :: k in g.m ==> r.m[k] == Relinked(g.m[k], k, parent, child, add)
    ensures Consistent(r)
  {
    forall k | k in r.m
      ensures r.m[k].name == k && r.m[k].parents <= r.m.Keys && r.m[k].children <= r.m.Keys
    {
      assert r.m[k] == Relinked(g.m[k], k, parent, child, add);
    }
    forall a, b | a in r.m && b in r.m
      ensures b in r.m[a].children <==> a in r.m[b].parents
    {
      assert r.m[a] == Relinked(g.m[a], a, parent, child, add);
      assert r.m[b] == Relinked(g.m[b], b, parent, child, add);
    }
  }

  /** `link` touches only the two named nodes, in place. */
  lemma LinkShape<D>(g: Graph<D>, parent: string, child: string)
    requires parent in g.m && child in g.m
    ensures var r := Link(g, parent, child).value;
            && r.keys == g.keys && r.m.Keys == g.m.Keys
            && forall k :: k in g.m ==> r.m[k] == Relinked(g.m[k], k, parent, child, true)
  {
  }

  /** `unlink` touches only the two named nodes, in place. */
  lemma UnlinkShape<D>(g: Graph<D>, parent: string, child: string)
    requires parent in g.m && child in g.m
    ensures var r := Unlink(g, parent, child).value;
            && r.keys == g.keys && r.m.Keys == g.m.Keys
            && forall k :: k in g.m ==> r.m[k] == Relinked(g.m[k], k, parent, child, false)
  {
  }

  /** After `link`, the parent lists the child and the child the parent; every other
      link is as before, and the node names, their order and metadata are unchanged. */
  lemma LinkContract<D>(g: Graph<D>, parent: string, child: string)
    requires Consistent(g)
    requires parent in g.m && child in g.m
    ensures var r := Link(g, parent, child).value;
            && r.keys == g.keys
            && r.m.Keys == g.m.Keys
            && Consistent(r)
            && child in r.m[parent].children && parent in r.m[child].parents
            && (forall a, b :: a in g.m && b in g.m && (a, b) != (parent, child) ==>
                  (b in r.m[a].children <==> b in g.m[a].children))
            && (forall k :: k in g.m ==> r.m[k].metadata == g.m[k].metadata)
  {
    LinkShape(g, parent, child);
    var r := Link(g, parent, child).value;
    RelinkedConsistent(g, r, parent, child, true);
    forall a, b | a in g.m && b in g.m && (a, b) != (parent, child)
      ensures b in r.m[a].children <==> b in g.m[a].children
    {
      assert r.m[a] == Relinked(g.m[a], a, parent, child, true);
    }
    assert r.m[parent] == Relinked(g.m[parent], parent, parent, child, true);
    assert r.m[child] == Relinked(g.m[child], child, parent, child, true);
  }

  /** After `unlink`, the parent no longer lists the child nor the child the parent;
      every other link is as before. */
  lemma UnlinkContract<D>(g: Graph<D>, parent: string, child: string)
    requires Consistent(g)
    requires parent in g.m && child in g.m
    ensures var r := Unlink(g, parent, child).value;
            && r.keys == g.keys
            && r.m.Keys == g.m.Keys
            && Consistent(r)
            && child !in r.m[parent].children && parent !in r.m[child].parents
            && (forall a, b :: a in g.m && b in g.m && (a, b) != (parent, child) ==>
                  (b in r.m[a].children <==> b in g.m[a].children))
            && (forall k :: k in g.m ==> r.m[k].metadata == g.m[k].metadata)
  {
    UnlinkShape(g, parent, child);
    var r := Unlink(g, parent, child).value;
    RelinkedConsistent(g, r, parent, child, false);
    forall a, b | a in g.m && b in g.m && (a, b) != (parent, child)
      ensures b in r.m[a].children <==> b in g.m[a].children
    {
      assert r.m[a] == Relinked(g.m[a], a, parent, child, false);
    }
    assert r.m[parent] == Relinked(g.m[parent], parent, parent, child, false);
    assert r.m[child] == Relinked(g.m[child], child, parent, child, false);
  }

  /** Taking away a link that was just added, where there was none, restores the node. */
  lemma RelinkedUndo<D>(n: Node<D>, k: string, parent: string, child: string)
    requires k == parent ==> child !in n.children
    requires k == child ==> parent !in n.parents
    ensures Relinked(Relinked(n, k, parent, child, true), k, parent, child, false) == n
  {
    var r := Relinked(Relinked(n, k, parent, child, true), k, parent, child, false);
    assert r.children == n.children;
    assert r.parents == n.parents;
  }

  /** `unlink` undoes a `link` of two nodes that were not linked. */
  lemma UnlinkUndoesLink<D>(g: Graph<D>, parent: string, child: string)
    requires Consistent(g)
    requires parent in g.m && child in g.m
    requires child !in g.m[parent].children
    ensures Link(g, parent, child).Ok?
    ensures Unlink(Link(g, parent, child).value, parent, child) == Ok(g)
  {
    var l := Link(g, parent, child).value;
    LinkShape(g, parent, child);
    UnlinkShape(l, parent, child);
    var r := Unlink(l, parent, child).value;
    assert parent !in g.m[child].parents;
    UndoPointwise(g, l, r, parent, child);
  }

  lemma UndoPointwise<D>(g: Graph<D>, l: Graph<D>, r: Graph<D>, parent: string, child: string)
    requires parent in g.m && child in g.m
    requires child !in g.m[parent].children && parent !in g.m[child].parents
    requires l.keys == g.keys && l.m.Keys == g.m.Keys && r.keys == l.keys && r.m.Keys == l.m.Keys
    requires forall k :: k in g.m ==> l.m[k] == Relinked(g.m[k], k, parent, child, true)
    requires forall k :: k in l.m ==> r.m[k] == Relinked(l.m[k], k, parent, child, false)
    ensures r == g
  {
    forall k | k in g.m ensures r.m[k] == g.m[k] {
      RelinkedUndo(g.m[k], k, parent, child);
    }
    assert r.m == g.m;
  }

  /** `remove` deletes the node's key and detaches every other node from it. */
  lemma RemoveShape<D>(g: Graph<D>, name: string)
    requires name in g.m
    ensures var r := Remove(g, name).value;
            && r.keys == Seqs.Filter(g.keys, Seqs.Except(name))
            && r.m.Keys == g.m.Keys - {name}
            && forall k :: k in r.m ==> r.m[k] == Detached(g.m[k], k, g.m[name])
  {
  }

  /** Detaching every node from `name` and dropping it keeps a consistent graph
      consistent, with no trace of `name`, and every other link as it was. */
  lemma DetachedConsistent<D>(g: Graph<D>, r: Graph<D>, name: string)
    requires Consistent(g) && name in g.m
    requires r.m.Keys == g.m.Keys - {name}
    requires forall k :: k in r.m ==> r.m[k] == Detached(g.m[k], k, g.m[name])
    ensures Consistent(r)
    ensures forall k :: k in r.m ==> name !in r.m[k].parents && name !in r.m[k].children
    ensures forall a, b :: a in r.m && b in r.m ==> (b in r.m[a].children <==> b in g.m[a].children)
  {
    var node := g.m[name];
    forall k | k in r.m
      ensures name !in r.m[k].parents && name !in r.m[k].children
      ensures r.m[k].name == k && r.m[k].parents <= r.m.Keys && r.m[k].children <= r.m.Keys
    {
      assert name in g.m[k].children <==> k in node.parents;
      assert name in g.m[k].parents <==> k in node.children;
    }
    forall a, b | a in r.m && b in r.m
      ensures b in r.m[a].children <==> a in r.m[b].parents
    {
      assert r.m[a] == Detached(g.m[a], a, node);
      assert r.m[b] == Detached(g.m[b], b, node);
    }
  }

  /** After `remove`, the node is gone, the other nodes keep their order, and no remaining
      node lists it as a parent or a child; all other links are as before. */
  lemma RemoveContract<D>(g: Graph<D>, name: string)
    requires Consistent(g)
    requires name in g.m
    ensures var r := Remove(g, name).value;
            && name !in r.m
            && r.keys == Seqs.Filter(g.keys, Seqs.Except(name))
            && Consistent(r)
            && (forall k :: k in r.m ==> name !in r.m[k].parents && name !in r.m[k].children)
            && (forall a, b :: a in r.m && b in r.m ==> (b in r.m[a].children <==> b in g.m[a].children))
            && (forall k :: k in r.m ==> r.m[k].metadata == g.m[k].metadata)
  {
    RemoveShape(g, name);
    DetachedConsistent(g, Remove(g, name).value, name);
  }

  /** In a consistent graph, two of its nodes are `==` exactly when they are the same
      node. */
  lemma NodeEqInGraph<D>(g: Graph<D>, a: Node<D>, b: Node<D>)
    requires Consistent(g)
    requires a in Nodes(g) && b in Nodes(g)
    ensures NodeEq(a, b) <==> a == b
  {
    var i :| 0 <= i < |Nodes(g)| && Nodes(g)[i] == a;
    var j :| 0 <= j < |Nodes(g)| && Nodes(g)[j] == b;
    assert g.keys[i] in g.m && g.keys[j] in g.m;
  }
}

=== FILE: hashes.dfy ===
/** Ruby's Hash: a finite map that remembers the order in which its keys were
    first inserted. Assigning to an existing key keeps that key's position. */
module Hashes {
  import opened Wrappers
  import Seqs

  /** Keys in insertion order, and the key-to-value map. */
  datatype HashRep<K, V> = HashRep(keys: seq<K>, m: map<K, V>)

  ghost predicate Valid<K(!new), V>(h: HashRep<K, V>) {
    && Seqs.Distinct(h.keys)
    && (forall k :: k in h.m <==> k in h.keys)
  }

  type Hash<K(==,!new), V> = h: HashRep<K, V> | Valid(h) witness HashRep([], map[])

  /** `{}` */
  function Empty<K(==,!new), V>(): (r: Hash<K, V>)
    ensures r.keys == [] && r.m == map[]
  {
    HashRep([], map[])
  }

  /** `h[k]`, with `nil` for a missing key. */
  function Get<K(==,!new), V>(h: Hash<K, V>, k: K): (r: Option<V>)
    ensures r.Some? <==> k in h.m
    ensures r.Some? ==> r.value == h.m[k]
  {
    if k in h.m then Some(h.m[k]) else None
  }

  /** `h[k] = v` (also `h.merge!(k => v)`): a new key goes last, an old key keeps its place. */
  function Put<K(==,!new), V>(h: Hash<K, V>, k: K, v: V): (r: Hash<K, V>)
    ensures r.m == h.m[k := v]
    ensures r.keys == if k in h.m then h.keys else h.keys + [k]
  {
    if k in h.m then HashRep(h.keys, h.m[k := v]) else HashRep(h.keys + [k], h.m[k := v])
  }

  /** `h.delete(k)`: the other keys keep their order. */
  function Delete<K(==,!new), V>(h: Hash<K, V>, k: K): (r: Hash<K, V>)
    ensures r.m == h.m - {k}
    ensures r.keys == Seqs.Filter(h.keys, Seqs.Except(k))
  {
    var keys := Seqs.Filter(h.keys, Seqs.Except(k));
    Seqs.FilterDistinct(h.keys, Seqs.Except(k));
    HashRep(keys, h.m - {k})
  }

  /** Replaces every value by `f(key, value)`; keys and their order are unchanged. */
  function MapValues<K(==,!new), V, W>(h: Hash<K, V>, f: (K, V) -> W): (r: Hash<K, W>)
    ensures r.keys == h.keys
    ensures forall k :: k in r.m <==> k in h.m
    ensures forall k :: k in r.m ==> r.m[k] == f(k, h.m[k])
  {
    HashRep(h.keys, map k | k in h.m :: f(k, h.m[k]))
  }

  /** `h.values`, in key order. */
  function Values<K(==,!new), V>(h: Hash<K, V>): (r: seq<V>)
    ensures |r| == |h.keys|
    ensures forall i :: 0 <= i < |r| ==> r[i] == h.m[h.keys[i]]
  {
    seq(|h.keys|, i requires 0 <= i < |h.keys| => h.m[h.keys[i]])
  }

  /** `h.to_a`: the key/value pairs in key order. */
  function Pairs<K(==,!new), V>(h: Hash<K, V>): (r: seq<(K, V)>)
    ensures |r| == |h.keys|
    ensures forall i :: 0 <= i < |r| ==> r[i] == (h.keys[i], h.m[h.keys[i]])
  {
    seq(|h.keys|, i requires 0 <= i < |h.keys| => (h.keys[i], h.m[h.keys[i]]))
  }

  /** Assigns the pairs one after the other, as `pairs.each { |k, v| h[k] = v }` does. */
  function PutAll<K(==,!new), V>(h: Hash<K, V>, pairs: seq<(K, V)>): Hash<K, V>
  {
    if pairs == [] then h
    else
      var last := pairs[|pairs| - 1];
      Put(PutAll(h, pairs[..|pairs| - 1]), last.0, last.1)
  }

  /** The value the last pair with key `k` assigns, if any pair has key `k`. */
  function LastAssigned<K(==), V>(pairs: seq<(K, V)>, k: K): Option<V>
  {
    if pairs == [] then None
    else if pairs[|pairs| - 1].0 == k then Some(pairs[|pairs| - 1].1)
    else LastAssigned(pairs[..|pairs| - 1], k)
  }

  /** Later assignments win: after `PutAll`, a key holds the value of its last pair,
      and keys no pair names keep their old value. */
  lemma {:induction false} PutAllLastWins<K(!new), V>(h: Hash<K, V>, pairs: seq<(K, V)>, k: K)
    ensures Get(PutAll(h, pairs), k) == (if LastAssigned(pairs, k).Some? then LastAssigned(pairs, k) else Get(h, k))
  {
    if pairs != [] {
      PutAllLastWins(h, pairs[..|pairs| - 1], k);
    }
  }

  /** The first `n` keys of `h` with their values. */
  function Take<K(==,!new), V>(h: Hash<K, V>, n: nat): (r: Hash<K, V>)
    requires n <= |h.keys|
    ensures r.keys == h.keys[..n]
    ensures forall k :: k in r.m ==> k in h.m && r.m[k] == h.m[k]
  {
    var keys := h.keys[..n];
    HashRep(keys, map k | k in keys :: h.m[k])
  }

  /** Extending a prefix by the next key. */
  lemma TakeStep<K(!new), V>(h: Hash<K, V>, n: nat)
    requires n < |h.keys|
    ensures Put(Take(h, n), h.keys[n], h.m[h.keys[n]]) == Take(h, n + 1)
  {
    var k := h.keys[n];
    assert k !in h.keys[..n];
    assert h.keys[..n + 1] == h.keys[..n] + [k];
    var l := Put(Take(h, n), k, h.m[k]);
    var r := Take(h, n + 1);
    assert l.keys == r.keys;
    assert l.m == r.m;
  }

  lemma {:induction false} PutAllPrefix<K(!new), V>(h: Hash<K, V>, n: nat)
    requires n <= |h.keys|
    ensures PutAll(Empty(), Pairs(h)[..n]) == Take(h, n)
  {
    var ps := Pairs(h);
    if n == 0 {
      assert Take(h, 0).m == map[];
    } else {
      PutAllPrefix(h, n - 1);
      assert ps[..n][..n - 1] == ps[..n - 1];
      TakeStep(h, n - 1);
    }
  }

  /** Re-inserting a hash's pairs into an empty hash rebuilds the same hash, order included. */
  lemma PutAllPairs<K(!new), V>(h: Hash<K, V>)
    ensures PutAll(Empty(), Pairs(h)) == h
  {
    var ps := Pairs(h);
    PutAllPrefix(h, |ps|);
    assert ps[..|ps|] == ps;
    TakeAll(h);
  }

  lemma TakeAll<K(!new), V>(h: Hash<K, V>)
    ensures Take(h, |h.keys|) == h
  {
    var t := Take(h, |h.keys|);
    assert t.keys == h.keys;
    forall k | k in h.m ensures k in t.m {
      assert k in h.keys;
    }
    assert t.m == h.m;
  }

  /** Two hashes with the same keys in the same order and the same value at each key
      are the same hash. */
  lemma SameEntries<K(!new), V>(a: Hash<K, V>, b: Hash<K, V>)
    requires a.keys == b.keys
    requires forall k :: k in a.m ==> k in b.m && a.m[k] == b.m[k]
    ensures a == b
  {
    assert a.m == b.m;
  }

  /** `LastAssigned` over two runs of pairs: the second run's last word wins. */
  lemma {:induction false} LastAssignedAppend<K, V>(a: seq<(K, V)>, b: seq<(K, V)>, k: K)
    ensures LastAssigned(a + b, k) == if LastAssigned(b, k).Some? then LastAssigned(b, k) else LastAssigned(a, k)
    decreases |b|
  {
    if b == [] {
      assert a + b == a;
    } else {
      assert (a + b)[..|a + b| - 1] == a + b[..|b| - 1];
      LastAssignedAppend(a, b[..|b| - 1], k);
    }
  }

  /** In pairs whose keys are the distinct keys of `h`, each key's last (and only) pair
      holds its value. */
  lemma {:induction false} LastAssignedPairs<K(!new), V>(h: Hash<K, V>, k: K)
    ensures LastAssigned(Pairs(h), k) == Get(h, k)
  {
    var ps := Pairs(h);
    PutAllLastWins(Empty(), ps, k);
    PutAllPairs(h);
  }

  /** The keys the pairs name, in order. */
  function Firsts<K, V>(pairs: seq<(K, V)>): (r: seq<K>)
    ensures |r| == |pairs|
    ensures forall i :: 0 <= i < |pairs| ==> r[i] == pairs[i].0
  {
    seq(|pairs|, i requires 0 <= i < |pairs| => pairs[i].0)
  }

  /** Assigning pairs into an empty hash leaves the keys in the order of their first
      assignment, once each. */
  lemma {:induction false} PutAllKeys<K(!new), V>(pairs: seq<(K, V)>)
    ensures PutAll(Empty(), pairs).keys == Seqs.Union(Firsts(pairs))
  {
    if pairs != [] {
      var init := pairs[..|pairs| - 1];
      PutAllKeys(init);
      assert Firsts(pairs)[..|pairs| - 1] == Firsts(init);
    }
  }
}

=== FILE: manifest.dfy ===
/** `Rake::Pipeline::Manifest` in `lib/rake-pipeline/manifest.rb`: the dynamic-dependency
    records of a build, keyed by output file name, loaded from and saved to a JSON file.
    The file system holding manifest files is a map from file name to the parsed JSON
    document; JSON text itself is not modelled. */
module Manifests {
  import opened Wrappers
  import opened Errors
  import opened Hashes
  import E = ManifestEntries

  datatype Manifest = Manifest(entries: Hash<string, E.ManifestEntry>, manifestFile: string)

  /** A manifest file's content: output file name to the JSON form of its entry. */
  type Doc = Hash<string, E.RawEntry>

  /** The manifest files that exist, by name. */
  type Store = map<string, Doc>

  const DefaultFile: string := "manifest.json"

  /** `Manifest.new(manifest_file)`: no entries. */
  function New(manifestFile: string): (m: Manifest)
    ensures m.manifestFile == manifestFile
    ensures IsEmpty(m)
  {
    Manifest(Empty(), manifestFile)
  }

  /** `[]`: the entry recorded for `key`, `nil` when there is none. */
  function Lookup(m: Manifest, key: string): (r: Option<E.ManifestEntry>)
    ensures r.Some? <==> key in m.entries.m
  {
    Get(m.entries, key)
  }

  /** `[]=` */
  function Assign(m: Manifest, key: string, value: E.ManifestEntry): (r: Manifest)
    ensures r.manifestFile == m.manifestFile
  {
    m.(entries := Put(m.entries, key, value))
  }

  /** After `m[key] = value`, `m[key]` is `value` and every other key looks up what it did
      before. */
  lemma AssignThenLookup(m: Manifest, key: string, value: E.ManifestEntry, other: string)
    ensures Lookup(Assign(m, key, value), key) == Some(value)
    ensures other != key ==> Lookup(Assign(m, key, value), other) == Lookup(m, other)
  {
  }

  /** `empty?` */
  predicate IsEmpty(m: Manifest)
    ensures IsEmpty(m) <==> m.entries.m == map[]
  {
    assert m.entries.keys != [] ==> m.entries.keys[0] in m.entries.m;
    assert m.entries.keys == [] ==> m.entries.m.Keys == {};
    m.entries.keys == []
  }

  /** A manifest is empty exactly when no key has an entry. */
  lemma IsEmptyIffNoLookup(m: Manifest)
    ensures IsEmpty(m) <==> forall k :: Lookup(m, k).None?
  {
    if !IsEmpty(m) {
      assert Lookup(m, m.entries.keys[0]).Some?;
    }
  }

  /** `as_json`: every entry replaced by its JSON form, keys and their order unchanged. */
  function AsJson(m: Manifest): (r: Doc)
    ensures r.keys == m.entries.keys
    ensures forall k :: k in r.m <==> k in m.entries.m
    ensures forall k :: k in r.m ==> r.m[k] == E.AsJson(m.entries.m[k])
  {
    MapValues(m.entries, (k: string, e: E.ManifestEntry) => E.AsJson(e))
  }

  /** Every entry of the document has its `"deps"`, so that `from_hash` accepts it. */
  predicate Parsable(doc: Doc) {
    forall k :: k in doc.m ==> doc.m[k].deps.Some?
  }

  /** The `each` loop of `read_manifest`: every entry is replaced in place by
      `from_hash` of it, so the keys keep their order; the first entry `from_hash`
      rejects raises. */
  function ParseEntries(doc: Doc): (r: Result<Hash<string, E.ManifestEntry>, Error>)
    ensures r.Ok? <==> Parsable(doc)
    ensures r.Err? ==> r.error == NilReceiver("each")
    ensures r.Ok? ==> r.value.keys == doc.keys
    ensures r.Ok? ==> forall k :: k in r.value.m <==> k in doc.m
    ensures r.Ok? ==> forall k :: k in r.value.m ==> E.FromHash(doc.m[k]) == Ok(r.value.m[k])
  {
    if Parsable(doc) then Ok(MapValues(doc, (k: string, raw: E.RawEntry) => if raw.deps.Some? then E.FromHash(raw).value else E.New()))
    else Err(NilReceiver("each"))
  }

  /** `read_manifest`: the entries of the manifest file when it exists, none otherwise.
      An entry without `"deps"` makes `from_hash` raise. */
  function Read(m: Manifest, store: Store): (r: Result<Manifest, Error>)
    ensures m.manifestFile !in store ==> r == Ok(m.(entries := Empty()))
    ensures m.manifestFile in store ==> (r.Ok? <==> Parsable(store[m.manifestFile]))
    ensures r.Err? ==> r.error == NilReceiver("each")
    ensures r.Ok? ==> r.value.manifestFile == m.manifestFile
    ensures r.Ok? && m.manifestFile in store ==>
              var doc := store[m.manifestFile];
              && r.value.entries.keys == doc.keys
              && (forall k :: k in r.value.entries.m <==> k in doc.m)
              && (forall k :: k in r.value.entries.m ==> E.FromHash(doc.m[k]) == Ok(r.value.entries.m[k]))
  {
    if m.manifestFile !in store then Ok(m.(entries := Empty()))
    else
      var doc := store[m.manifestFile];
      var es :- ParseEntries(doc);
      Ok(m.(entries := es))
  }

  /** `write_manifest`: saves `as_json` under the manifest's file name, and leaves the
      store alone when there are no entries. */
  function Write(m: Manifest, store: Store): (r: Store)
    ensures IsEmpty(m) ==> r == store
    ensures !IsEmpty(m) ==> r.Keys == store.Keys + {m.manifestFile}
    ensures forall f :: f in store && f != m.manifestFile ==> f in r && r[f] == store[f]
  {
    if IsEmpty(m) then store else store[m.manifestFile := AsJson(m)]
  }

  /** Writing a manifest with entries and reading the same file back gives the same
      entries, in the same order. */
  lemma WriteThenRead(m: Manifest, store: Store, reader: Manifest)
    requires !IsEmpty(m)
    requires reader.manifestFile == m.manifestFile
    ensures Read(reader, Write(m, store)) == Ok(reader.(entries := m.entries))
  {
    ParseAsJson(m);
    assert Write(m, store)[m.manifestFile] == AsJson(m);
  }

  /** Parsing the JSON form of a manifest's entries gives back those entries. */
  lemma ParseAsJson(m: Manifest)
    ensures ParseEntries(AsJson(m)) == Ok(m.entries)
  {
    AsJsonParsable(m);
    var es := ParseEntries(AsJson(m)).value;
    ParsedEntriesMatch(m, es);
  }

  /** Every entry's JSON form carries its `"deps"`. */
  lemma AsJsonParsable(m: Manifest)
    ensures Parsable(AsJson(m))
  {
    var doc := AsJson(m);
    forall k | k in doc.m ensures doc.m[k].deps.Some? {
      E.FromHashAsJson(m.entries.m[k]);
    }
  }

  lemma ParsedEntriesMatch(m: Manifest, es: Hash<string, E.ManifestEntry>)
    requires ParseEntries(AsJson(m)) == Ok(es)
    ensures es == m.entries
  {
    forall k | k in es.m
      ensures k in m.entries.m && es.m[k] == m.entries.m[k]
    {
      ParsedEntry(m, k);
    }
    SameEntries(es, m.entries);
  }

  /** Each entry parsed back from the JSON form is the entry that was written. */
  lemma ParsedEntry(m: Manifest, k: string)
    requires k in m.entries.m
    ensures ParseEntries(AsJson(m)).Ok? ==> ParseEntries(AsJson(m)).value.m[k] == m.entries.m[k]
  {
    var e := m.entries.m[k];
    assert AsJson(m).m[k] == E.AsJson(e);
    E.FromHashAsJson(e);
  }

  /** Writing an empty manifest and reading the same file back finds whatever that file
      held before, and no entries when there was no such file. */
  lemma WriteEmptyThenRead(m: Manifest, store: Store, reader: Manifest)
    requires IsEmpty(m)
    requires reader.manifestFile == m.manifestFile
    ensures Read(reader, Write(m, store)) == Read(reader, store)
    ensures m.manifestFile !in store ==> Read(reader, Write(m, store)) == Ok(reader.(entries := Empty()))
  {
  }

  // ---------------------------------------------------------------- files

  /** The dependencies of an entry as `files` merges them. */
  function DepPairs(e: E.ManifestEntry): (r: seq<(string, Option<int>)>)
    ensures |r| == |e.deps.keys|
  {
    seq(|e.deps.keys|, i requires 0 <= i < |e.deps.keys| => (e.deps.keys[i], Some(e.deps.m[e.deps.keys[i]])))
  }

  /** Everything `files` merges, entry after entry in key order: the entry's own name with
      its mtime, then each of its dependencies with its recorded mtime. */
  function FilesPairs(keys: seq<string>, entries: map<string, E.ManifestEntry>): seq<(string, Option<int>)>
    requires forall k :: k in keys ==> k in entries
  {
    if keys == [] then []
    else
      var name := keys[|keys| - 1];
      FilesPairs(keys[..|keys| - 1], entries) + ([(name, entries[name].mtime)] + DepPairs(entries[name]))
  }

  /** `files`: every output file and every dependency, with an mtime. */
  function Files(m: Manifest): (r: Hash<string, Option<int>>)
    ensures forall k :: Get(r, k) == LastMention(m.entries.keys, m.entries.m, k)
  {
    var r := PutAll(Empty(), FilesPairs(m.entries.keys, m.entries.m));
    assert forall k :: Get(r, k) == LastMention(m.entries.keys, m.entries.m, k) by {
      forall k ensures Get(r, k) == LastMention(m.entries.keys, m.entries.m, k) {
        PutAllLastWins(Empty(), FilesPairs(m.entries.keys, m.entries.m), k);
        FilesPairsLastAssigned(m.entries.keys, m.entries.m, k);
      }
    }
    r
  }

  /** What one entry says about file `k`: its recorded dependency mtime when it lists `k`
      as a dependency, else its own mtime when it is `k`'s entry. */
  function Mention(name: string, e: E.ManifestEntry, k: string): (r: Option<Option<int>>)
    ensures r.Some? <==> k == name || k in e.deps.m
  {
    if k in e.deps.m then Some(Some(e.deps.m[k]))
    else if k == name then Some(e.mtime)
    else None
  }

  /** What the last of the entries named by `keys` that mentions `k` says about it. */
  function LastMention(keys: seq<string>, entries: map<string, E.ManifestEntry>, k: string): (r: Option<Option<int>>)
    requires forall j :: j in keys ==> j in entries
    ensures r.Some? <==> k in keys || exists j :: 0 <= j < |keys| && k in entries[keys[j]].deps.m
  {
    if keys == [] then None
    else
      var name := keys[|keys| - 1];
      var init := keys[..|keys| - 1];
      var here := Mention(name, entries[name], k);
      var before := LastMention(init, entries, k);
      assert keys == init + [name];
      assert forall j :: 0 <= j < |init| ==> keys[j] == init[j];
      if here.Some? then here else before
  }

  lemma MentionIsLastAssigned(name: string, e: E.ManifestEntry, k: string)
    ensures LastAssigned([(name, e.mtime)] + DepPairs(e), k) == Mention(name, e, k)
  {
    LastAssignedAppend([(name, e.mtime)], DepPairs(e), k);
    DepPairsLastAssigned(e, k);
    assert LastAssigned([(name, e.mtime)], k) == if k == name then Some(e.mtime) else None by {
      assert [(name, e.mtime)][..0] == [];
    }
  }

  lemma DepPairsLastAssigned(e: E.ManifestEntry, k: string)
    ensures LastAssigned(DepPairs(e), k) == if k in e.deps.m then Some(Some(e.deps.m[k])) else None
  {
    var h: Hash<string, Option<int>> := MapValues(e.deps, (d: string, t: int) => Some(t));
    assert Pairs(h) == DepPairs(e);
    LastAssignedPairs(h, k);
  }

  /** Later merges overwrite earlier ones: `files` gives every file the word of the last
      entry, in key order, that mentions it — that entry's recorded mtime of it as a
      dependency, or its own mtime when it is that entry's output — and its keys are
      exactly the output files and their dependencies. */
  lemma {:induction false} FilesLookup(m: Manifest, k: string)
    ensures Get(Files(m), k) == LastMention(m.entries.keys, m.entries.m, k)
    ensures k in Files(m).m <==>
              k in m.entries.m || exists name :: name in m.entries.m && k in m.entries.m[name].deps.m
  {
    PutAllLastWins(Empty(), FilesPairs(m.entries.keys, m.entries.m), k);
    FilesPairsLastAssigned(m.entries.keys, m.entries.m, k);
    var keys := m.entries.keys;
    if exists name :: name in m.entries.m && k in m.entries.m[name].deps.m {
      var name :| name in m.entries.m && k in m.entries.m[name].deps.m;
      var j :| 0 <= j < |keys| && keys[j] == name;
    }
  }

  lemma {:induction false} FilesPairsLastAssigned(keys: seq<string>, entries: map<string, E.ManifestEntry>, k: string)
    requires forall j :: j in keys ==> j in entries
    ensures LastAssigned(FilesPairs(keys, entries), k) == LastMention(keys, entries, k)
  {
    if keys != [] {
      var name := keys[|keys| - 1];
      var init := keys[..|keys| - 1];
      assert forall j :: j in init ==> j in keys;
      FilesPairsLastAssigned(init, entries, k);
      LastAssignedAppend(FilesPairs(init, entries), [(name, entries[name].mtime)] + DepPairs(entries[name]), k);
      MentionIsLastAssigned(name, entries[name], k);
    }
  }
}

=== FILE: manifest_entry.dfy ===
/** `Rake::Pipeline::ManifestEntry` in `lib/rake-pipeline/manifest_entry.rb`: what a
    dynamic task recorded about one output file — the mtime of every dynamic dependency
    and the output's own mtime. Timestamps are integers throughout. */
module ManifestEntries {
  import opened Wrappers
  import opened Errors
  import opened Hashes

  datatype ManifestEntry = ManifestEntry(deps: Hash<string, int>, mtime: Option<int>)

  /** The JSON-shaped form of an entry, as `JSON.parse` hands it to `from_hash`: the
      `"mtime"` value, `nil` when absent or `null`, and the `"deps"` object, `nil` when
      absent. */
  datatype RawEntry = RawEntry(mtime: Option<int>, deps: Option<Hash<string, int>>)

  /** `ManifestEntry.new` with its defaults: no dependencies and no mtime. */
  function New(): (e: ManifestEntry)
    ensures e.deps.keys == [] && e.deps.m == map[] && e.mtime.None?
  {
    ManifestEntry(Empty(), None)
  }

  /** `ManifestEntry.from_hash`: copies `"mtime"`, then assigns every `"deps"` pair in
      order into a fresh hash. Without `"deps"`, `nil.each` raises. */
  function FromHash(raw: RawEntry): (r: Result<ManifestEntry, Error>)
    ensures r.Err? <==> raw.deps.None?
    ensures r.Err? ==> r.error == NilReceiver("each")
    ensures r.Ok? ==> r.value.mtime == raw.mtime
  {
    if raw.deps.None? then Err(NilReceiver("each"))
    else Ok(ManifestEntry(PutAll(Empty(), Pairs(raw.deps.value)), raw.mtime))
  }

  /** `as_json`: `{ :deps => @deps, :mtime => @mtime }`. */
  function AsJson(e: ManifestEntry): (r: RawEntry)
    ensures r.deps.Some?
  {
    RawEntry(e.mtime, Some(e.deps))
  }

  /** Every dependency of a parsed entry holds the value the document gave it, in the
      document's order. */
  lemma FromHashCopies(raw: RawEntry)
    requires raw.deps.Some?
    ensures FromHash(raw).Ok?
    ensures FromHash(raw).value.deps == raw.deps.value
  {
    PutAllPairs(raw.deps.value);
  }

  /** Reading back what `as_json` produced gives the same entry. */
  lemma FromHashAsJson(e: ManifestEntry)
    ensures FromHash(AsJson(e)) == Ok(e)
  {
    PutAllPairs(e.deps);
  }

  /** `as_json` of a parsed entry gives back the document it was parsed from. */
  lemma AsJsonFromHash(raw: RawEntry)
    requires raw.deps.Some?
    ensures FromHash(raw).Ok? && AsJson(FromHash(raw).value) == raw
  {
    FromHashCopies(raw);
  }

  /** `==`: the method evaluates the mtime comparison and discards it, so only the
      dependencies are compared, as Ruby hashes compare: same keys, same values, in any
      order. */
  predicate Equal(a: ManifestEntry, b: ManifestEntry)
    ensures Equal(a, b) ==> forall k :: Get(a.deps, k) == Get(b.deps, k)
  {
    a.deps.m == b.deps.m
  }

  /** Two entries are `==` exactly when every dependency name is looked up alike in both,
      whatever their mtimes and the order in which the dependencies were recorded. */
  lemma EqualIffSameLookups(a: ManifestEntry, b: ManifestEntry)
    ensures Equal(a, b) <==> forall k :: Get(a.deps, k) == Get(b.deps, k)
  {
    if forall k :: Get(a.deps, k) == Get(b.deps, k) {
      forall k ensures k in a.deps.m <==> k in b.deps.m {
        assert Get(a.deps, k) == Get(b.deps, k);
      }
      forall k | k in a.deps.m ensures a.deps.m[k] == b.deps.m[k] {
        assert Get(a.deps, k) == Get(b.deps, k);
      }
    }
  }

  /** Changing either entry's mtime never changes the outcome of `==`. */
  lemma EqualIgnoresMtime(a: ManifestEntry, b: ManifestEntry, x: Option<int>, y: Option<int>)
    ensures Equal(a.(mtime := x), b.(mtime := y)) == Equal(a, b)
  {
  }
}

=== FILE: matcher.dfy ===
/** `Rake::Pipeline::Matcher`: a pipeline whose filters only see the inputs that match a
    glob; the other inputs are passed through to whatever follows. `File.fnmatch(glob,
    path, File::FNM_PATHNAME)` is taken as an uninterpreted predicate on paths. */
module Matchers {
  import opened FileWrappers
  import Seqs

  /** Whether an input's path matches the glob. */
  function Matches(glob: string -> bool): FileWrapper -> bool {
    (x: FileWrapper) => glob(x.path)
  }

  function Unmatched(glob: string -> bool): FileWrapper -> bool {
    (x: FileWrapper) => !glob(x.path)
  }

  /** `eligible_input_files`: the inputs matching the glob, in input order. */
  function EligibleInputFiles(inputs: seq<FileWrapper>, glob: string -> bool): (r: seq<FileWrapper>)
    ensures forall x :: x in r <==> x in inputs && glob(x.path)
    ensures Seqs.Subsequence(r, inputs)
  {
    Seqs.FilterIsSubsequence(inputs, Matches(glob));
    Seqs.Filter(inputs, Matches(glob))
  }

  /** The inputs that do not match, in input order. */
  function PassThrough(inputs: seq<FileWrapper>, glob: string -> bool): (r: seq<FileWrapper>)
    ensures forall x :: x in r <==> x in inputs && !glob(x.path)
    ensures Seqs.Subsequence(r, inputs)
  {
    Seqs.FilterIsSubsequence(inputs, Unmatched(glob));
    Seqs.Filter(inputs, Unmatched(glob))
  }

  /** `output_files`: the outputs of the matcher's own filter chain (`super`), followed by
      the inputs that did not match, unchanged. */
  function OutputFiles(chainOutputs: seq<FileWrapper>, inputs: seq<FileWrapper>, glob: string -> bool): (r: seq<FileWrapper>)
    ensures |r| == |chainOutputs| + |PassThrough(inputs, glob)|
    ensures r[..|chainOutputs|] == chainOutputs
    ensures r[|chainOutputs|..] == PassThrough(inputs, glob)
  {
    chainOutputs + PassThrough(inputs, glob)
  }

  /** The eligible and the passed-through inputs split the inputs: every input is in exactly
      one of them, as often as it is in the inputs. */
  lemma EligiblePartition(inputs: seq<FileWrapper>, glob: string -> bool)
    ensures multiset(EligibleInputFiles(inputs, glob)) + multiset(PassThrough(inputs, glob)) == multiset(inputs)
    ensures forall x :: x in inputs ==> (x in EligibleInputFiles(inputs, glob) <==> x !in PassThrough(inputs, glob))
  {
    Seqs.FilterComplement(inputs, Matches(glob), Unmatched(glob));
  }

  /** A matcher whose glob every input matches passes nothing through; one that no input
      matches hands its filters nothing and passes everything through. */
  lemma MatchAllOrNone(inputs: seq<FileWrapper>, glob: string -> bool)
    ensures (forall i :: 0 <= i < |inputs| ==> glob(inputs[i].path)) ==>
              EligibleInputFiles(inputs, glob) == inputs && PassThrough(inputs, glob) == []
    ensures (forall i :: 0 <= i < |inputs| ==> !glob(inputs[i].path)) ==>
              EligibleInputFiles(inputs, glob) == [] && PassThrough(inputs, glob) == inputs
  {
    if forall i :: 0 <= i < |inputs| ==> glob(inputs[i].path) {
      Seqs.FilterAll(inputs, Matches(glob));
      Seqs.FilterNone(inputs, Unmatched(glob));
    }
    if forall i :: 0 <= i < |inputs| ==> !glob(inputs[i].path) {
      Seqs.FilterNone(inputs, Matches(glob));
      Seqs.FilterAll(inputs, Unmatched(glob));
    }
  }
}

=== FILE: ordering_concat_filter.dfy ===
/** `Rake::Pipeline::OrderingConcatFilter`: a concatenation filter that first moves the
    inputs named in its ordering to the front, in the order the names are listed. */
module OrderingConcatFilters {
  import opened Wrappers
  import opened FileWrappers
  import Filters
  import Seqs
  import ConcatFilters

  /** `initialize(ordering, string = nil, &block)` */
  function New(ordering: seq<string>, name: Option<string>, block: Option<string -> string>): (f: Filters.Filter)
    ensures f.kind == Filters.OrderingConcat(ordering) && f.inputFiles == []
    ensures name.Some? ==> forall p :: f.namer(p) == name.value
    ensures name.None? && block.Some? ==> f.namer == block.value
    ensures name.None? && block.None? ==> forall p :: f.namer(p) == p
    ensures Filters.Encoding(f) == BINARY
  {
    ConcatFilters.New(name, block).(kind := Filters.OrderingConcat(ordering))
  }

  /** Some input has path `name`. */
  predicate Named(xs: seq<FileWrapper>, name: string) {
    exists i :: 0 <= i < |xs| && xs[i].path == name
  }

  /** `inputs.find { |i| i.path == name }` */
  function Find(xs: seq<FileWrapper>, name: string): (r: Option<FileWrapper>)
    ensures r.Some? <==> Named(xs, name)
    ensures r.Some? ==> exists i :: 0 <= i < |xs| && xs[i] == r.value && r.value.path == name
                                    && forall j :: 0 <= j < i ==> xs[j].path != name
  {
    if xs == [] then None
    else if xs[0].path == name then Some(xs[0])
    else
      var r := Find(xs[1..], name);
      assert forall i :: 1 <= i < |xs| ==> xs[i] == xs[1..][i - 1];
      r
  }

  /** The position of the last element equal to `file`. */
  function LastEqlIndex(xs: seq<FileWrapper>, file: FileWrapper): (i: nat)
    requires exists i :: 0 <= i < |xs| && Eql(xs[i], file)
    ensures i < |xs| && Eql(xs[i], file)
    ensures forall j :: i < j < |xs| ==> !Eql(xs[j], file)
  {
    if Eql(xs[|xs| - 1], file) then |xs| - 1
    else
      var init := xs[..|xs| - 1];
      assert forall i :: 0 <= i < |init| ==> init[i] == xs[i];
      assert exists i :: 0 <= i < |init| && Eql(init[i], file) by {
        var i :| 0 <= i < |xs| && Eql(xs[i], file);
        assert init[i] == xs[i];
      }
      LastEqlIndex(init, file)
  }

  /** The value of `inputs.delete(file)`: the last element equal to `file`. */
  function LastEql(xs: seq<FileWrapper>, file: FileWrapper): (r: FileWrapper)
    requires exists i :: 0 <= i < |xs| && Eql(xs[i], file)
    ensures r in xs && Eql(r, file)
    ensures exists i :: 0 <= i < |xs| && xs[i] == r && forall j :: i < j < |xs| ==> !Eql(xs[j], file)
  {
    var i := LastEqlIndex(xs, file);
    xs[i]
  }

  /** Whether a file is `==` to `file`, and its negation. */
  function EqlTo(file: FileWrapper): FileWrapper -> bool {
    x => Eql(x, file)
  }

  function NotEql(file: FileWrapper): FileWrapper -> bool {
    x => !Eql(x, file)
  }

  /** One turn of the loop: `inputs.unshift(inputs.delete(file)) if file`. Every element
      equal to the found file (same root and path) is removed, and the last of them goes
      to the front. */
  function Step(xs: seq<FileWrapper>, name: string): (r: seq<FileWrapper>)
    ensures forall x :: x in r ==> x in xs
  {
    match Find(xs, name)
    case None => xs
    case Some(file) => [LastEql(xs, file)] + Seqs.Filter(xs, NotEql(file))
  }

  /** `@ordering.reverse.each { ... }`: the last name is moved to the front first, so the
      first name ends up in front. */
  function Reorder(xs: seq<FileWrapper>, ordering: seq<string>): (r: seq<FileWrapper>)
    ensures forall x :: x in r ==> x in xs
    decreases |ordering|
  {
    if ordering == [] then xs
    else Reorder(Step(xs, ordering[|ordering| - 1]), ordering[..|ordering| - 1])
  }

  /** `generate_output` of the ordering filter: the concatenation of the reordered inputs.
      The output stays open and no other file changes. */
  function GenerateOutput(ordering: seq<string>, inputs: seq<FileWrapper>, out: Handle, disk: Disk): (r: Effect)
    ensures r.handle == out
    ensures forall p :: p in disk && Some(p) != out.created ==> p in r.disk && r.disk[p] == disk[p]
  {
    ConcatFilters.GenerateOutput(Reorder(inputs, ordering), out, disk)
  }

  // ---------------------------------------------------------------- the closed form

  /** No input appears twice and no two inputs share a path. */
  predicate UniquePaths(xs: seq<FileWrapper>) {
    && Seqs.Distinct(xs)
    && forall x, y :: x in xs && y in xs && x.path == y.path ==> x == y
  }

  /** For each name, in order, the input with that path, if there is one. */
  function Picks(xs: seq<FileWrapper>, names: seq<string>): seq<FileWrapper>
    decreases |names|
  {
    if names == [] then []
    else
      Picks(xs, names[..|names| - 1])
        + match Find(xs, names[|names| - 1]) case Some(x) => [x] case None => []
  }

  /** Whether a file's path is none of `names`. */
  function NotIn(names: seq<string>): FileWrapper -> bool {
    (x: FileWrapper) => x.path !in names
  }

  /** The inputs not named in `ordering`, in input order. */
  function Unnamed(xs: seq<FileWrapper>, ordering: seq<string>): seq<FileWrapper> {
    Seqs.Filter(xs, NotIn(ordering))
  }

  function PathsOf(xs: seq<FileWrapper>): (r: seq<string>)
    ensures |r| == |xs| && forall i :: 0 <= i < |xs| ==> r[i] == xs[i].path
  {
    seq(|xs|, i requires 0 <= i < |xs| => xs[i].path)
  }

  /** With unique paths, `find` returns the one input with that path. */
  lemma FindUnique(xs: seq<FileWrapper>, name: string)
    requires UniquePaths(xs)
    ensures forall x :: x in xs && x.path == name ==> Find(xs, name) == Some(x)
  {
  }

  /** Selecting from inputs with unique paths keeps them unique. */
  lemma FilterUnique(xs: seq<FileWrapper>, p: FileWrapper -> bool)
    requires UniquePaths(xs)
    ensures UniquePaths(Seqs.Filter(xs, p))
  {
    Seqs.FilterDistinct(xs, p);
  }

  /** Putting in front a file whose path no other input has keeps paths unique. */
  lemma ConsUnique(x: FileWrapper, rest: seq<FileWrapper>)
    requires UniquePaths(rest)
    requires forall y :: y in rest ==> y.path != x.path
    ensures UniquePaths([x] + rest)
  {
    var r := [x] + rest;
    forall i, j | 0 <= i < j < |r| ensures r[i] != r[j] {
      assert r[j] == rest[j - 1];
      if i > 0 {
        assert r[i] == rest[i - 1];
      }
    }
  }

  /** With unique paths, deleting the found file removes exactly the inputs with its path,
      and the last deleted element is the file itself. */
  lemma StepFound(xs: seq<FileWrapper>, name: string)
    requires UniquePaths(xs) && Find(xs, name).Some?
    ensures Step(xs, name) == [Find(xs, name).value] + Seqs.Filter(xs, NotIn([name]))
  {
    var file := Find(xs, name).value;
    assert file in xs;
    var last := LastEql(xs, file);
    assert last.path == file.path;
    assert last == file;
    forall i | 0 <= i < |xs| ensures !Eql(xs[i], file) == NotIn([name])(xs[i]) {
      assert xs[i] in xs;
    }
    Seqs.FilterCongruent(xs, NotEql(file), NotIn([name]));
  }

  /** With unique paths, a step moves the named input to the front and removes nothing else. */
  lemma StepUnique(xs: seq<FileWrapper>, name: string)
    requires UniquePaths(xs)
    ensures Find(xs, name).Some? ==>
              Step(xs, name) == [Find(xs, name).value] + Seqs.Filter(xs, NotIn([name]))
    ensures Find(xs, name).None? ==> Step(xs, name) == xs
    ensures UniquePaths(Step(xs, name))
    ensures forall x :: x in Step(xs, name) <==> x in xs
  {
    if Find(xs, name).Some? {
      var file := Find(xs, name).value;
      StepFound(xs, name);
      var rest := Seqs.Filter(xs, NotIn([name]));
      FilterUnique(xs, NotIn([name]));
      ConsUnique(file, rest);
      assert forall x :: x in xs && x.path == name ==> x == file;
    }
  }

  /** With unique paths, `Picks` depends only on which inputs there are. */
  lemma {:induction false} PicksSameElements(xs: seq<FileWrapper>, ys: seq<FileWrapper>, names: seq<string>)
    requires UniquePaths(xs) && UniquePaths(ys)
    requires forall x :: x in xs <==> x in ys
    ensures Picks(xs, names) == Picks(ys, names)
    decreases |names|
  {
    if names != [] {
      var n := names[|names| - 1];
      PicksSameElements(xs, ys, names[..|names| - 1]);
      FindUnique(xs, n);
      FindUnique(ys, n);
      if Find(xs, n).Some? {
        assert Find(xs, n).value in ys;
      }
      if Find(ys, n).Some? {
        assert Find(ys, n).value in xs;
      }
    }
  }

  /** Picking from the names with one more name appended. */
  lemma PicksSnoc(xs: seq<FileWrapper>, names: seq<string>, n: string)
    ensures Picks(xs, names + [n])
            == Picks(xs, names) + match Find(xs, n) case Some(x) => [x] case None => []
  {
    assert (names + [n])[..|names|] == names;
  }

  /** Excluding `n` and then the names of `init` excludes the names of `init + [n]`. */
  lemma NotInSnoc(xs: seq<FileWrapper>, init: seq<string>, n: string)
    ensures Seqs.Filter(Seqs.Filter(xs, NotIn([n])), NotIn(init)) == Seqs.Filter(xs, NotIn(init + [n]))
  {
    Seqs.FilterFilter(xs, NotIn([n]), NotIn(init));
    forall i | 0 <= i < |xs| ensures Seqs.And(NotIn([n]), NotIn(init))(xs[i]) == NotIn(init + [n])(xs[i]) {
      assert xs[i].path in init + [n] <==> xs[i].path in init || xs[i].path == n;
    }
    Seqs.FilterCongruent(xs, Seqs.And(NotIn([n]), NotIn(init)), NotIn(init + [n]));
  }

  /** The unnamed inputs after a step, given unique paths. */
  lemma UnnamedAfterStep(xs: seq<FileWrapper>, init: seq<string>, n: string)
    requires UniquePaths(xs)
    ensures Unnamed(Step(xs, n), init)
            == (if Find(xs, n).Some? && n !in init then [Find(xs, n).value] else []) + Unnamed(xs, init + [n])
  {
    if Find(xs, n).Some? {
      var file := Find(xs, n).value;
      StepFound(xs, n);
      var rest := Seqs.Filter(xs, NotIn([n]));
      Seqs.FilterAppend([file], rest, NotIn(init));
      assert Seqs.Filter([file], NotIn(init)) == (if n !in init then [file] else []) by {
        assert [file][..0] == [];
      }
      NotInSnoc(xs, init, n);
    } else {
      forall i | 0 <= i < |xs| ensures NotIn(init)(xs[i]) == NotIn(init + [n])(xs[i]) {
        assert xs[i].path != n;
      }
      Seqs.FilterCongruent(xs, NotIn(init), NotIn(init + [n]));
    }
  }

  /** The union of names with one more name appended. */
  lemma UnionSnoc(names: seq<string>, n: string)
    ensures Seqs.Union(names + [n]) == Seqs.Union(names) + (if n in names then [] else [n])
  {
    assert (names + [n])[..|names|] == names;
  }

  /** The inputs picked for the distinct names of `init + [n]`. */
  lemma PicksUnionSnoc(xs: seq<FileWrapper>, init: seq<string>, n: string)
    ensures Picks(xs, Seqs.Union(init + [n]))
            == Picks(xs, Seqs.Union(init)) + (if Find(xs, n).Some? && n !in init then [Find(xs, n).value] else [])
  {
    UnionSnoc(init, n);
    if n !in init {
      PicksSnoc(xs, Seqs.Union(init), n);
    } else {
      assert Seqs.Union(init + [n]) == Seqs.Union(init);
    }
  }

  /** A step keeps paths unique. */
  lemma StepKeepsUnique(xs: seq<FileWrapper>, n: string)
    requires UniquePaths(xs)
    ensures UniquePaths(Step(xs, n))
  {
    StepUnique(xs, n);
  }

  /** With unique paths, a step does not change what is picked. */
  lemma PicksAfterStep(xs: seq<FileWrapper>, n: string, names: seq<string>)
    requires UniquePaths(xs)
    ensures Picks(Step(xs, n), names) == Picks(xs, names)
  {
    StepUnique(xs, n);
    PicksSameElements(Step(xs, n), xs, names);
  }

  lemma ReorderUnfold(xs: seq<FileWrapper>, init: seq<string>, n: string)
    ensures Reorder(xs, init + [n]) == Reorder(Step(xs, n), init)
  {
    var ordering := init + [n];
    assert ordering[..|ordering| - 1] == init;
  }

  lemma Regroup<T>(r: seq<T>, a: seq<T>, b: seq<T>, a': seq<T>, e: seq<T>, b': seq<T>, p: seq<T>)
    requires r == a + b && a == a' && b == e + b' && p == a' + e
    ensures r == p + b'
  {
  }

  /** The inductive step of `ReorderClosedForm`: the closed form for `init` after the step
      for `n` is the closed form for `init + [n]`. */
  lemma ReorderSnoc(xs: seq<FileWrapper>, init: seq<string>, n: string)
    requires UniquePaths(xs)
    requires Reorder(Step(xs, n), init) == Picks(Step(xs, n), Seqs.Union(init)) + Unnamed(Step(xs, n), init)
    ensures Reorder(xs, init + [n]) == Picks(xs, Seqs.Union(init + [n])) + Unnamed(xs, init + [n])
  {
    ReorderUnfold(xs, init, n);
    PicksAfterStep(xs, n, Seqs.Union(init));
    UnnamedAfterStep(xs, init, n);
    PicksUnionSnoc(xs, init, n);
    Regroup(Reorder(xs, init + [n]), Picks(Step(xs, n), Seqs.Union(init)), Unnamed(Step(xs, n), init),
            Picks(xs, Seqs.Union(init)), if Find(xs, n).Some? && n !in init then [Find(xs, n).value] else [],
            Unnamed(xs, init + [n]), Picks(xs, Seqs.Union(init + [n])));
  }

  /** With unique paths, reordering puts first the inputs named in `ordering`, one for
      each distinct name in order of first mention, then the rest in input order. */
  lemma {:induction false} ReorderClosedForm(xs: seq<FileWrapper>, ordering: seq<string>)
    requires UniquePaths(xs)
    ensures Reorder(xs, ordering) == Picks(xs, Seqs.Union(ordering)) + Unnamed(xs, ordering)
    decreases |ordering|
  {
    if ordering == [] {
      Seqs.FilterAll(xs, NotIn(ordering));
    } else {
      var init, n := ordering[..|ordering| - 1], ordering[|ordering| - 1];
      assert ordering == init + [n];
      StepKeepsUnique(xs, n);
      ReorderClosedForm(Step(xs, n), init);
      ReorderSnoc(xs, init, n);
    }
  }

  /** Reordering only ever yields inputs, whatever the paths. */
  lemma {:induction false} ReorderSubset(xs: seq<FileWrapper>, ordering: seq<string>)
    ensures forall x :: x in Reorder(xs, ordering) ==> x in xs
    decreases |ordering|
  {
    if ordering != [] {
      var n := ordering[|ordering| - 1];
      ReorderSubset(Step(xs, n), ordering[..|ordering| - 1]);
      forall x | x in Step(xs, n) ensures x in xs {
        if Find(xs, n).Some? {
          var file := Find(xs, n).value;
          assert file in xs;
          assert x == LastEql(xs, file) || x in Seqs.Filter(xs, NotEql(file));
        }
      }
    }
  }

  /** With unique paths, the picked inputs are those whose path is one of the names, and
      distinct names pick distinct inputs. */
  lemma {:induction false} PicksMembers(xs: seq<FileWrapper>, names: seq<string>)
    requires UniquePaths(xs)
    ensures forall x :: x in Picks(xs, names) <==> x in xs && x.path in names
    ensures Seqs.Distinct(names) ==> Seqs.Distinct(Picks(xs, names))
    decreases |names|
  {
    if names != [] {
      var init, n := names[..|names| - 1], names[|names| - 1];
      assert names == init + [n];
      PicksMembers(xs, init);
      FindUnique(xs, n);
      var p := Picks(xs, init);
      if Find(xs, n).Some? {
        var x := Find(xs, n).value;
        assert x in xs;
        if Seqs.Distinct(names) {
          assert n !in init;
          assert Seqs.Distinct(init) by {
            forall i, j | 0 <= i < j < |init| ensures init[i] != init[j] {
              assert names[i] == init[i] && names[j] == init[j];
            }
          }
          Seqs.DistinctConcat(p, [x]);
        }
      } else {
        assert forall x :: x in xs ==> x.path != n;
        if Seqs.Distinct(names) {
          assert Seqs.Distinct(init) by {
            forall i, j | 0 <= i < j < |init| ensures init[i] != init[j] {
              assert names[i] == init[i] && names[j] == init[j];
            }
          }
        }
      }
    }
  }

  /** Whether some input has the given path, as a predicate on names. */
  function NamedIn(xs: seq<FileWrapper>): string -> bool {
    n => Named(xs, n)
  }

  /** The picked inputs' paths are the names that some input has, in the names' order. */
  lemma {:induction false} PicksPaths(xs: seq<FileWrapper>, names: seq<string>)
    ensures PathsOf(Picks(xs, names)) == Seqs.Filter(names, NamedIn(xs))
    decreases |names|
  {
    if names != [] {
      var init, n := names[..|names| - 1], names[|names| - 1];
      PicksPaths(xs, init);
      var p := Picks(xs, init);
      if Find(xs, n).Some? {
        var x := Find(xs, n).value;
        assert PathsOf(p + [x]) == PathsOf(p) + [n];
      } else {
        assert Picks(xs, names) == p;
      }
    }
  }

  /** No two inputs are `==` (same root and path). */
  predicate EqlDistinct(xs: seq<FileWrapper>) {
    && Seqs.Distinct(xs)
    && forall x, y :: x in xs && y in xs && Eql(x, y) ==> x == y
  }

  /** With no two inputs `==`, the only input `==` to an input is itself. */
  lemma OnlyEqlIsSelf(xs: seq<FileWrapper>, file: FileWrapper)
    requires EqlDistinct(xs) && file in xs
    ensures Seqs.Filter(xs, EqlTo(file)) == [file]
    ensures LastEql(xs, file) == file
  {
    Seqs.FilterDistinct(xs, EqlTo(file));
    Seqs.DistinctConstant(Seqs.Filter(xs, EqlTo(file)), file);
  }

  /** Removing every input `==` to an input leaves the others, each once. */
  lemma RemoveEqlMultiset(xs: seq<FileWrapper>, file: FileWrapper)
    requires EqlDistinct(xs) && file in xs
    ensures multiset([file] + Seqs.Filter(xs, NotEql(file))) == multiset(xs)
  {
    OnlyEqlIsSelf(xs, file);
    Seqs.FilterSingleComplement(xs, EqlTo(file), NotEql(file), file);
  }

  /** With no two inputs `==`, a step is a permutation and keeps them pairwise distinct. */
  lemma StepPermutes(xs: seq<FileWrapper>, name: string)
    requires EqlDistinct(xs)
    ensures multiset(Step(xs, name)) == multiset(xs)
    ensures EqlDistinct(Step(xs, name))
  {
    if Find(xs, name).Some? {
      var file := Find(xs, name).value;
      assert file in xs;
      var rest := Seqs.Filter(xs, NotEql(file));
      OnlyEqlIsSelf(xs, file);
      RemoveEqlMultiset(xs, file);
      Seqs.FilterDistinct(xs, NotEql(file));
      Seqs.DistinctConcat([file], rest);
      assert Step(xs, name) == [file] + rest;
    }
  }

  /** With no two inputs `==`, reordering is a permutation of the inputs: nothing is lost
      or duplicated, whatever the ordering. */
  lemma {:induction false} ReorderPermutes(xs: seq<FileWrapper>, ordering: seq<string>)
    requires EqlDistinct(xs)
    ensures multiset(Reorder(xs, ordering)) == multiset(xs)
    decreases |ordering|
  {
    if ordering != [] {
      var n := ordering[|ordering| - 1];
      StepPermutes(xs, n);
      ReorderPermutes(Step(xs, n), ordering[..|ordering| - 1]);
    }
  }

  /** `generate_output` of the ordering filter, for inputs with distinct paths:
      - the output lists the inputs whose path is named in the ordering first, one per
        distinct name that some input has, in the order the names are first listed;
      - then every other input, in its original order;
      - and it is a permutation of the inputs. */
  lemma ReorderContract(xs: seq<FileWrapper>, ordering: seq<string>)
    requires UniquePaths(xs)
    ensures var named := Picks(xs, Seqs.Union(ordering));
            && Reorder(xs, ordering) == named + Seqs.Filter(xs, NotIn(ordering))
            && PathsOf(named) == Seqs.Filter(Seqs.Union(ordering), NamedIn(xs))
            && multiset(Reorder(xs, ordering)) == multiset(xs)
  {
    ReorderClosedForm(xs, ordering);
    PicksPaths(xs, Seqs.Union(ordering));
    ReorderPermutes(xs, ordering);
  }

  /** The task action of an ordering filter: the concatenation task over the reordered inputs. */
  function TaskAction(ordering: seq<string>, inputs: seq<FileWrapper>, output: FileWrapper, disk: Disk): Outcome {
    ConcatFilters.TaskAction(Reorder(inputs, ordering), output, disk)
  }

  /** When the output has a full path and every input can be read from somewhere else, the
      output file holds the inputs' contents in the reordered order. */
  lemma TaskActionConcatenatesReordered(ordering: seq<string>, inputs: seq<FileWrapper>, output: FileWrapper, disk: Disk)
    requires Fullpath(output).Ok?
    requires forall x :: x in inputs ==> Read(x, disk).Ok? && Fullpath(x).value != Fullpath(output).value
    ensures var r := TaskAction(ordering, inputs, output, disk);
            var ys := Reorder(inputs, ordering);
            && (forall x :: x in ys ==> Read(x, disk).Ok?)
            && Closed(r.handle)
            && r.raised.None?
            && r.disk == disk[Fullpath(output).value := Concat(ConcatFilters.Contents(ys, disk))]
  {
    ReorderSubset(inputs, ordering);
    ConcatFilters.TaskActionConcatenates(Reorder(inputs, ordering), output, disk);
  }
}

=== FILE: paths.dfy ===
/** String and path vocabulary: prefixes, Ruby's line-anchored `^`, `File.join`,
    and decimal rendering of counters. */
module Paths {

  predicate StartsWith(s: string, prefix: string) {
    |prefix| <= |s| && s[..|prefix|] == prefix
  }

  predicate EndsWith(s: string, suffix: string) {
    |suffix| <= |s| && s[|s| - |suffix|..] == suffix
  }

  /** Ruby's `^` matches at the start of the string and after every newline. */
  predicate LineStart(s: string, i: nat) {
    i <= |s| && (i == 0 || s[i - 1] == '\n')
  }

  predicate IsAsciiLetter(c: char) {
    ('a' <= c <= 'z') || ('A' <= c <= 'Z')
  }

  /** The text at `s[i..]` is `/`, or a drive letter followed by `:\` or `:/`. */
  predicate AbsoluteAt(s: string, i: nat)
    requires i <= |s|
  {
    || (i < |s| && s[i] == '/')
    || (i + 2 < |s| && IsAsciiLetter(s[i]) && s[i + 1] == ':' && (s[i + 2] == '\\' || s[i + 2] == '/'))
  }

  /** `s =~ /^(\/|[a-zA-Z]:[\\\/])/` as Ruby evaluates it: some line of `s` starts
      with an absolute-path marker. */
  predicate MatchesAbsoluteAnyLine(s: string) {
    exists i :: 0 <= i <= |s| && LineStart(s, i) && AbsoluteAt(s, i)
  }

  /** What the check is meant to say: the path itself starts with an absolute-path marker. */
  predicate IsAbsolute(s: string) {
    AbsoluteAt(s, 0)
  }

  /** `s` with every trailing `/` removed. */
  function TrimTrailingSlashes(s: string): (r: string)
    ensures StartsWith(s, r)
    ensures r == [] || r[|r| - 1] != '/'
    ensures forall i :: |r| <= i < |s| ==> s[i] == '/'
  {
    if s != [] && s[|s| - 1] == '/' then
      var r := TrimTrailingSlashes(s[..|s| - 1]);
      assert s[..|s| - 1][..|r|] == s[..|r|];
      r
    else s
  }

  /** `File.join(dir, name)` with `/` as the only separator: a separator is added when
      neither side has one, and when `name` starts with one, `dir`'s trailing ones are dropped. */
  function Join(dir: string, name: string): (r: string)
  {
    if name != [] && name[0] == '/' then TrimTrailingSlashes(dir) + name
    else if dir != [] && dir[|dir| - 1] == '/' then dir + name
    else dir + "/" + name
  }

  /** Joining never loses either side: the result starts with the directory (less any
      trailing separators) and ends with the name, with exactly one separator between
      them when neither side supplies one. */
  lemma JoinShape(dir: string, name: string)
    ensures StartsWith(Join(dir, name), TrimTrailingSlashes(dir))
    ensures EndsWith(Join(dir, name), name)
    ensures (dir == [] || dir[|dir| - 1] != '/') && (name == [] || name[0] != '/') ==>
              Join(dir, name) == dir + ['/'] + name
  {
    JoinKeepsDir(dir, name);
    JoinKeepsName(dir, name);
  }

  lemma JoinKeepsDir(dir: string, name: string)
    ensures StartsWith(Join(dir, name), TrimTrailingSlashes(dir))
  {
    var t := TrimTrailingSlashes(dir);
    if name != [] && name[0] == '/' {
      ConcatEnds(t, name);
    } else if dir != [] && dir[|dir| - 1] == '/' {
      ConcatEnds(dir, name);
      PrefixOfPrefix(dir + name, dir, t);
    } else {
      assert dir + ['/'] + name == dir + (['/'] + name);
      ConcatEnds(dir, ['/'] + name);
    }
  }

  lemma JoinKeepsName(dir: string, name: string)
    ensures EndsWith(Join(dir, name), name)
  {
    if name != [] && name[0] == '/' {
      ConcatEnds(TrimTrailingSlashes(dir), name);
    } else if dir != [] && dir[|dir| - 1] == '/' {
      ConcatEnds(dir, name);
    } else {
      ConcatEnds(dir + ['/'], name);
    }
  }

  lemma ConcatEnds(a: string, b: string)
    ensures StartsWith(a + b, a) && EndsWith(a + b, b)
  {
    assert (a + b)[..|a|] == a;
    assert (a + b)[|a|..] == b;
  }

  lemma PrefixOfPrefix(s: string, p: string, q: string)
    requires StartsWith(s, p) && StartsWith(p, q)
    ensures StartsWith(s, q)
  {
    assert s[..|q|] == s[..|p|][..|q|];
  }

  function Digit(d: nat): (c: char)
    requires d < 10
  {
    "0123456789"[d]
  }

  /** `n / 10`, by repeated subtraction so that it stays within linear arithmetic. */
  function Div10(n: nat): (q: nat)
    ensures n >= 10 ==> 0 < q < n
  {
    if n < 10 then 0 else 1 + Div10(n - 10)
  }

  /** `n % 10` */
  function Mod10(n: nat): (d: nat)
    ensures d < 10
  {
    if n < 10 then n else Mod10(n - 10)
  }

  lemma {:induction false} DivMod10(n: nat)
    ensures n == 10 * Div10(n) + Mod10(n)
  {
    if n >= 10 {
      DivMod10(n - 10);
    }
  }

  /** `n.to_s` */
  function NatToString(n: nat): (r: string)
    ensures |r| >= 1
    ensures n < 10 <==> |r| == 1
  {
    if n < 10 then [Digit(n)] else NatToString(Div10(n)) + [Digit(Mod10(n))]
  }

  lemma DigitInjective(a: nat, b: nat)
    requires a < 10 && b < 10 && Digit(a) == Digit(b)
    ensures a == b
  {
  }

  /** Distinct numbers have distinct decimal renderings. */
  lemma {:induction false} NatToStringInjective(a: nat, b: nat)
    requires NatToString(a) == NatToString(b)
    ensures a == b
    decreases a
  {
    var sa, sb := NatToString(a), NatToString(b);
    if a < 10 {
      DigitInjective(a, b);
    } else {
      assert sa[|sa| - 1] == sb[|sb| - 1];
      DigitInjective(Mod10(a), Mod10(b));
      assert sa[..|sa| - 1] == NatToString(Div10(a));
      assert sb[..|sb| - 1] == NatToString(Div10(b));
      NatToStringInjective(Div10(a), Div10(b));
      DivMod10(a);
      DivMod10(b);
    }
  }

  /** Ruby's `s.sub(/^prefix/, '')` for a literal prefix: the first place where a line of
      `s` starts with `prefix` loses that prefix; without such a place `s` is unchanged. */
  function SubLineStartPrefix(s: string, prefix: string): (r: string)
    ensures (forall j :: 0 <= j <= |s| ==> !MatchAt(s, prefix, j)) ==> r == s
    ensures forall j :: 0 <= j <= |s| && MatchAt(s, prefix, j) && (forall k :: 0 <= k < j ==> !MatchAt(s, prefix, k)) ==>
              r == s[..j] + s[j + |prefix|..]
  {
    SubFrom(s, prefix, 0)
  }

  /** A line of `s` starts with `prefix` at position `j`. */
  predicate MatchAt(s: string, prefix: string, j: nat) {
    LineStart(s, j) && StartsWith(s[j..], prefix)
  }

  /** The line-anchored `sub`, searching from position `i` on. */
  function SubFrom(s: string, prefix: string, i: nat): (r: string)
    requires i <= |s|
    ensures (forall j :: i <= j <= |s| ==> !MatchAt(s, prefix, j)) ==> r == s
    ensures forall j :: i <= j <= |s| && MatchAt(s, prefix, j) && (forall k :: i <= k < j ==> !MatchAt(s, prefix, k)) ==>
              r == s[..j] + s[j + |prefix|..]
    decreases |s| - i
  {
    if LineStart(s, i) && StartsWith(s[i..], prefix) then
      assert MatchAt(s, prefix, i);
      s[..i] + s[i + |prefix|..]
    else if i == |s| then s
    else SubFrom(s, prefix, i + 1)
  }

  /** On a single-line string the line-anchored `sub` is plain prefix removal. */
  lemma {:induction false} SubSingleLine(s: string, prefix: string)
    requires '\n' !in s
    ensures SubLineStartPrefix(s, prefix) == if StartsWith(s, prefix) then s[|prefix|..] else s
  {
    if !StartsWith(s, prefix) {
      SubFromNoMatch(s, prefix, 0);
    }
  }

  lemma {:induction false} SubFromNoMatch(s: string, prefix: string, i: nat)
    requires '\n' !in s
    requires i <= |s|
    requires i == 0 ==> !StartsWith(s, prefix)
    ensures SubFrom(s, prefix, i) == s
    decreases |s| - i
  {
    if i > 0 {
      assert !LineStart(s, i) by {
        assert s[i - 1] in s;
      }
    } else {
      assert s[0..] == s;
    }
    if i < |s| {
      SubFromNoMatch(s, prefix, i + 1);
    }
  }
}

=== FILE: pipeline.dfy ===
/** `Rake::Pipeline` in `lib/rake-pipeline.rb`: an input root and files, an output root,
    and a chain of filters wired so that each filter reads what the previous one writes.
    The filters are seen only through what the pipeline uses of them. `File.expand_path`
    is a parameter. */
module Pipelines {
  import opened Wrappers
  import opened Errors
  import Paths

  /** A filter as the pipeline sees it: its `output_files` and `rake_tasks` as functions of
      the three attributes the pipeline assigns, and those attributes. */
  datatype Stage = Stage(
    outputFilesOf: (string, seq<string>, string) -> seq<string>,
    tasksOf: (string, seq<string>, string) -> seq<string>,
    inputRoot: Option<string>,
    inputFiles: Option<seq<string>>,
    outputRoot: Option<string>)

  /** The attributes `build` assigns. */
  function Configure(s: Stage, root: string, files: seq<string>, out: string): (r: Stage)
    ensures r.outputFilesOf == s.outputFilesOf && r.tasksOf == s.tasksOf
    ensures r.inputRoot == Some(root) && r.inputFiles == Some(files) && r.outputRoot == Some(out)
  {
    s.(inputRoot := Some(root), inputFiles := Some(files), outputRoot := Some(out))
  }

  predicate Configured(s: Stage) {
    s.inputRoot.Some? && s.inputFiles.Some? && s.outputRoot.Some?
  }

  /** `filter.output_files` */
  function OutputFiles(s: Stage): seq<string>
    requires Configured(s)
  {
    s.outputFilesOf(s.inputRoot.value, s.inputFiles.value, s.outputRoot.value)
  }

  /** `filter.rake_tasks` */
  function Tasks(s: Stage): seq<string>
    requires Configured(s)
  {
    s.tasksOf(s.inputRoot.value, s.inputFiles.value, s.outputRoot.value)
  }

  datatype Pipeline = Pipeline(
    inputRoot: Option<string>,
    inputFiles: Option<seq<string>>,
    outputRoot: Option<string>,
    filters: seq<Stage>,
    tmpId: nat)

  /** `initialize`: no filters, counter at zero, nothing assigned. */
  function New(): (p: Pipeline)
    ensures p.filters == [] && p.tmpId == 0
    ensures p.inputRoot.None? && p.inputFiles.None? && p.outputRoot.None?
  {
    Pipeline(None, None, None, [], 0)
  }

  const TmpPrefix: string := "rake-pipeline-tmp-"

  /** The temporary directory name for counter value `n`. */
  function TmpName(n: nat): string {
    TmpPrefix + Paths.NatToString(n)
  }

  /** Different counter values give different names. */
  lemma TmpNameInjective(a: nat, b: nat)
    requires TmpName(a) == TmpName(b)
    ensures a == b
  {
    assert TmpName(a)[|TmpPrefix|..] == Paths.NatToString(a);
    assert TmpName(b)[|TmpPrefix|..] == Paths.NatToString(b);
    Paths.NatToStringInjective(a, b);
  }

  /** `generate_tmpname`: `"rake-pipeline-tmp-#{@tmp_id += 1}"`. */
  function GenerateTmpname(p: Pipeline): (r: (string, Pipeline))
    ensures r.1 == p.(tmpId := p.tmpId + 1)
    ensures r.0 == TmpName(r.1.tmpId)
  {
    (TmpName(p.tmpId + 1), p.(tmpId := p.tmpId + 1))
  }

  /** The pipeline after `k` more calls of `generate_tmpname`. */
  function Iterate(p: Pipeline, k: nat): Pipeline
    decreases k
  {
    if k == 0 then p else Iterate(GenerateTmpname(p).1, k - 1)
  }

  lemma {:induction false} IterateCounter(p: Pipeline, k: nat)
    ensures Iterate(p, k).tmpId == p.tmpId + k
    decreases k
  {
    if k > 0 {
      IterateCounter(GenerateTmpname(p).1, k - 1);
    }
  }

  /** However many calls come in between, a later `generate_tmpname` has a larger counter
      and a different name than an earlier one. */
  lemma GenerateTmpnameFresh(p: Pipeline, k: nat)
    ensures var first := GenerateTmpname(p);
            var later := GenerateTmpname(Iterate(first.1, k));
            && later.1.tmpId > first.1.tmpId
            && later.0 != first.0
  {
    var first := GenerateTmpname(p);
    IterateCounter(first.1, k);
    var later := GenerateTmpname(Iterate(first.1, k));
    if later.0 == first.0 {
      TmpNameInjective(later.1.tmpId, first.1.tmpId);
    }
  }

  // ---------------------------------------------------------------- input files

  /** `relative_input_files`: raises unless both the input root and the input files are
      set; otherwise each expanded file loses the expanded root followed by `/`, matched
      with a line-anchored regular expression. */
  function RelativeInputFiles(p: Pipeline, expand: string -> string): (r: Result<seq<string>, Error>)
    ensures r.Err? <==> p.inputRoot.None? || p.inputFiles.None?
    ensures r.Err? ==> r.error == PipelineError
    ensures r.Ok? ==> |r.value| == |p.inputFiles.value|
  {
    if p.inputRoot.None? || p.inputFiles.None? then Err(PipelineError)
    else
      var prefix := expand(p.inputRoot.value) + "/";
      var files := p.inputFiles.value;
      Ok(seq(|files|, i requires 0 <= i < |files| => Paths.SubLineStartPrefix(expand(files[i]), prefix)))
  }

  /** For single-line expanded paths, each relative file is the expanded file without the
      leading `root/` when it has one, and the expanded file unchanged otherwise, in order. */
  lemma RelativeInputFilesStripRoot(p: Pipeline, expand: string -> string)
    requires p.inputRoot.Some? && p.inputFiles.Some?
    requires forall f :: f in p.inputFiles.value ==> '\n' !in expand(f)
    ensures var r := RelativeInputFiles(p, expand).value;
            var files := p.inputFiles.value;
            var prefix := expand(p.inputRoot.value) + "/";
            && |r| == |files|
            && forall i :: 0 <= i < |files| ==>
                 r[i] == if Paths.StartsWith(expand(files[i]), prefix) then expand(files[i])[|prefix|..] else expand(files[i])
  {
    var files := p.inputFiles.value;
    var prefix := expand(p.inputRoot.value) + "/";
    forall i | 0 <= i < |files|
      ensures RelativeInputFiles(p, expand).value[i]
              == if Paths.StartsWith(expand(files[i]), prefix) then expand(files[i])[|prefix|..] else expand(files[i])
    {
      assert files[i] in files;
      Paths.SubSingleLine(expand(files[i]), prefix);
    }
  }

  // ---------------------------------------------------------------- build

  /** The `each_cons(2)` loop of `build` over `stages`, starting from the given input root
      and files and counter value. Every filter but the last gets a fresh temporary output
      root; the last gets the expanded output root, and `File.expand_path(nil)` raises when
      there is none. */
  function Wire(stages: seq<Stage>, root: string, files: seq<string>, out: Option<string>,
                expand: string -> string, id: nat): (r: Result<(seq<Stage>, nat), Error>)
    ensures r.Ok? <==> stages == [] || out.Some?
    ensures r.Err? ==> r.error == NilPath
    ensures r.Ok? ==> |r.value.0| == |stages|
    ensures r.Ok? ==> r.value.1 == if stages == [] then id else id + |stages| - 1
    decreases |stages|
  {
    if stages == [] then Ok(([], id))
    else if |stages| == 1 then
      if out.None? then Err(NilPath)
      else Ok(([Configure(stages[0], root, files, expand(out.value))], id))
    else
      var tmp := TmpName(id + 1);
      var s := Configure(stages[0], root, files, tmp);
      var rest :- Wire(stages[1..], tmp, OutputFiles(s), out, expand, id + 1);
      Ok(([s] + rest.0, rest.1))
  }

  /** `Wire` fails exactly when there are filters and no output root to expand. */
  lemma {:induction false} WireOk(stages: seq<Stage>, root: string, files: seq<string>, out: Option<string>,
                                  expand: string -> string, id: nat)
    ensures Wire(stages, root, files, out, expand, id).Ok? <==> stages == [] || out.Some?
    ensures Wire(stages, root, files, out, expand, id).Err? ==> Wire(stages, root, files, out, expand, id).error == NilPath
    decreases |stages|
  {
    if |stages| > 1 {
      var tmp := TmpName(id + 1);
      WireOk(stages[1..], tmp, OutputFiles(Configure(stages[0], root, files, tmp)), out, expand, id + 1);
    }
  }

  /** One step of `Wire` when it succeeds on two or more filters. */
  lemma WireStep(stages: seq<Stage>, root: string, files: seq<string>, out: Option<string>,
                 expand: string -> string, id: nat)
    requires |stages| > 1 && out.Some?
    ensures var tmp := TmpName(id + 1);
            var s := Configure(stages[0], root, files, tmp);
            var rest := Wire(stages[1..], tmp, OutputFiles(s), out, expand, id + 1);
            && Wire(stages, root, files, out, expand, id).Ok?
            && rest.Ok?
            && Wire(stages, root, files, out, expand, id).value == ([s] + rest.value.0, rest.value.1)
  {
    var tmp := TmpName(id + 1);
    WireOk(stages[1..], tmp, OutputFiles(Configure(stages[0], root, files, tmp)), out, expand, id + 1);
  }

  /** `Wire` configures every filter once, in order, keeping its behaviour, and advances the
      counter once for every filter but the last. */
  lemma {:induction false} WireStages(stages: seq<Stage>, root: string, files: seq<string>, out: Option<string>,
                                      expand: string -> string, id: nat)
    requires out.Some?
    ensures Wire(stages, root, files, out, expand, id).Ok?
    ensures var (st, id') := Wire(stages, root, files, out, expand, id).value;
            && |st| == |stages|
            && id' == (if stages == [] then id else id + |stages| - 1)
            && forall i :: 0 <= i < |st| ==>
                 && Configured(st[i])
                 && st[i].outputFilesOf == stages[i].outputFilesOf
                 && st[i].tasksOf == stages[i].tasksOf
    decreases |stages|
  {
    WireOk(stages, root, files, out, expand, id);
    if |stages| > 1 {
      var tmp := TmpName(id + 1);
      var s := Configure(stages[0], root, files, tmp);
      WireStep(stages, root, files, out, expand, id);
      WireStages(stages[1..], tmp, OutputFiles(s), out, expand, id + 1);
      var rest := Wire(stages[1..], tmp, OutputFiles(s), out, expand, id + 1).value.0;
      assert forall i :: 1 <= i < |stages| ==> ([s] + rest)[i] == rest[i - 1] && stages[i] == stages[1..][i - 1];
    }
  }

  /** Stages wired from `root` and `files`: every stage is configured, the first reads
      `root` and `files`, each later one reads its predecessor's output root and
      `output_files`, every stage but the last writes to the temporary name numbered on
      from `id`, and the last writes to `last`. */
  predicate Wired(st: seq<Stage>, root: string, files: seq<string>, last: string, id: nat) {
    && |st| > 0
    && (forall i :: 0 <= i < |st| ==> Configured(st[i]))
    && st[0].inputRoot == Some(root) && st[0].inputFiles == Some(files)
    && (forall i :: 0 < i < |st| ==>
          && st[i].inputRoot == st[i - 1].outputRoot
          && st[i].inputFiles == Some(OutputFiles(st[i - 1])))
    && (forall i :: 0 <= i < |st| - 1 ==> st[i].outputRoot == Some(TmpName(id + i + 1)))
    && st[|st| - 1].outputRoot == Some(last)
  }

  /** `Wire` chains the filters: the first reads the given root and files, each later one
      reads its predecessor's output root and `output_files`; every filter but the last
      writes to the temporary name of the next counter value and the last writes to the
      expanded output root. */
  lemma {:induction false} WireChain(stages: seq<Stage>, root: string, files: seq<string>, out: Option<string>,
                                     expand: string -> string, id: nat)
    requires out.Some? && stages != []
    ensures Wire(stages, root, files, out, expand, id).Ok?
    ensures var st := Wire(stages, root, files, out, expand, id).value.0;
            && |st| == |stages|
            && Wired(st, root, files, expand(out.value), id)
    decreases |stages|
  {
    WireStages(stages, root, files, out, expand, id);
    if |stages| > 1 {
      var tmp := TmpName(id + 1);
      var s := Configure(stages[0], root, files, tmp);
      WireStep(stages, root, files, out, expand, id);
      WireChain(stages[1..], tmp, OutputFiles(s), out, expand, id + 1);
      var rest := Wire(stages[1..], tmp, OutputFiles(s), out, expand, id + 1).value.0;
      ChainCons(s, rest, root, files, expand(out.value), id);
    }
  }

  /** Putting a filter that reads `root` and `files` and writes the next temporary root in
      front of stages wired from that temporary root gives stages wired from `root`. */
  lemma ChainCons(s: Stage, rest: seq<Stage>, root: string, files: seq<string>, last: string, id: nat)
    requires Configured(s) && s.inputRoot == Some(root) && s.inputFiles == Some(files)
    requires s.outputRoot == Some(TmpName(id + 1))
    requires Wired(rest, TmpName(id + 1), OutputFiles(s), last, id + 1)
    ensures Wired([s] + rest, root, files, last, id)
  {
    var st := [s] + rest;
    assert forall i :: 1 <= i < |st| ==> st[i] == rest[i - 1];
    forall i | 0 <= i < |st| - 1 ensures st[i].outputRoot == Some(TmpName(id + i + 1)) {
      if i > 0 {
        assert rest[i - 1].outputRoot == Some(TmpName(id + 1 + (i - 1) + 1));
      }
    }
  }

  /** `build`: expands the input root (raising on a missing one), computes the relative
      input files, and wires the filters. */
  function Build(p: Pipeline, expand: string -> string): (r: Result<Pipeline, Error>)
    ensures r.Ok? ==> r.value.inputRoot == p.inputRoot && r.value.inputFiles == p.inputFiles
                      && r.value.outputRoot == p.outputRoot
  {
    if p.inputRoot.None? then Err(NilPath)
    else
      var files :- RelativeInputFiles(p, expand);
      var w :- Wire(p.filters, expand(p.inputRoot.value), files, p.outputRoot, expand, p.tmpId);
      Ok(p.(filters := w.0, tmpId := w.1))
  }

  /** When `build` fails, and why: a missing input root cannot be expanded, missing input
      files make `relative_input_files` raise, and a missing output root cannot be expanded
      once there is a filter. */
  lemma BuildOk(p: Pipeline, expand: string -> string)
    ensures Build(p, expand).Ok? <==>
              p.inputRoot.Some? && p.inputFiles.Some? && (p.filters == [] || p.outputRoot.Some?)
    ensures Build(p, expand).Err? ==>
              Build(p, expand).error == (if p.inputRoot.Some? && p.inputFiles.None? then PipelineError else NilPath)
  {
    if p.inputRoot.Some? && p.inputFiles.Some? {
      var files := RelativeInputFiles(p, expand).value;
      WireOk(p.filters, expand(p.inputRoot.value), files, p.outputRoot, expand, p.tmpId);
    }
  }

  lemma BuildUnfold(p: Pipeline, expand: string -> string)
    requires Build(p, expand).Ok?
    ensures p.inputRoot.Some? && RelativeInputFiles(p, expand).Ok?
    ensures var w := Wire(p.filters, expand(p.inputRoot.value), RelativeInputFiles(p, expand).value,
                          p.outputRoot, expand, p.tmpId);
            && w.Ok?
            && Build(p, expand).value == p.(filters := w.value.0, tmpId := w.value.1)
  {
  }

  /** A successful `build` keeps the filters and their behaviour, configures each of them,
      and advances the counter once for every filter but the last. */
  lemma BuildStages(p: Pipeline, expand: string -> string)
    requires Build(p, expand).Ok? && p.filters != []
    ensures var q := Build(p, expand).value;
            && |q.filters| == |p.filters|
            && q.tmpId == p.tmpId + |p.filters| - 1
            && forall i :: 0 <= i < |p.filters| ==>
                 && Configured(q.filters[i])
                 && q.filters[i].outputFilesOf == p.filters[i].outputFilesOf
                 && q.filters[i].tasksOf == p.filters[i].tasksOf
  {
    BuildOk(p, expand);
    BuildUnfold(p, expand);
    WireStages(p.filters, expand(p.inputRoot.value), RelativeInputFiles(p, expand).value, p.outputRoot, expand, p.tmpId);
  }

  /** After a successful `build` the filters are wired from the expanded input root and
      the relative input files to the expanded output root, with temporary roots numbered
      on from the counter. */
  lemma BuildWired(p: Pipeline, expand: string -> string)
    requires Build(p, expand).Ok? && p.filters != []
    ensures p.inputRoot.Some? && p.outputRoot.Some? && RelativeInputFiles(p, expand).Ok?
    ensures |Build(p, expand).value.filters| == |p.filters|
    ensures Wired(Build(p, expand).value.filters, expand(p.inputRoot.value), RelativeInputFiles(p, expand).value,
                  expand(p.outputRoot.value), p.tmpId)
  {
    BuildOk(p, expand);
    BuildUnfold(p, expand);
    WireChain(p.filters, expand(p.inputRoot.value), RelativeInputFiles(p, expand).value, p.outputRoot, expand, p.tmpId);
  }

  /** After a successful `build` the first filter reads the expanded input root and the
      relative input files, and each later one reads what its predecessor writes. */
  lemma BuildChain(p: Pipeline, expand: string -> string)
    requires Build(p, expand).Ok? && p.filters != []
    ensures var fs := Build(p, expand).value.filters;
            && |fs| == |p.filters|
            && (forall i :: 0 <= i < |fs| ==> Configured(fs[i]))
            && fs[0].inputRoot == Some(expand(p.inputRoot.value))
            && fs[0].inputFiles == Some(RelativeInputFiles(p, expand).value)
            && forall i :: 0 < i < |fs| ==>
                 && fs[i].inputRoot == fs[i - 1].outputRoot
                 && fs[i].inputFiles == Some(OutputFiles(fs[i - 1]))
  {
    BuildWired(p, expand);
  }

  /** After a successful `build` every filter but the last writes to the name returned by
      the matching call of `generate_tmpname`, and the last writes to the expanded output
      root. */
  lemma BuildOutputRoots(p: Pipeline, expand: string -> string)
    requires Build(p, expand).Ok? && p.filters != []
    ensures var fs := Build(p, expand).value.filters;
            && |fs| == |p.filters|
            && (forall i: nat :: i < |fs| - 1 ==> fs[i].outputRoot == Some(GenerateTmpname(Iterate(p, i)).0))
            && p.outputRoot.Some?
            && fs[|fs| - 1].outputRoot == Some(expand(p.outputRoot.value))
  {
    BuildTmpRoots(p, expand);
    TmpRootsGenerated(p, Build(p, expand).value.filters);
  }

  /** After a successful `build`, the temporary output roots are numbered on from the
      counter, and the last filter writes to the expanded output root. */
  lemma BuildTmpRoots(p: Pipeline, expand: string -> string)
    requires Build(p, expand).Ok? && p.filters != []
    ensures var fs := Build(p, expand).value.filters;
            && |fs| == |p.filters|
            && (forall i :: 0 <= i < |fs| - 1 ==> fs[i].outputRoot == Some(TmpName(p.tmpId + i + 1)))
            && p.outputRoot.Some?
            && fs[|fs| - 1].outputRoot == Some(expand(p.outputRoot.value))
  {
    BuildWired(p, expand);
  }

  /** Output roots numbered from the counter are the names `generate_tmpname` yields. */
  lemma TmpRootsGenerated(p: Pipeline, fs: seq<Stage>)
    requires forall i :: 0 <= i < |fs| - 1 ==> fs[i].outputRoot == Some(TmpName(p.tmpId + i + 1))
    ensures forall i: nat :: i < |fs| - 1 ==> fs[i].outputRoot == Some(GenerateTmpname(Iterate(p, i)).0)
  {
    forall i: nat | i < |fs| - 1
      ensures GenerateTmpname(Iterate(p, i)).0 == TmpName(p.tmpId + i + 1)
    {
      IterateCounter(p, i);
    }
  }

  /** `rake_tasks`: builds, then returns the last filter's tasks; with no filters the loop
      has nothing to return. */
  function RakeTasks(p: Pipeline, expand: string -> string): (r: Result<Option<seq<string>>, Error>)
    ensures r.Ok? <==> Build(p, expand).Ok?
    ensures r.Ok? ==> (r.value.None? <==> p.filters == [])
  {
    var q :- Build(p, expand);
    if p.filters == [] then Ok(None)
    else
      BuildStages(p, expand);
      Ok(Some(Tasks(q.filters[|q.filters| - 1])))
  }

  /** `rake_tasks` fails exactly when `build` does; otherwise, when there are filters, the
      tasks are those of the last filter, asked with the expanded output root as its output
      root and, as its input root, the expanded input root when it is the only filter and
      the latest temporary name otherwise. */
  lemma RakeTasksContract(p: Pipeline, expand: string -> string)
    ensures RakeTasks(p, expand).Ok? <==> Build(p, expand).Ok?
    ensures RakeTasks(p, expand).Ok? ==> (RakeTasks(p, expand).value.None? <==> p.filters == [])
    ensures RakeTasks(p, expand).Ok? && p.filters != [] ==>
              var n := |p.filters|;
              && |Build(p, expand).value.filters| == n
              && p.outputRoot.Some?
              && var last := Build(p, expand).value.filters[n - 1];
              && Configured(last)
              && last.inputRoot.value == (if n == 1 then expand(p.inputRoot.value) else TmpName(p.tmpId + n - 1))
              && RakeTasks(p, expand).value
                 == Some(p.filters[n - 1].tasksOf(last.inputRoot.value, last.inputFiles.value, expand(p.outputRoot.value)))
  {
    if Build(p, expand).Ok? && p.filters != [] {
      RakeTasksLast(p, expand);
    }
  }

  lemma RakeTasksLast(p: Pipeline, expand: string -> string)
    requires Build(p, expand).Ok? && p.filters != []
    ensures var n := |p.filters|;
            var fs := Build(p, expand).value.filters;
            && |fs| == n
            && p.outputRoot.Some?
            && Configured(fs[n - 1])
            && fs[n - 1].inputRoot.value == (if n == 1 then expand(p.inputRoot.value) else TmpName(p.tmpId + n - 1))
            && RakeTasks(p, expand)
               == Ok(Some(p.filters[n - 1].tasksOf(fs[n - 1].inputRoot.value, fs[n - 1].inputFiles.value, expand(p.outputRoot.value))))
  {
    LastStage(p, expand);
  }

  /** After a successful `build` the last filter keeps its tasks, writes to the expanded
      output root, and reads the expanded input root when it is the only filter and the
      latest temporary directory otherwise. */
  lemma LastStage(p: Pipeline, expand: string -> string)
    requires Build(p, expand).Ok? && p.filters != []
    ensures p.inputRoot.Some? && p.outputRoot.Some?
    ensures var fs := Build(p, expand).value.filters;
            var n := |p.filters|;
            && |fs| == n
            && Configured(fs[n - 1])
            && fs[n - 1].tasksOf == p.filters[n - 1].tasksOf
            && fs[n - 1].outputRoot == Some(expand(p.outputRoot.value))
            && fs[n - 1].inputRoot == Some(if n == 1 then expand(p.inputRoot.value) else TmpName(p.tmpId + n - 1))
  {
    BuildStages(p, expand);
    BuildWired(p, expand);
    var fs := Build(p, expand).value.filters;
    ChainLast(fs, expand(p.inputRoot.value), RelativeInputFiles(p, expand).value, expand(p.outputRoot.value), p.tmpId);
  }

  /** The last of wired stages reads the first root when it is alone and the latest
      temporary name otherwise. */
  lemma ChainLast(st: seq<Stage>, root: string, files: seq<string>, last: string, id: nat)
    requires Wired(st, root, files, last, id)
    ensures st[|st| - 1].inputRoot == Some(if |st| == 1 then root else TmpName(id + |st| - 1))
  {
    var n := |st|;
    if n > 1 {
      assert st[n - 1].inputRoot == st[n - 2].outputRoot;
    }
  }
}

=== FILE: pipeline_finalizing_filter.dfy ===
/** `Rake::Pipeline::PipelineFinalizingFilter`: a concatenating filter whose
    `input_files` leaves out the files the pipeline started from, so that only
    generated files are copied to the output. */
module PipelineFinalizingFilters {
  import opened FileWrappers
  import Seqs

  /** `list.include?(file)`, which compares with `FileWrapper#==`. */
  predicate Includes(list: seq<FileWrapper>, file: FileWrapper) {
    exists i :: 0 <= i < |list| && Eql(list[i], file)
  }

  /** `super.reject { |file| pipeline_input_files.include?(file) }` */
  function EffectiveInputs(files: seq<FileWrapper>, pipelineInputs: seq<FileWrapper>): (r: seq<FileWrapper>)
    ensures forall x :: x in r <==> x in files && !Includes(pipelineInputs, x)
  {
    Seqs.Filter(files, x => !Includes(pipelineInputs, x))
  }

  /** The kept files appear in the assigned list in the same order. */
  lemma EffectiveInputsSubsequence(files: seq<FileWrapper>, pipelineInputs: seq<FileWrapper>)
    ensures Seqs.Subsequence(EffectiveInputs(files, pipelineInputs), files)
  {
    Seqs.FilterIsSubsequence(files, x => !Includes(pipelineInputs, x));
  }

  /** Membership goes by root and path: a pipeline input re-tagged with another
      encoding, as `input_files=` does, is still removed. */
  lemma ReencodedPipelineInputRemoved(files: seq<FileWrapper>, pipelineInputs: seq<FileWrapper>, i: nat, e: string)
    requires i < |pipelineInputs|
    ensures WithEncoding(pipelineInputs[i], e) !in EffectiveInputs(files, pipelineInputs)
  {
    assert Eql(pipelineInputs[i], WithEncoding(pipelineInputs[i], e));
  }
}

=== FILE: reject_matcher.dfy ===
/** `Rake::Pipeline::RejectMatcher`: a pipeline that only drops the inputs a block, or
    failing that a pattern, rejects. */
module RejectMatchers {
  import opened Wrappers
  import opened FileWrappers
  import Seqs

  /** The matcher's `block` and `@pattern`. A pattern is taken as the predicate "the path
      matches it"; `path =~ nil` is `nil`, so a missing pattern matches nothing. */
  datatype Rule = Rule(block: Option<FileWrapper -> bool>, pattern: Option<string -> bool>)

  /** The condition of the `reject` block: the block when there is one, otherwise the pattern. */
  predicate Rejects(rule: Rule, x: FileWrapper) {
    match rule.block
    case Some(b) => b(x)
    case None => rule.pattern.Some? && rule.pattern.value(x.path)
  }

  function Kept(rule: Rule): FileWrapper -> bool {
    x => !Rejects(rule, x)
  }

  /** `output_files` */
  function OutputFiles(rule: Rule, inputs: seq<FileWrapper>): (r: seq<FileWrapper>)
    ensures forall x :: x in r <==> x in inputs && !Rejects(rule, x)
    ensures Seqs.Subsequence(r, inputs)
  {
    Seqs.FilterIsSubsequence(inputs, Kept(rule));
    Seqs.Filter(inputs, Kept(rule))
  }

  /** With a block, the pattern plays no part. */
  lemma BlockDecidesAlone(rule: Rule, pattern: Option<string -> bool>, inputs: seq<FileWrapper>)
    requires rule.block.Some?
    ensures OutputFiles(rule, inputs) == OutputFiles(rule.(pattern := pattern), inputs)
  {
    Seqs.FilterCongruent(inputs, Kept(rule), Kept(rule.(pattern := pattern)));
  }

  /** Without a block or a pattern, nothing is rejected. */
  lemma NothingSetKeepsAll(inputs: seq<FileWrapper>)
    ensures OutputFiles(Rule(None, None), inputs) == inputs
  {
    Seqs.FilterAll(inputs, Kept(Rule(None, None)));
  }

  /** Rejecting again with the same rule rejects nothing more. */
  lemma RejectIdempotent(rule: Rule, inputs: seq<FileWrapper>)
    ensures OutputFiles(rule, OutputFiles(rule, inputs)) == OutputFiles(rule, inputs)
  {
    Seqs.FilterIdempotent(inputs, Kept(rule));
  }
}

=== FILE: seqs.dfy ===
/** Sequence vocabulary for Ruby's Array methods used by the pipeline:
    `select`/`reject`, `|=` (union in first-seen order) and `map`. */
module Seqs {

  /** No element occurs twice. */
  predicate Distinct<T(==)>(s: seq<T>) {
    forall i, j :: 0 <= i < j < |s| ==> s[i] != s[j]
  }

  /** `s.select(&p)`: the elements satisfying `p`, in their original order. */
  function Filter<T(!new)>(s: seq<T>, p: T -> bool): (r: seq<T>)
    ensures |r| <= |s|
    ensures forall x :: x in r <==> x in s && p(x)
  {
    if s == [] then [] else Filter(s[..|s| - 1], p) + (if p(s[|s| - 1]) then [s[|s| - 1]] else [])
  }

  /** `a` is obtained from `b` by deleting elements, the rest keeping their order. */
  ghost predicate Subsequence<T>(a: seq<T>, b: seq<T>)
    decreases |b|
  {
    || a == []
    || (&& b != []
        && (|| (a != [] && a[|a| - 1] == b[|b| - 1] && Subsequence(a[..|a| - 1], b[..|b| - 1]))
            || Subsequence(a, b[..|b| - 1])))
  }

  lemma {:induction false} FilterIsSubsequence<T(!new)>(s: seq<T>, p: T -> bool)
    ensures Subsequence(Filter(s, p), s)
  {
    if s != [] {
      var init, last := s[..|s| - 1], s[|s| - 1];
      FilterIsSubsequence(init, p);
      var f := Filter(s, p);
      if p(last) {
        assert f == Filter(init, p) + [last];
        assert f[..|f| - 1] == Filter(init, p);
      } else {
        assert f == Filter(init, p);
      }
    }
  }

  lemma {:induction false} FilterAppend<T(!new)>(a: seq<T>, b: seq<T>, p: T -> bool)
    ensures Filter(a + b, p) == Filter(a, p) + Filter(b, p)
    decreases |b|
  {
    if b != [] {
      var init := b[..|b| - 1];
      assert (a + b)[..|a + b| - 1] == a + init;
      FilterAppend(a, init, p);
    } else {
      assert a + b == a;
    }
  }

  lemma {:induction false} FilterDistinct<T(!new)>(s: seq<T>, p: T -> bool)
    requires Distinct(s)
    ensures Distinct(Filter(s, p))
  {
    if s != [] {
      var init := s[..|s| - 1];
      assert Distinct(init);
      FilterDistinct(init, p);
    }
  }

  /** Filtering with the predicate and with its negation splits `s` into two parts
      that together hold every element exactly as often as `s` does. */
  lemma {:induction false} FilterPartition<T(!new)>(s: seq<T>, p: T -> bool)
    ensures multiset(Filter(s, p)) + multiset(Filter(s, Not(p))) == multiset(s)
  {
    if s != [] {
      var init, last := s[..|s| - 1], s[|s| - 1];
      FilterPartition(init, p);
      assert s == init + [last];
      PartitionStep(Filter(init, p), Filter(init, Not(p)), init, last, p(last));
    }
  }

  /** Sending one more element to one side of a split keeps it a split. */
  lemma PartitionStep<T>(a: seq<T>, b: seq<T>, init: seq<T>, last: T, left: bool)
    requires multiset(a) + multiset(b) == multiset(init)
    ensures multiset(a + (if left then [last] else [])) + multiset(b + (if left then [] else [last]))
            == multiset(init + [last])
  {
    if left {
      assert b + [] == b;
    } else {
      assert a + [] == a;
    }
  }

  /** The negation of a predicate. */
  function Not<T>(p: T -> bool): T -> bool {
    x => !p(x)
  }

  lemma {:induction false} FilterIdempotent<T(!new)>(s: seq<T>, p: T -> bool)
    ensures Filter(Filter(s, p), p) == Filter(s, p)
  {
    if s != [] {
      var init, last := s[..|s| - 1], s[|s| - 1];
      FilterIdempotent(init, p);
      if p(last) {
        assert Filter(s, p) == Filter(init, p) + [last];
        FilterAppend(Filter(init, p), [last], p);
        assert Filter([last], p) == [last] by {
          assert [last][..0] == [];
        }
      } else {
        assert Filter(s, p) == Filter(init, p);
      }
    }
  }

  /** The position of the first occurrence of `x` in `s`. */
  function IndexOf<T(==)>(s: seq<T>, x: T): (i: nat)
    requires x in s
    ensures i < |s| && s[i] == x
    ensures forall j :: 0 <= j < i ==> s[j] != x
  {
    if s[0] == x then 0 else 1 + IndexOf(s[1..], x)
  }

  lemma IndexOfAppend<T>(s: seq<T>, y: T, x: T)
    requires x in s
    ensures IndexOf(s + [y], x) == IndexOf(s, x)
  {
    var i := IndexOf(s, x);
    var k := IndexOf(s + [y], x);
    assert (s + [y])[i] == x;
  }

  /** A duplicate-free sequence whose every element is `c`, and which holds `c`, is `[c]`. */
  lemma DistinctConstant<T>(s: seq<T>, c: T)
    requires Distinct(s) && c in s
    requires forall x :: x in s ==> x == c
    ensures s == [c]
  {
    FirstTwo(s);
    assert s[0] in s;
  }

  lemma FirstTwo<T>(s: seq<T>)
    ensures Distinct(s) && |s| >= 2 ==> s[0] in s && s[1] in s && s[0] != s[1]
  {
  }

  /** Two duplicate-free sequences with no common element join into a duplicate-free one. */
  lemma DistinctConcat<T>(a: seq<T>, b: seq<T>)
    requires Distinct(a) && Distinct(b)
    requires forall x :: x in a ==> x !in b
    ensures Distinct(a + b)
  {
    forall i, j | 0 <= i < j < |a + b| ensures (a + b)[i] != (a + b)[j] {
      if j < |a| {
        assert (a + b)[i] == a[i] && (a + b)[j] == a[j];
      } else if i < |a| {
        assert (a + b)[i] == a[i] && (a + b)[j] == b[j - |a|];
        assert a[i] in a && b[j - |a|] in b;
      } else {
        assert (a + b)[i] == b[i - |a|] && (a + b)[j] == b[j - |a|];
      }
    }
  }

  /** `xs.inject([]) { |a, x| a |= [x] }`: each distinct element once. */
  function Union<T(==,!new)>(xs: seq<T>): (r: seq<T>)
    ensures Distinct(r)
    ensures forall x :: x in r <==> x in xs
  {
    if xs == [] then []
    else
      var r := Union(xs[..|xs| - 1]);
      if xs[|xs| - 1] in r then r else r + [xs[|xs| - 1]]
  }

  /** `Union` keeps elements in the order of their first occurrence. */
  lemma {:induction false} UnionOrder<T(!new)>(xs: seq<T>)
    ensures forall i, j :: 0 <= i < j < |Union(xs)| ==> IndexOf(xs, Union(xs)[i]) < IndexOf(xs, Union(xs)[j])
  {
    if xs != [] {
      var init, last := xs[..|xs| - 1], xs[|xs| - 1];
      var r := Union(init);
      UnionOrder(init);
      assert xs == init + [last];
      forall x | x in init ensures IndexOf(xs, x) == IndexOf(init, x) {
        IndexOfAppend(init, last, x);
      }
      if last !in r {
        assert last !in init;
        assert IndexOf(xs, last) == |init|;
      }
    }
  }

  lemma {:induction false} FilterAll<T(!new)>(s: seq<T>, p: T -> bool)
    requires forall i :: 0 <= i < |s| ==> p(s[i])
    ensures Filter(s, p) == s
  {
    if s != [] {
      var init, last := s[..|s| - 1], s[|s| - 1];
      forall i | 0 <= i < |init| ensures p(init[i]) {
        assert init[i] == s[i];
      }
      FilterAll(init, p);
      assert p(last);
      assert s == init + [last];
    }
  }

  lemma {:induction false} FilterNone<T(!new)>(s: seq<T>, p: T -> bool)
    requires forall i :: 0 <= i < |s| ==> !p(s[i])
    ensures Filter(s, p) == []
  {
    if s != [] {
      FilterNone(s[..|s| - 1], p);
    }
  }

  /** Two predicates that agree on the elements of `s` select the same elements. */
  lemma {:induction false} FilterCongruent<T(!new)>(s: seq<T>, p: T -> bool, q: T -> bool)
    requires forall i :: 0 <= i < |s| ==> p(s[i]) == q(s[i])
    ensures Filter(s, p) == Filter(s, q)
  {
    if s != [] {
      FilterCongruent(s[..|s| - 1], p, q);
    }
  }

  /** The predicate "is not `k`", as `reject { |x| x == k }` and `Hash#delete` use it. */
  function Except<T(==)>(k: T): T -> bool {
    x => x != k
  }

  /** The conjunction of two predicates. */
  function And<T>(p: T -> bool, q: T -> bool): T -> bool {
    x => p(x) && q(x)
  }

  /** Filtering with a predicate and with any complement of it splits `s` in two. */
  lemma FilterComplement<T(!new)>(s: seq<T>, p: T -> bool, q: T -> bool)
    requires forall i :: 0 <= i < |s| ==> q(s[i]) == !p(s[i])
    ensures multiset(Filter(s, p)) + multiset(Filter(s, q)) == multiset(s)
  {
    FilterPartition(s, p);
    FilterCongruent(s, Not(p), q);
  }

  /** When `p` selects exactly `[e]`, that element together with what the complement `q`
      selects is all of `s`. */
  lemma FilterSingleComplement<T(!new)>(s: seq<T>, p: T -> bool, q: T -> bool, e: T)
    requires Filter(s, p) == [e]
    requires forall i :: 0 <= i < |s| ==> q(s[i]) == !p(s[i])
    ensures multiset([e] + Filter(s, q)) == multiset(s)
  {
    FilterComplement(s, p, q);
  }

  /** Selecting twice is selecting by both predicates at once. */
  lemma {:induction false} FilterFilter<T(!new)>(s: seq<T>, p: T -> bool, q: T -> bool)
    ensures Filter(Filter(s, p), q) == Filter(s, And(p, q))
  {
    if s != [] {
      var init, last := s[..|s| - 1], s[|s| - 1];
      FilterFilter(init, p, q);
      if p(last) {
        FilterAppend(Filter(init, p), [last], q);
        assert [last][..0] == [];
        assert Filter(s, p) == Filter(init, p) + [last];
      } else {
        assert Filter(s, p) == Filter(init, p);
      }
    }
  }
}

=== FILE: sorted_pipeline.dfy ===
/** `Rake::Pipeline::SortedPipeline`: a pipeline whose output files are its input files
    sorted by a comparator block. */
module SortedPipelines {
  import opened FileWrappers

  /** A comparator block: negative, zero or positive like `<=>`. */
  type Comparator = (FileWrapper, FileWrapper) -> int

  /** Any two files are ordered one way or the other. */
  ghost predicate Total(cmp: Comparator) {
    forall a, b :: cmp(a, b) <= 0 || cmp(b, a) <= 0
  }

  /** "Not after" is transitive. */
  ghost predicate Transitive(cmp: Comparator) {
    forall a, b, c :: cmp(a, b) <= 0 && cmp(b, c) <= 0 ==> cmp(a, c) <= 0
  }

  /** Every file is not after every later one. */
  predicate Sorted(s: seq<FileWrapper>, cmp: Comparator) {
    forall i, j :: 0 <= i < j < |s| ==> cmp(s[i], s[j]) <= 0
  }

  /** Inserting `x` before the first element it is not after. */
  function Insert(x: FileWrapper, s: seq<FileWrapper>, cmp: Comparator): (r: seq<FileWrapper>)
    ensures multiset(r) == multiset(s) + multiset{x}
  {
    if s == [] then [x]
    else if cmp(x, s[0]) <= 0 then [x] + s
    else
      assert s == [s[0]] + s[1..];
      [s[0]] + Insert(x, s[1..], cmp)
  }

  /** `output_files`: `input_files.sort(&comparator)`, as an insertion sort. */
  function Sort(xs: seq<FileWrapper>, cmp: Comparator): (r: seq<FileWrapper>)
    ensures multiset(r) == multiset(xs)
    ensures |r| == |xs|
  {
    if xs == [] then []
    else
      assert xs == [xs[0]] + xs[1..];
      Insert(xs[0], Sort(xs[1..], cmp), cmp)
  }

  /** A file not after the head of a sorted sequence can go in front of it. */
  lemma SortedCons(x: FileWrapper, s: seq<FileWrapper>, cmp: Comparator)
    requires Sorted(s, cmp)
    requires forall y :: y in s ==> cmp(x, y) <= 0
    ensures Sorted([x] + s, cmp)
  {
    var r := [x] + s;
    forall i, j | 0 <= i < j < |r| ensures cmp(r[i], r[j]) <= 0 {
      assert r[j] == s[j - 1];
      if i == 0 {
        assert s[j - 1] in s;
      } else {
        assert r[i] == s[i - 1];
      }
    }
  }

  /** The tail of a sorted sequence is sorted and not before its head. */
  lemma SortedTail(s: seq<FileWrapper>, cmp: Comparator)
    requires Sorted(s, cmp) && s != []
    ensures Sorted(s[1..], cmp)
    ensures forall y :: y in s[1..] ==> cmp(s[0], y) <= 0
  {
    var t := s[1..];
    forall i, j | 0 <= i < j < |t| ensures cmp(t[i], t[j]) <= 0 {
      assert t[i] == s[i + 1] && t[j] == s[j + 1];
    }
    forall y | y in t ensures cmp(s[0], y) <= 0 {
      var k :| 0 <= k < |t| && t[k] == y;
      assert s[k + 1] == y;
    }
  }

  lemma {:induction false} InsertSorted(x: FileWrapper, s: seq<FileWrapper>, cmp: Comparator)
    requires Total(cmp) && Transitive(cmp)
    requires Sorted(s, cmp)
    ensures Sorted(Insert(x, s, cmp), cmp)
  {
    if s == [] {
    } else if cmp(x, s[0]) <= 0 {
      SortedTail(s, cmp);
      forall y | y in s ensures cmp(x, y) <= 0 {
        if y != s[0] {
          assert y in s[1..] by {
            var k :| 0 <= k < |s| && s[k] == y;
            assert s[1..][k - 1] == y;
          }
        }
      }
      SortedCons(x, s, cmp);
    } else {
      assert cmp(s[0], x) <= 0;
      var t := s[1..];
      SortedTail(s, cmp);
      InsertSorted(x, t, cmp);
      var ins := Insert(x, t, cmp);
      forall y | y in ins ensures cmp(s[0], y) <= 0 {
        assert y in multiset(ins);
      }
      SortedCons(s[0], ins, cmp);
    }
  }

  /** Sorting with a consistent comparator (total and transitive, as `sort` requires of its
      block) gives the inputs in comparator order, as a permutation of them. */
  lemma {:induction false} SortSorted(xs: seq<FileWrapper>, cmp: Comparator)
    requires Total(cmp) && Transitive(cmp)
    ensures Sorted(Sort(xs, cmp), cmp)
    ensures multiset(Sort(xs, cmp)) == multiset(xs)
  {
    if xs != [] {
      SortSorted(xs[1..], cmp);
      InsertSorted(xs[0], Sort(xs[1..], cmp), cmp);
    }
  }

  /** `FileWrapper#<=>` and its reverse are consistent comparators. */
  lemma CompareIsConsistent()
    ensures Total((a, b) => Compare(a, b)) && Transitive((a, b) => Compare(a, b))
    ensures Total((a, b) => Compare(b, a)) && Transitive((a, b) => Compare(b, a))
  {
    forall a, b ensures Compare(a, b) <= 0 || Compare(b, a) <= 0 {
      CompareAntisymmetric(a, b);
    }
    forall a, b, c | Compare(a, b) <= 0 && Compare(b, c) <= 0 ensures Compare(a, c) <= 0 {
      CompareTransitive(a, b, c);
    }
    forall a, b, c | Compare(b, a) <= 0 && Compare(c, b) <= 0 ensures Compare(c, a) <= 0 {
      CompareTransitive(c, b, a);
    }
  }

  /** What `finalize` sees of a sorted pipeline: its input files and its comparator. */
  datatype SortedPipeline = SortedPipeline(inputFiles: seq<FileWrapper>, comparator: Comparator)

  /** `output_files` */
  function OutputFiles(p: SortedPipeline): seq<FileWrapper> {
    Sort(p.inputFiles, p.comparator)
  }

  /** `finalize`, overridden to do nothing: the inputs no filter matched are not collected,
      so every input file reaches the next part of the pipeline as an output file. */
  function Finalize(p: SortedPipeline): (r: SortedPipeline)
    ensures r.inputFiles == p.inputFiles
    ensures multiset(OutputFiles(r)) == multiset(p.inputFiles)
  {
    p
  }

  /** After `finalize`, with a consistent comparator, the output files are every input
      file, in comparator order. */
  lemma FinalizeKeepsSortedInputs(p: SortedPipeline)
    requires Total(p.comparator) && Transitive(p.comparator)
    ensures Sorted(OutputFiles(Finalize(p)), p.comparator)
    ensures multiset(OutputFiles(Finalize(p))) == multiset(p.inputFiles)
  {
    SortSorted(p.inputFiles, p.comparator);
  }
}

=== FILE: wrappers.dfy ===
/** Failure-carrying values shared by every module of the model. */
module Wrappers {

  /** Ruby's `nil` versus a present value. */
  datatype Option<+T> = None | Some(value: T) {
    function GetOr(default: T): T {
      match this
      case Some(v) => v
      case None => default
    }
  }

  /** The outcome of an operation that may raise. */
  datatype Result<+T, +E> = Ok(value: T) | Err(error: E) {
    predicate IsFailure() {
      Err?
    }

    function PropagateFailure<U>(): Result<U, E>
      requires Err?
    {
      Err(error)
    }

    function Extract(): T
      requires Ok?
    {
      value
    }
  }
}

/** The exceptions the modelled Ruby code can raise. */
module Errors {

  datatype Error =
      /** `RuntimeError` from `FileWrapper#fullpath` when the root is not absolute */
    | RootNotAbsolute(root: string, path: string)
      /** `Rake::Pipeline::UnopenedFile` from `FileWrapper#write` */
    | UnopenedFile
      /** `IOError "closed stream"` from `FileWrapper#close` */
    | ClosedStream
      /** `Errno::ENOENT` when a file that must exist does not */
    | MissingFile(path: string)
      /** `NoMethodError` raised by calling `called` on `nil` */
    | NilReceiver(called: string)
      /** `TypeError` from `File.expand_path(nil)` */
    | NilPath
      /** `Rake::Pipeline::Error` from `Pipeline#relative_input_files` */
    | PipelineError
      /** `DynamicFileTask::ManifestRequired` */
    | ManifestRequired
      /** `Graph::MissingNode` */
    | MissingNode(name: string)
      /** an exception raised by a filter's own block */
    | BlockRaised
}
